=== FILE: README.md ===
# QoreBot command core in Dafny

This project models the command core of QoreBot, an IRC bot written in Java.
A chat line such as `!say hello {!time}` is tokenized into a tree of literal
words and nested invocations. Every command of the line's scope (the channel,
or the sender in private chat) is offered the tree, and the first answer that
is not null is sent back. A command materialises its arguments by
dispatching each nested invocation again. Permission levels gate what a user
may do. Commands run either inline or behind a lazily started FIFO queue.

The modules:

- `Text`: the whitespace set, `trim`, ASCII case mapping, and joining with single spaces.
- `Messages`: the message tree, with `StringMessage` as `Literal` and `CommandMessage` as `Invocation`.
  It also holds `isCommand` and `toString`.
- The tokenizer (`CommandMessage.splitMessage`):
  - `Tokenizer` holds one loop iteration as `Step`, the loop as `Scan`, and `Split`.
  - `TokenizerSteps` holds helper lemmas, one per branch of the loop body, that the other proofs unfold the loop with.
  - `TokenizerWords` proves that plain text splits into words.
  - `TokenizerEscapes` proves that a line of words with escapes splits into those words, each unescaped.
  - `TokenizerQuotes` proves that quoted arguments round-trip.
  - `TokenizerNesting` covers balanced brace groups at any depth, escapes inside groups, implicit nesting, the end-of-line flush and unterminated quotes.
  - `Rendering` proves that the tokenizer reads back the rendering of an invocation of plain words.
  - `TokenizerExamples` holds concrete lines.
- `Levels`: `UserLevel`, with its order, integer map, `max` and `toString`.
- `Users`: the helpers of `User` for identifiers, nicknames, level strings, effective levels and level changes.
  The database is a parameter.
- `Commands`: the helpers of `qorebot.plugins.commands.Command`, namely argument concatenation, argument materialisation, message routing and `checkPermissions`.
- `LegacyCommands`: what the older `command.Command` does differently.
- `Events`: the event kinds.
- `Registry`: `CommandPlugin`'s command sets and `Pluginable`'s plugin set.
- `Dispatch`: `CommandPlugin.isImplemented`, `onMessage` and `parseMessage`.
- `Handlers`: `IOCommand` and `Command.receive`.
- `Queues`: `ThreadedCommand` and `ThreadedPlugin`, as a sequential queue state machine.
- `Say`: `SayCommand`.
- `UserCommand`: level validation and the permission gates of `UserCommand`.

Modelling choices:

- Java's `null` becomes `Option`.
- An exception becomes an explicit outcome: `NoCommandSet`, `SplitFault`, `NickFault`, or `None` from `GetArgumentConcat`.
- An object's identity is an integer `ref`.
- A `HashSet` iteration order is a sequence that enumerates the set.
- A database lookup or write is a parameter whose cases cover the outcomes the source handles: no statement, a failing query, or rows.
- Sending a message is modelled as the message value that would be sent.

`src/command/Command.java` repeats `isCommand`, `getArgumentConcat` and the three- and four-argument `sendMessage` of the newer class with the same statements. Those are modelled once in `Commands` and `Messages`.

## Model

| member | source | states |
|---|---|---|
| Messages.LiteralText | src/command/StringMessage.java:15-25 | a literal gives back exactly the text it was built from |
| Messages.QuoteLiteral | src/command/StringMessage.java:27-30 | a literal renders as its text between two quotes, unescaped, so the rendering is two characters longer |
| Messages.Render | src/qorebot/plugins/commands/message/CommandMessage.java:264-272 | a literal renders quoted; an invocation renders starting with `{` and ending with ` }` |
| Messages.RenderChildrenAppend | src/qorebot/plugins/commands/message/CommandMessage.java:268-269 | the children render one after the other: rendering two runs of children is rendering each run in turn, and one child renders as a space and its rendering |
| Messages.IsCommandReadsFirstChild | src/qorebot/plugins/commands/message/CommandMessage.java:93-99 | only the first child decides `isCommand`; an invocation there never matches; the bare and the prefixed name both match |
| Text.Trim | src/qorebot/plugins/commands/message/CommandMessage.java:117-117 | the trimmed line is empty or starts and ends with non-whitespace |
| Text.TrimIsSlice | src/qorebot/plugins/commands/message/CommandMessage.java:117-118 | trimming removes only whitespace, and only at both ends |
| Tokenizer.WordToken | src/qorebot/plugins/commands/message/CommandMessage.java:218-232 | a finished word is an invocation exactly when it is not the first word and starts with `!`; that invocation wraps the word as its one literal |
| Tokenizer.Step | src/qorebot/plugins/commands/message/CommandMessage.java:120-241 | each loop iteration consumes at least one character and keeps the loop invariant; a nested text it emits is shorter than the line |
| Tokenizer.Tokens | src/qorebot/plugins/commands/message/CommandMessage.java:112-262 | every nested text handed on for re-parsing is shorter than the line, so the recursion terminates |
| Tokenizer.Split | src/qorebot/plugins/commands/message/CommandMessage.java:117-120 | an empty or all-whitespace line has no children |
| Tokenizer.Parse | src/qorebot/plugins/commands/message/CommandMessage.java:25-29 | parsing a line always gives an invocation |
| TokenizerSteps.StepVerbatim | src/qorebot/plugins/commands/message/CommandMessage.java:148-171 | inside a level, any character other than `}` and `\` is kept and the level never drops |
| TokenizerWords.WordsTrim | src/qorebot/plugins/commands/message/CommandMessage.java:117-117 | trimming never changes the words of a line |
| TokenizerWords.PlainTextSplitsIntoWords | src/qorebot/plugins/commands/message/CommandMessage.java:213-240 | a line without `"`, `\`, braces or whitespace-preceded `!` splits into its whitespace-separated words as literals, in order |
| TokenizerQuotes.QuotedArgsRoundTrip | src/qorebot/plugins/commands/message/CommandMessage.java:127-208 | any list of strings, each quoted with `"` and `\` escaped and separated by spaces, splits back into exactly those strings as literals |
| Rendering.RenderedWordsRoundTrip | src/qorebot/plugins/commands/message/CommandMessage.java:264-272 | splitting the rendering of an invocation of words without quotes, backslashes or braces gives back that one invocation, so rendering and splitting are inverse on such trees |
| TokenizerNesting.LevelStep | src/qorebot/plugins/commands/message/CommandMessage.java:127-171 | at an open level outside a quote, one iteration that does not close the last level emits nothing, appends exactly the characters it consumed, and moves the level as `LevelMove` says |
| TokenizerNesting.GroupRun | src/qorebot/plugins/commands/message/CommandMessage.java:127-171 | a stretch that keeps a level open, escapes and inner braces included, is appended to the word verbatim and emits nothing |
| TokenizerNesting.BraceGroup | src/qorebot/plugins/commands/message/CommandMessage.java:127-163 | a level-0 group `{X}` whose inside is balanced becomes one nested invocation of the pending word followed by `X`, inner braces and escapes kept; the outer braces are dropped |
| TokenizerNesting.GroupSplit | src/qorebot/plugins/commands/message/CommandMessage.java:148-163 | a line `{X}` with `X` balanced is one invocation whose children are the split of `X`, so the group's text is parsed exactly once more |
| TokenizerNesting.EscapeAtTop | src/qorebot/plugins/commands/message/CommandMessage.java:127-139 | a line that is one escape pair gives the escaped character alone as a literal, without its backslash |
| TokenizerNesting.EscapeResolvedOnce | src/qorebot/plugins/commands/message/CommandMessage.java:127-139 | inside a group the backslash of an escape is kept in the nested text and removed when that text is parsed, so `{\x}` is one invocation of the literal `x` |
| TokenizerNesting.NestedGroupSplit | src/qorebot/plugins/commands/message/CommandMessage.java:148-163 | `{A{B}C}` is one invocation of the split of `A{B}C`: an inner group only lowers the level again |
| TokenizerNesting.EmptyBraces | src/qorebot/plugins/commands/message/CommandMessage.java:148-163 | `{}` gives one invocation with no children |
| TokenizerNesting.VerbatimTail | src/qorebot/plugins/commands/message/CommandMessage.java:243-257 | an open level that the rest of the line never closes keeps the rest of the line, inner groups and escapes included, and the flush makes it one nested invocation |
| TokenizerNesting.ImplicitTail | src/qorebot/plugins/commands/message/CommandMessage.java:166-171 | after the first word, a whitespace-preceded `!` whose level the rest of the line never closes turns the rest of the line from the `!` on into one child, whatever inner groups and escapes follow |
| TokenizerNesting.UnclosedBrace | src/qorebot/plugins/commands/message/CommandMessage.java:159-163 | an opening brace whose level the rest of the line never closes turns the rest of the line after it into one child, whatever inner groups and escapes follow |
| TokenizerNesting.LevelRun | src/qorebot/plugins/commands/message/CommandMessage.java:170-171 | inside a level, a run that opens and closes nothing is appended to the word unchanged |
| TokenizerNesting.InnerGroup | src/qorebot/plugins/commands/message/CommandMessage.java:148-168 | inside a group, a whitespace-preceded `!` opens a second level that the next `}` only lowers; the `!`, the text and the `}` are kept |
| TokenizerNesting.SwallowedClose | src/qorebot/plugins/commands/message/CommandMessage.java:148-171 | a group whose inner `!` swallows its closing brace, followed by text that never closes the outer level, becomes one child running from after `{` to the end of the line |
| TokenizerNesting.UnterminatedQuote | src/qorebot/plugins/commands/message/CommandMessage.java:243-257 | a quote that never closes is flushed as one literal without the opening quote |
| TokenizerNesting.SplitIgnoresSurroundingSpace | src/qorebot/plugins/commands/message/CommandMessage.java:117-117 | whitespace around a line does not change its children |
| TokenizerExamples.ThreeWords | src/qorebot/plugins/commands/message/CommandMessage.java:213-235 | three space-separated words are read as those three words |
| TokenizerExamples.SayHelloWorld | src/qorebot/plugins/commands/message/CommandMessage.java:102-111 | `!say hello world` gives the literals `!say`, `hello`, `world` |
| TokenizerExamples.PlainThenSwallowedGroup | src/qorebot/plugins/commands/message/CommandMessage.java:148-171 | a plain prefix then a swallowed group tokenizes as the prefix's words and one nested text running to the end |
| TokenizerExamples.PlainThenSwallowedSplit | src/qorebot/plugins/commands/message/CommandMessage.java:243-257 | the same line's children are the prefix's literals and one invocation parsed from the text after the brace |
| TokenizerExamples.SwallowedCloseExample | src/qorebot/plugins/commands/message/CommandMessage.java:166-168 | `!o {!i a !x} t` gives the literal `!o` and the nested text `!i a !x} t` |
| TokenizerExamples.PlainThenImplicit | src/qorebot/plugins/commands/message/CommandMessage.java:166-171 | a plain prefix then a whitespace-preceded `!` whose level is never closed tokenizes as the prefix's words and one nested text from the `!` to the end |
| TokenizerExamples.ImplicitAroundGroupExample | src/qorebot/plugins/commands/message/CommandMessage.java:148-171 | in `!s a !b {c} d` the inner group only raises and lowers the level, so `!b {c} d` is one nested text |
| TokenizerExamples.UnclosedAroundGroupExample | src/qorebot/plugins/commands/message/CommandMessage.java:148-163 | in `{a {b} c` the inner group closes only itself, so `a {b} c` is one nested text |
| TokenizerExamples.SayEscapedBraces | src/qorebot/plugins/commands/message/CommandMessage.java:127-143 | `!say \{literal\}` gives the literals `!say` and `{literal}` |
| TokenizerExamples.SayLoneBackslash | src/qorebot/plugins/commands/message/CommandMessage.java:127-143 | `!say a\b` gives the literals `!say` and `a\b`: a backslash before a character it does not escape is kept |
| TokenizerEscapes.UnescapeEscape | src/qorebot/plugins/commands/message/CommandMessage.java:127-143 | unescaping, which drops the backslash of each pair before `"`, `\`, `{` or `}` and keeps any other backslash, undoes escaping every such character |
| TokenizerEscapes.UnescapeAppend | src/qorebot/plugins/commands/message/CommandMessage.java:127-143 | unescaping a word read in two pieces is unescaping each piece, unless a final lone backslash of the first piece pairs with the second |
| TokenizerEscapes.EscapedScan | src/qorebot/plugins/commands/message/CommandMessage.java:127-240 | at level 0, from any point of a line with no unescaped quote or brace and no implicit nesting, the loop emits the rest's whitespace words, each unescaped, as literals |
| TokenizerEscapes.EscapedTokens | src/qorebot/plugins/commands/message/CommandMessage.java:112-257 | the token stream of such a line is its whitespace-separated words, each unescaped, as literals |
| TokenizerEscapes.EscapedSplit | src/qorebot/plugins/commands/message/CommandMessage.java:112-257 | such a line splits into its whitespace-separated words, each unescaped, as literals, in order: an escape pair gives its second character and a backslash before any other character is kept |
| Levels.Rank | src/qorebot/UserLevel.java:19-53 | the seven levels in declaration order |
| Levels.RankInjective | src/qorebot/UserLevel.java:19-53 | the comparison of levels is a total order: equal rank means the same level |
| Levels.ToInteger | src/qorebot/UserLevel.java:88-95 | `toInteger` gives the key under which the integer map holds the level, between -1 and 5 |
| Levels.FromInteger | src/qorebot/UserLevel.java:77-79 | `fromInteger` is defined exactly on -1..5 and returns the level the map holds there |
| Levels.FromToInteger | src/qorebot/UserLevel.java:77-95 | every level survives the round trip through its integer |
| Levels.ToFromInteger | src/qorebot/UserLevel.java:68-79 | every integer in -1..5 survives the round trip through its level |
| Levels.ToIntegerMonotone | src/qorebot/UserLevel.java:56-66 | the integer map is strictly monotone in the declaration order |
| Levels.Max | src/qorebot/UserLevel.java:107-113 | `max` returns one of its arguments, and that argument is at least both |
| Levels.MaxCommutes | src/qorebot/UserLevel.java:97-113 | `max` does not depend on argument order |
| Levels.MaxIsLeast | src/qorebot/UserLevel.java:97-113 | a level is at least `max(a, b)` exactly when it is at least both |
| Levels.NameInjective | src/qorebot/UserLevel.java:19-53 | distinct levels have distinct constant names |
| Levels.ValueOfName | src/qorebot/User.java:686-688 | `valueOf` finds every level by its constant name |
| Levels.ToString | src/qorebot/UserLevel.java:115-118 | the printed name is the constant name in lower case: a non-empty run of lower-case letters of the same length, and upper-casing it gives the constant name back |
| Levels.ToStringInjective | src/qorebot/UserLevel.java:115-118 | distinct levels print differently |
| Users.ParseInt | src/qorebot/User.java:676-676 | `parseInt` accepts only values that fit in 32 bits |
| Users.ParseShowInt | src/qorebot/User.java:675-684 | parsing a printed 32-bit integer gives it back |
| Users.FromLevelStringNumber | src/qorebot/User.java:675-681 | a number gives a level other than UNKNOWN exactly when it is in 0..5; in -1..5 it gives the level whose integer it is |
| Users.FromLevelStringWord | src/qorebot/User.java:686-691 | a non-number gives a level exactly when it equals that level's name in any case |
| Users.LettersAreNotNumbers | src/qorebot/User.java:675-684 | a word of letters never takes the numeric branch |
| Users.FromLevelStringOfToString | src/qorebot/User.java:674-692 | every level's printed name parses back to it |
| Users.FromLevelStringOfInteger | src/qorebot/User.java:674-682 | every level's integer, printed, parses back to it |
| Users.FromLevelStringIgnoresCase | src/qorebot/User.java:687-687 | the level string is read case-insensitively |
| Users.CreatedIdsAreUniqueIds | src/qorebot/User.java:353-366 | every identifier built by `createUniqueId` is recognised by `isUniqueId` |
| Users.GetNickname | src/qorebot/User.java:471-476 | no identifier gives null; otherwise the part before the first `!`; an identifier made only of `!` throws |
| Users.NicknameOfCreatedId | src/qorebot/User.java:471-476 | the nickname of a created identifier is the nick it was created from, when that nick has no `!` |
| Users.GetLevelIn | src/qorebot/User.java:500-531 | the global level for unidentified users or no channel; UNKNOWN without a connection; else max of global and the channel row, or global without a row or after a failed query |
| Users.HasLevelMonotone | src/qorebot/User.java:646-662 | holding a level, globally or in a channel, implies holding every lower one |
| Users.ChannelNeverLowers | src/qorebot/User.java:500-531 | with a database connection, a channel never lowers the global level |
| Users.SetLevel | src/qorebot/User.java:540-566 | succeeds exactly for an identified user whose write goes through, and then changes only the global level; otherwise nothing changes |
| Users.SetLevelThenHasLevel | src/qorebot/User.java:540-566 | after a successful `setLevel` the user holds exactly the levels up to the new one |
| Users.SetChannelLevel | src/qorebot/User.java:577-603 | writes only for an identified user with a connection; then the user's row is the level and every other row is unchanged |
| Users.SetChannelThenGet | src/qorebot/User.java:577-603 | reading back after a successful channel write gives max of the global level and the written level |
| Users.SetChannelOthersUnchanged | src/qorebot/User.java:577-603 | a write in one channel leaves the user's level in every other channel as it was |
| Users.RemoveChannelLevel | src/qorebot/User.java:612-637 | deletes only the user's row of that channel, and only for an identified user with a connection |
| Users.RemoveChannelThenGet | src/qorebot/User.java:612-637 | after a removal the user is back at the global level in that channel |
| Users.Unidentify | src/qorebot/User.java:200-204 | afterwards not identified, no username, id 0, level NONE; the identifier is kept |
| Users.UnidentifiedEverywhereNone | src/qorebot/User.java:200-204 | an unidentified user is at NONE in every channel and fails every IDENTIFIED gate |
| Commands.GetArgumentConcat | src/qorebot/plugins/commands/Command.java:358-369 | joins the arguments from `begin` to `end`, clamped to the list, with single spaces (null reads `null`); a negative `begin` not past `end` throws |
| Commands.SpacedIsJoin | src/qorebot/plugins/commands/Command.java:360-366 | prefixing each part with a space and dropping the first character is the single-space join |
| Commands.GetArgumentConcatFrom | src/qorebot/plugins/commands/Command.java:380-382 | joins everything from `begin` to the last argument |
| Commands.ArgumentConcatExample | src/qorebot/plugins/commands/Command.java:341-357 | `a b c d` from 1 to 3 joins to `b c d` |
| Commands.ParseArguments | src/qorebot/plugins/commands/Command.java:308-338 | one argument per child, in order: a literal's text, or the dispatcher's answer (possibly null) for an invocation |
| Commands.NestedCalls | src/qorebot/plugins/commands/Command.java:319-320 | the calls dispatched are exactly the children that are invocations, at most one per child |
| Commands.NestedCallsAppend | src/qorebot/plugins/commands/Command.java:308-338 | the dispatched calls keep the children's order: the calls of two runs of children are those of the first followed by those of the second |
| Commands.ArgumentsOfLiterals | src/qorebot/plugins/commands/Command.java:311-312 | literal children come back as their texts with no dispatch at all |
| Commands.NickText | src/qorebot/plugins/commands/Command.java:437-437 | the nickname in a personal message; absent exactly when `getNickname` throws |
| Commands.PrivateSend | src/qorebot/User.java:720-722 | a private message reaches the user exactly when the user's nickname can be read, and carries the message unchanged |
| Commands.SendMessage | src/qorebot/plugins/commands/Command.java:433-440 | to the user without a channel, failing exactly when the nickname cannot be read; to the channel otherwise, after `nick: ` when personal |
| Commands.WrapErrorMessage | src/qorebot/plugins/commands/Command.java:485-487 | the message after the four characters of the bold and red control codes |
| Commands.SendErrorMessage | src/qorebot/plugins/commands/Command.java:470-477 | uncoloured to the user without a channel, failing exactly when the nickname cannot be read; wrapped in the channel, after `nick: ` when personal |
| Commands.ErrorIsWrappedMessage | src/qorebot/plugins/commands/Command.java:433-477 | an error goes where the plain message goes; in a channel its text is the plain text wrapped |
| Commands.ActualLevel | src/qorebot/plugins/commands/Command.java:504-509 | the level compared is the user's effective level in the scope |
| Commands.CheckPermissions | src/qorebot/plugins/commands/Command.java:503-521 | grants exactly when the effective level is at least the required one; otherwise sends one personal error naming the action and both levels |
| Commands.CheckPermissionsMonotone | src/qorebot/plugins/commands/Command.java:503-521 | passing at one required level means passing at every lower one |
| Commands.PrivateRefusal | src/qorebot/plugins/commands/Command.java:470-472 | a refusal in private chat is one uncoloured private message when the user has a nickname, and a nickname fault otherwise |
| LegacyCommands.SendError | src/command/Command.java:351-357 | the three-argument form colours the message wherever it goes; it fails only in private chat, exactly when the nickname cannot be read |
| LegacyCommands.SendErrorPersonal | src/command/Command.java:372-381 | the four-argument form is an uncoloured private message in private chat, failing exactly when the nickname cannot be read |
| LegacyCommands.SendErrorPersonalAgrees | src/command/Command.java:372-381 | the four-argument form sends exactly what the newer class sends |
| LegacyCommands.SendErrorDiffersInPrivate | src/command/Command.java:351-357 | the three-argument forms of the two classes agree in channels; in private chat they differ in colour when the nickname can be read and fail alike when it cannot |
| LegacyCommands.CheckPermissionsLegacy | src/command/Command.java:397-416 | grants exactly when the effective level is at least the required one; otherwise one report |
| LegacyCommands.CheckPermissionsAgree | src/command/Command.java:397-416 | the old and the new gate decide and report alike |
| LegacyCommands.SetAutoregisterChannels | src/command/Command.java:61-84 | sets the channel flag only, and writes the `autoregister_channels` column exactly when the id is positive |
| LegacyCommands.SetAutoregisterUsers | src/command/Command.java:92-115 | sets the user flag only, and writes the `autoregister_users` column exactly when the id is positive |
| LegacyCommands.AutoregisterSettersCommute | src/command/Command.java:61-115 | the two setters commute and never write the same column |
| LegacyCommands.SetAutoregisterChannelsAsWritten | src/qorebot/plugins/commands/Command.java:71-74 | the newer setter for channel autoregistration never changes the channel flag: it sets the user flag to the value and, when the id is positive, writes that value to the user column of the command's row |
| LegacyCommands.SetAutoregisterUsersAsWritten | src/qorebot/plugins/commands/Command.java:82-85 | the newer setter for user autoregistration sets the user flag and nothing else in memory, but when the id is positive writes the value to the channel column of the command's row |
| LegacyCommands.AutoregisterChannelsSwapped | src/qorebot/plugins/commands/Command.java:65-74 | on a stored command with both flags off, the newer setter turns on user autoregistration instead of channel autoregistration; the older one turns on the channel flag and column |
| LegacyCommands.AutoregisterUsersWrongColumn | src/qorebot/plugins/commands/Command.java:76-85 | for every stored command, the newer user setter writes a different row update than the older one, which writes the user column |
| Registry.RegisterInChannel | src/plugins/CommandPlugin.java:422-426 | the channel's set is created if missing and gains the command; no other set changes |
| Registry.RegisterForUser | src/plugins/CommandPlugin.java:408-412 | the user's set is created if missing and gains the command; no other set changes |
| Registry.Unregister | src/plugins/CommandPlugin.java:445-452 | the command leaves the global set and every scope set; everything else stays |
| Registry.UnregisterUndoesRegister | src/plugins/CommandPlugin.java:422-452 | unregistering undoes registering a command that was nowhere before |
| Registry.Selected | src/plugins/CommandPlugin.java:273-278 | a scope gets exactly the known commands that auto-register for it or are registered by id |
| Registry.RegisterCommandsForChannel | src/plugins/CommandPlugin.java:248-280 | replaces only the channel's set by the selected commands; without a statement nothing changes |
| Registry.RegisterCommandsForUser | src/plugins/CommandPlugin.java:288-321 | an unidentified user gets only the auto-registering commands; an identified one also those registered by id |
| Registry.UnidentifyUser | src/qorebot/User.java:200-208 | after `unidentify` and the create-user event it broadcasts, the user is unidentified with its identifier kept, and its command set is exactly the auto-registering commands; no other set changes |
| Registry.UnidentifiedSetSettled | src/plugins/CommandPlugin.java:288-321 | a further create-user event for the unidentified user rebuilds the same set, whatever the database holds |
| Registry.RegisterCommand | src/plugins/CommandPlugin.java:330-398 | the command joins all channels when it auto-registers, else those listed for it, then likewise users; a missing statement stops the rest |
| Registry.AddCommand | src/plugins/CommandPlugin.java:434-437 | the command joins the global set and no scope loses a command |
| Registry.AutoregisteredInEveryChannel | src/plugins/CommandPlugin.java:330-334 | an auto-registering command ends up in every channel of the bot |
| Registry.ReloadCommand | src/plugins/CommandPlugin.java:225-240 | the old instance is unregistered; a new instance with the same id, name and flags is added when it can be created |
| Registry.ReloadDropsOldInstance | src/plugins/CommandPlugin.java:225-240 | after a reload the old instance is in no set |
| Registry.RegisterPlugin | src/qorebot/plugins/Pluginable.java:20-22 | the plugin is in the set afterwards and no other member changes |
| Registry.UnregisterPlugin | src/qorebot/plugins/Pluginable.java:28-30 | the plugin is out of the set afterwards and no other member changes |
| Registry.PluginRegistration | src/qorebot/plugins/Pluginable.java:20-30 | registering is idempotent, and unregistering undoes registering a new plugin |
| Registry.Update | src/qorebot/plugins/Pluginable.java:43-46 | every registered plugin receives the event exactly once |
| Dispatch.ImplementedIffOverridden | src/plugins/CommandPlugin.java:55-78 | the four implemented kinds are exactly those with their own handler |
| Dispatch.PluginReaction | src/qorebot/plugins/Plugin.java:290-293 | an event reaches a handler exactly when its kind is implemented |
| Dispatch.FirstAnswer | src/plugins/CommandPlugin.java:121-121 | the result is present exactly when some answer is, and then it is the earliest present one |
| Dispatch.ParseMessage | src/plugins/CommandPlugin.java:116-130 | every command of the scope runs, in iteration order, and the first non-null answer wins; a scope without a set throws |
| Dispatch.FirstAnswerWins | src/plugins/CommandPlugin.java:116-130 | a command whose predecessors all answer null wins, whatever comes after it |
| Dispatch.QueuedScopeIsSilent | src/qorebot/plugins/commands/ThreadedCommand.java:38-48 | when every command of a scope is queued, the dispatch loop over their `receive` answers finds none, whatever the queues hold and whichever commands handle the request |
| Dispatch.ChannelLine | src/plugins/CommandPlugin.java:81-89 | a channel line is ignored unless it starts with `!` or `<botnick>:`; that address is cut off |
| Dispatch.AddressedLine | src/plugins/CommandPlugin.java:82-89 | a line addressed to the bot is parsed without the address |
| Dispatch.ChannelMessage | src/plugins/CommandPlugin.java:81-91 | a channel line is parsed exactly when it passes the filter |
| Dispatch.Reply | src/plugins/CommandPlugin.java:93-99 | a non-null answer goes to the channel, or to the sender without one; a null answer sends nothing |
| Handlers.InlineHandle | src/qorebot/plugins/commands/IOCommand.java:23-30 | unhandled gives null with no dispatch; handled passes the arguments to the list handler and returns its answer unchanged |
| Handlers.Receive | src/qorebot/plugins/commands/Command.java:253-269 | `receive` returns the handler's answer unchanged; the private overload is the same call without a channel |
| Handlers.FlatMessageDispatchesNothing | src/qorebot/plugins/commands/IOCommand.java:24-26 | a message without nested invocations is handled without any dispatch |
| Queues.Offer | src/qorebot/plugins/commands/ThreadedCommand.java:40-45 | a refused item changes nothing; an accepted one goes to the tail, creating the queue first |
| Queues.Take | src/qorebot/plugins/commands/ThreadedCommand.java:59-59 | the worker takes the head when there is one |
| Queues.RunIsFifo | src/qorebot/plugins/commands/ThreadedCommand.java:38-64 | handled followed by pending is pending at the start followed by the accepted items in order; the worker starts once, on the first accepted item |
| Queues.HandledInAcceptOrder | src/qorebot/plugins/ThreadedPlugin.java:27-52 | from a fresh handler the items handled are a prefix of the items accepted, and at most one worker starts |
| Queues.CommandReceive | src/qorebot/plugins/commands/ThreadedCommand.java:38-48 | the answer is always null; a handled request is queued, an unhandled one changes nothing |
| Queues.PluginReceive | src/qorebot/plugins/ThreadedPlugin.java:27-36 | an event of an implemented kind is queued; any other changes nothing |
| Say.SayList | src/plugins/commands/SayCommand.java:42-48 | a lone keyword gets the wrapped usage error; otherwise the arguments after the keyword, joined by spaces |
| Say.SayHandle | src/plugins/commands/SayCommand.java:23-39 | null unless `say` or `parse`; `say` echoes its arguments; `parse` answers with the rendered tree |
| Say.SayEchoesLiterals | src/plugins/commands/SayCommand.java:45-47 | literal arguments are echoed verbatim |
| Say.SayOfPlainLine | src/plugins/commands/SayCommand.java:25-27 | a plain line starting with `!say` is a `say` command echoing its other words |
| UserCommand.ChannelChangeFor | src/plugins/commands/UserCommand.java:118-127 | `remove` removes; a level from IDENTIFIED to ADMINISTRATOR is set; anything else is refused |
| UserCommand.ChannelLevelNames | src/plugins/commands/UserCommand.java:124-127 | the printed names of IDENTIFIED to ADMINISTRATOR are accepted, the others refused |
| UserCommand.PrintedLevelIsNotRemove | src/plugins/commands/UserCommand.java:119-119 | no printed level reads `remove` |
| UserCommand.ChangeChannelLevel | src/plugins/commands/UserCommand.java:118-133 | removes or sets the override as chosen, or leaves the table alone for a refused level |
| UserCommand.ChannelLevelCommand | src/plugins/commands/UserCommand.java:92-96 | below ADMINISTRATOR in the channel nothing changes and one refusal is sent |
| UserCommand.ChannelOverrideGuarded | src/plugins/commands/UserCommand.java:92-133 | an override changes only for an ADMINISTRATOR actor, an identified target and an acceptable level |
| UserCommand.ChannelOverrideTakesEffect | src/plugins/commands/UserCommand.java:124-131 | after an accepted override the target's level in the channel is the larger of its global level and the written one |
| UserCommand.GlobalLevelFor | src/plugins/commands/UserCommand.java:139-141 | a global level is accepted exactly when it is at least IDENTIFIED |
| UserCommand.GlobalLevelNames | src/plugins/commands/UserCommand.java:138-146 | the printed names of IDENTIFIED to OWNER are accepted; NONE and UNKNOWN are not |
| UserCommand.UserLevelCommand | src/plugins/commands/UserCommand.java:103-107 | below OWNER or for a refused level the target is unchanged; otherwise `setLevel` is applied |
| UserCommand.GlobalLevelGuarded | src/plugins/commands/UserCommand.java:103-146 | a global level changes only for an OWNER actor and an accepted level, and then to that level |

## Left out

- IRC and JDBC input and output are not modelled. Sending becomes the value of the outgoing message, and a database lookup or write becomes a parameter.
- Reflection is not modelled: the `getMethod(...).invoke` call in `parseArguments` is a dispatch function parameter. Its exceptions yield null, which that parameter can return.
- Threads are not modelled. The `Thread` start, the blocking `take` and concurrent interleavings become a sequential `Run` over steps; a take on an empty queue is a step that does nothing.
- `UserCommand` user lookup is not modelled: finding the affected user, the `~username` path, and the arity and not-identified messages. The caller passes the affected user.
- UserCommand.ChangeChannelLevel: takes the channel as an integer. In private chat the source would pass a null channel to `setLevel`/`removeLevel` and throw.
- Say.SayHandle: requires at least one child. A line with no words makes `isCommand` read a missing first child and throw.
- Registry.ReloadCommand: a command class that cannot be created again is modelled as nothing being added. The source adds `null` to the set and then throws in `init`.
- Users.GetLevelIn: the channel table stores levels, not integers, so a stored integer outside -1..5 is not modelled. The source would pass null to `max` and throw there.
- Java's `String.trim` and `Character.isWhitespace` are two different whitespace sets. The model uses one set: space, tab, line feed, carriage return, vertical tab and form feed.
- Users are keyed by the value of their state, not by object identity. Two users with equal fields are the same key.
- The payload fields of `Event` are not modelled. Only the kind and an identity are kept, and the `Plugin.redirect` switch is reduced to the handler it would choose.
- A failing registry query is a parameter value chosen by what the caller keeps. `registerCommands` for a channel or a user keeps the ids read before the failure, so it gets `Rows` of those. `registerCommand` runs its register loop inside the failing `try`, so it registers nothing for that scope; its caller passes `Rows({})`.
- Messages.Render: quotes a literal without escaping it, as the source does. The round trip is proved for invocations of words without quotes, backslashes or braces; trees with nested invocations or such characters are not covered.
- Users.ParseInt: reads ASCII digits only. Java's `parseInt` also accepts other Unicode decimal digits, such as full-width ones.
- Users.FromLevelStringWord: upper-cases with ASCII case mapping only. Java's `toUpperCase` uses the default locale and full Unicode mapping, so for example the Turkish locale or `ſ` can match a name the model does not.
- Users.FromLevelStringIgnoresCase: is stated for ASCII case mapping only, for the same reason.
- Levels.ToString: lower-cases with ASCII case mapping, which assumes a locale whose mapping agrees with ASCII on the constant names. In the Turkish locale `toLowerCase` maps `I` to a dotless `ı`.
- Users.Unidentify: resets the fields only. The bot's `registerPlugins` rebuild of the user's plugin set is in `QoreBot`, which is not part of this model. The create-user broadcast is modelled for `CommandPlugin` by `Registry.UnidentifyUser`; other plugins' reactions are not modelled. `clearLastUniqueId` is a database write with no effect on the modelled state.
- `onPrivateMessage`/`onMessage` sending the reply is only modelled as the routing function `Reply`.
- The parent back-pointer of `Message` is dropped, as are the `getPlugins`/`getCommands` getters, which return the modelled sets themselves.
- TokenizerEscapes.EscapedSplit: is stated for lines without an unescaped quote or brace and without implicit nesting. A quote inside a word, which the source keeps as text, falls outside it. Escapes inside quotes are covered by TokenizerQuotes.QuotedArgsRoundTrip, and escapes inside groups by TokenizerNesting.GroupSplit and EscapeResolvedOnce.
- TokenizerExamples.SwallowedCloseExample: states the token stream of that concrete line. Its children follow from PlainThenSwallowedSplit, which is stated for every such line.

## Findings

| source | as written | input that shows it | evidently intended | confidence | as-written member | corrected member |
|---|---|---|---|---|---|---|
| src/qorebot/plugins/commands/Command.java:71-74 | `setAutoregisterChannels` assigns `autoregisterUsers` and updates the `autoregister_users` column | a command with id 7 and both flags off, `setAutoregisterChannels(true)`: the channel flag stays off and user autoregistration is switched on | set `autoregisterChannels` and update `autoregister_channels`, as the same setter in `src/command/Command.java:61-84` does | high, from reading; not executed | LegacyCommands.AutoregisterChannelsSwapped | LegacyCommands.SetAutoregisterChannels |
| src/qorebot/plugins/commands/Command.java:82-85 | `setAutoregisterUsers` updates the `autoregister_channels` column | a command with id 7, `setAutoregisterUsers(true)`: the stored channel flag is overwritten and the stored user flag is unchanged | update `autoregister_users`, as `src/command/Command.java:92-115` does | high, from reading; not executed | LegacyCommands.AutoregisterUsersWrongColumn | LegacyCommands.SetAutoregisterUsers |

=== FILE: commands.dfy ===
/**
 * The shared helpers of `qorebot.plugins.commands.Command`: keyword
 * matching, argument concatenation, argument materialisation, message
 * routing and the permission gate. Sending a message is modelled as the
 * value of the message that would be sent.
 */
module Commands {
  import W = Wrappers
  import opened Text
  import opened Messages
  import opened Levels
  import opened Users

  /** The fields a command object carries; `ref` stands for the object's identity. */
  datatype CommandInfo = CommandInfo(ref: int, id: int, name: string, autoregisterChannels: bool, autoregisterUsers: bool)

  /** One message handed to a command: the channel (absent in private chat), the sender and the parsed line. */
  datatype Request = Request(channel: W.Option<int>, user: UserState, msg: Message)

  // ---------------------------------------------------------------- arguments

  /** How Java's string concatenation shows an argument: a null argument reads `null`. */
  function ArgText(a: W.Option<string>): string {
    match a
    case Some(t) => t
    case None => "null"
  }

  function ArgTexts(args: seq<W.Option<string>>): (ts: seq<string>)
    ensures |ts| == |args|
    ensures forall k :: 0 <= k < |args| ==> ts[k] == ArgText(args[k])
  {
    seq(|args|, k requires 0 <= k < |args| => ArgText(args[k]))
  }

  /**
   * The arguments `getArgumentConcat(args, begin, end)` is meant to join:
   * indices `begin` through `end`, cut off at the end of the list; none
   * when `begin` is past `end` or past the list.
   */
  function Window(args: seq<W.Option<string>>, begin: int, end: int): (ws: seq<string>)
    requires 0 <= begin || end < begin
  {
    if end < begin || |args| <= begin then []
    else ArgTexts(args)[begin..if end + 1 < |args| then end + 1 else |args|]
  }

  /** Every part preceded by one space: what the source's loop accumulates. */
  function Spaced(parts: seq<string>): (r: string)
    ensures |r| >= |parts|
    ensures parts != [] ==> r[0] == ' '
  {
    if parts == [] then [] else Spaced(parts[..|parts| - 1]) + " " + parts[|parts| - 1]
  }

  lemma {:induction false} JoinSpacedSnoc(parts: seq<string>, p: string)
    requires parts != []
    ensures JoinSpaced(parts + [p]) == JoinSpaced(parts) + " " + p
    decreases |parts|
  {
    if |parts| > 1 {
      assert (parts + [p])[1..] == parts[1..] + [p];
      JoinSpacedSnoc(parts[1..], p);
    } else {
      assert (parts + [p])[1..] == [p];
    }
  }

  /** Dropping the first space of the accumulated string gives the spaced join. */
  lemma {:induction false} SpacedIsJoin(parts: seq<string>)
    requires parts != []
    ensures Spaced(parts)[1..] == JoinSpaced(parts)
    decreases |parts|
  {
    var init := parts[..|parts| - 1];
    var last := parts[|parts| - 1];
    assert parts == init + [last];
    if init != [] {
      SpacedIsJoin(init);
      JoinSpacedSnoc(init, last);
      assert Spaced(parts)[1..] == Spaced(init)[1..] + " " + last;
    }
  }

  /**
   * `getArgumentConcat(arguments, begin, end)`: the arguments from `begin`
   * to `end` joined by single spaces, clamped to the list. A negative
   * `begin` with `begin <= end` reads index `begin` and throws; the model
   * returns `None` there.
   */
  method GetArgumentConcat(args: seq<W.Option<string>>, begin: int, end: int) returns (r: W.Option<string>)
    ensures r.None? <==> begin < 0 && begin <= end
    ensures r.Some? ==> r.value == JoinSpaced(Window(args, begin, end))
  {
    var parts := ArgTexts(args);
    var concat := "";
    var i := begin;
    while i <= end && i < |args|
      invariant begin <= i
      invariant i > begin ==> 0 <= begin && i <= |args| && i <= end + 1
      invariant concat == if i == begin then "" else Spaced(parts[begin..i])
      decreases |args| - i
    {
      if i < 0 {
        return W.None;
      }
      SpacedStep(parts, begin, i);
      concat := concat + " " + parts[i];
      i := i + 1;
    }
    WindowAtExit(args, begin, end, i);
    if |concat| > 0 {
      SpacedIsJoin(parts[begin..i]);
      concat := concat[1..];
    }
    r := W.Some(concat);
  }

  /** One more iteration adds a space and the next part to the accumulated string. */
  lemma SpacedStep(parts: seq<string>, begin: int, i: int)
    requires 0 <= begin <= i < |parts|
    ensures Spaced(parts[begin..i + 1]) == (if i == begin then "" else Spaced(parts[begin..i])) + " " + parts[i]
  {
    assert parts[begin..i + 1][..i - begin] == parts[begin..i];
  }

  /** Where the loop stops, the indices it has read are exactly the window. */
  lemma WindowAtExit(args: seq<W.Option<string>>, begin: int, end: int, i: int)
    requires 0 <= begin || end < begin
    requires begin <= i && !(i <= end && i < |args|)
    requires i > begin ==> 0 <= begin && i <= |args| && i <= end + 1
    ensures i == begin ==> Window(args, begin, end) == []
    ensures i > begin ==> Window(args, begin, end) == ArgTexts(args)[begin..i]
  {
  }

  /** `getArgumentConcat(arguments, begin)`: everything from `begin` to the last argument. */
  method GetArgumentConcatFrom(args: seq<W.Option<string>>, begin: int) returns (r: W.Option<string>)
    ensures r.None? <==> begin < 0
    ensures r.Some? ==> r.value == JoinSpaced(Window(args, begin, |args| - 1))
    ensures r.Some? && begin < |args| ==> r.value == JoinSpaced(ArgTexts(args)[begin..])
  {
    r := GetArgumentConcat(args, begin, |args| - 1);
    if r.Some? && begin < |args| {
      assert ArgTexts(args)[begin..|args|] == ArgTexts(args)[begin..];
    }
  }

  /** The example of the source's documentation: `['a','b','c','d'], 1, 3` joins to `b c d`. */
  lemma ArgumentConcatExample()
    ensures JoinSpaced(Window([W.Some("a"), W.Some("b"), W.Some("c"), W.Some("d")], 1, 3)) == "b c d"
  {
    var args := [W.Some("a"), W.Some("b"), W.Some("c"), W.Some("d")];
    assert Window(args, 1, 3) == ["b", "c", "d"];
  }

  /**
   * `parseArguments`: one entry per child, in order; a literal gives its
   * text and an invocation gives what the owning plugin's dispatcher makes
   * of it, possibly null.
   */
  function ParseArguments(children: seq<Message>, dispatch: Message -> W.Option<string>): (args: seq<W.Option<string>>)
    ensures |args| == |children|
    ensures forall k :: 0 <= k < |children| && children[k].Literal? ==> args[k] == W.Some(children[k].text)
    ensures forall k :: 0 <= k < |children| && children[k].Invocation? ==> args[k] == dispatch(children[k])
  {
    if children == [] then []
    else
      var head := match children[0]
        case Literal(t) => W.Some(t)
        case Invocation(_) => dispatch(children[0]);
      [head] + ParseArguments(children[1..], dispatch)
  }

  /** The nested invocations `parseArguments` hands to the dispatcher, in order. */
  function NestedCalls(children: seq<Message>): (calls: seq<Message>)
    ensures |calls| <= |children|
    ensures forall k :: 0 <= k < |calls| ==> calls[k].Invocation?
    ensures forall m :: m in calls <==> m in children && m.Invocation?
  {
    if children == [] then []
    else (if children[0].Invocation? then [children[0]] else []) + NestedCalls(children[1..])
  }

  /**
   * The nested calls of two runs of children are those of the first run
   * followed by those of the second: the filter keeps the children's order.
   */
  lemma {:induction false} NestedCallsAppend(a: seq<Message>, b: seq<Message>)
    ensures NestedCalls(a + b) == NestedCalls(a) + NestedCalls(b)
    decreases a
  {
    if a == [] {
      assert a + b == b;
    } else {
      assert (a + b)[0] == a[0] && (a + b)[1..] == a[1..] + b;
      NestedCallsAppend(a[1..], b);
    }
  }

  /** Literal children are passed through as their texts, whatever the dispatcher. */
  lemma {:induction false} ArgumentsOfLiterals(ws: seq<string>, dispatch: Message -> W.Option<string>)
    ensures ArgTexts(ParseArguments(Lits(ws), dispatch)) == ws
    ensures NestedCalls(Lits(ws)) == []
    decreases |ws|
  {
    if ws != [] {
      ArgumentsOfLiterals(ws[1..], dispatch);
      assert Lits(ws)[1..] == Lits(ws[1..]);
    }
  }

  // ---------------------------------------------------------------- routing

  /** A message the bot sends: privately to the user, or to a channel. */
  datatype Outgoing = ToUser(text: string) | ToChannel(channel: int, text: string)

  /** A send that either happens or fails on the user's nickname. */
  datatype Delivery = Sent(out: Outgoing) | NickFault

  /**
   * The nickname as Java's string concatenation shows it: `null` when the
   * user has no identifier, nothing at all when `getNickname` throws.
   */
  function NickText(u: UserState): (r: W.Option<string>)
    ensures r.None? <==> GetNickname(u.uniqueId) == SplitFault
  {
    match GetNickname(u.uniqueId)
    case NoId => W.Some("null")
    case Nick(n) => W.Some(n)
    case SplitFault => W.None
  }

  /**
   * `sendMessage(channel, user, message, personal)`: to the user when there
   * is no channel, otherwise to the channel, addressed to the user's
   * nickname when personal. Sending to the user reads the nickname too
   * (`User.sendMessage`), so in private chat it fails exactly when the
   * nickname does.
   */
  function SendMessage(channel: W.Option<int>, u: UserState, message: string, personal: bool): (d: Delivery)
    ensures d.Sent? <==> (channel.Some? && !personal) || NickText(u).Some?
    ensures channel.None? && d.Sent? ==> d == Sent(ToUser(message))
    ensures d.Sent? && channel.Some? ==> d.out == ToChannel(channel.value, d.out.text)
    ensures d.Sent? && channel.Some? && !personal ==> d.out.text == message
    ensures d.Sent? && channel.Some? && personal ==> d.out.text == NickText(u).value + ": " + message
  {
    match channel
    case None => PrivateSend(u, message)
    case Some(c) =>
      if !personal then Sent(ToChannel(c, message))
      else match NickText(u)
        case Some(n) => Sent(ToChannel(c, n + ": " + message))
        case None => NickFault
  }

  /** `User.sendMessage`: a private message to the user, which needs the user's nickname as the target. */
  function PrivateSend(u: UserState, message: string): (d: Delivery)
    ensures d.Sent? <==> NickText(u).Some?
    ensures d.Sent? ==> d.out == ToUser(message)
  {
    match NickText(u)
    case Some(_) => Sent(ToUser(message))
    case None => NickFault
  }

  /** IRC control codes for bold and red, as the PircBot `Colors` class defines them. */
  const Bold: string := "\U{0002}"
  const Red: string := "\U{0003}04"

  /** `wrapErrorMessage`: the message behind the bold and red control codes. */
  function WrapErrorMessage(message: string): (r: string)
    ensures |r| == |message| + 4
    ensures r[..4] == Bold + Red && r[4..] == message
  {
    Bold + Red + message
  }

  /**
   * `sendErrorMessage(channel, user, message, personal)`: a private error is
   * sent as it is; a channel error is wrapped, after the nickname when
   * personal.
   */
  function SendErrorMessage(channel: W.Option<int>, u: UserState, message: string, personal: bool): (d: Delivery)
    ensures d.Sent? <==> (channel.Some? && !personal) || NickText(u).Some?
    ensures channel.None? && d.Sent? ==> d == Sent(ToUser(message))
    ensures d.Sent? && channel.Some? ==> d.out == ToChannel(channel.value, d.out.text)
    ensures d.Sent? && channel.Some? && !personal ==> d.out.text == WrapErrorMessage(message)
    ensures d.Sent? && channel.Some? && personal ==> d.out.text == WrapErrorMessage(NickText(u).value + ": " + message)
  {
    match channel
    case None => PrivateSend(u, message)
    case Some(c) =>
      if !personal then Sent(ToChannel(c, WrapErrorMessage(message)))
      else match NickText(u)
        case Some(n) => Sent(ToChannel(c, WrapErrorMessage(n + ": " + message)))
        case None => NickFault
  }

  /** In a channel an error is the plain message, wrapped; in private chat the two coincide. */
  lemma ErrorIsWrappedMessage(channel: W.Option<int>, u: UserState, message: string, personal: bool)
    ensures channel.None? ==> SendErrorMessage(channel, u, message, personal) == SendMessage(channel, u, message, personal)
    ensures channel.Some? && SendMessage(channel, u, message, personal).Sent? ==>
      SendErrorMessage(channel, u, message, personal)
        == Sent(ToChannel(channel.value, WrapErrorMessage(SendMessage(channel, u, message, personal).out.text)))
  {
  }

  // ---------------------------------------------------------------- permissions

  /** The level `checkPermissions` compares: the global one without a channel, the channel's otherwise. */
  function ActualLevel(u: UserState, channel: W.Option<int>, store: ChannelStore): (l: UserLevel)
    ensures l == GetLevelIn(u, channel, store)
  {
    if channel.None? then u.minLevel else GetLevelIn(u, channel, store)
  }

  /** The refusal text, naming the action, the actual level and the required one. */
  function PermissionMessage(action: string, actual: UserLevel, required: UserLevel): string {
    "You don't have the required permisson for " + action + ". Your level is '"
      + ToString(actual) + "', " + "but '" + ToString(required) + "' is required."
  }

  /**
   * `checkPermissions`: grants when the actual level is at least the
   * required one; otherwise sends the user one personal error.
   */
  function CheckPermissions(action: string, required: UserLevel, channel: W.Option<int>, u: UserState, store: ChannelStore): (r: (bool, seq<Delivery>))
    ensures r.0 <==> HasLevelIn(u, required, channel, store)
    ensures channel.None? ==> (r.0 <==> HasLevel(u, required))
    ensures r.0 ==> r.1 == []
    ensures !r.0 ==> r.1 == [SendErrorMessage(channel, u, PermissionMessage(action, GetLevelIn(u, channel, store), required), true)]
  {
    var actual := ActualLevel(u, channel, store);
    if Rank(actual) < Rank(required) then
      (false, [SendErrorMessage(channel, u, PermissionMessage(action, actual, required), true)])
    else (true, [])
  }

  /** Passing the gate at one level means passing it at every lower one. */
  lemma CheckPermissionsMonotone(action: string, required: UserLevel, lower: UserLevel, channel: W.Option<int>, u: UserState, store: ChannelStore)
    requires AtLeast(required, lower)
    ensures CheckPermissions(action, required, channel, u, store).0 ==> CheckPermissions(action, lower, channel, u, store).0
  {
  }

  /**
   * A refusal in private chat is one uncoloured private message, or the
   * nickname fault when the user's identifier has no nickname.
   */
  lemma PrivateRefusal(action: string, required: UserLevel, u: UserState, store: ChannelStore)
    requires !HasLevel(u, required)
    ensures NickText(u).Some? ==>
      CheckPermissions(action, required, W.None, u, store).1 == [Sent(ToUser(PermissionMessage(action, u.minLevel, required)))]
    ensures NickText(u).None? ==> CheckPermissions(action, required, W.None, u, store).1 == [NickFault]
  {
  }
}

=== FILE: dispatch.dfy ===
/**
 * `CommandPlugin` as a dispatcher: which events it reacts to, how a chat
 * line reaches the parser, and how one parsed message is offered to every
 * command of its scope, the first non-null answer winning.
 */
module Dispatch {
  import W = Wrappers
  import opened Text
  import opened Messages
  import opened Tokenizer
  import opened Events
  import opened Users
  import opened Commands
  import opened Registry
  import opened Queues

  /** `isImplemented`: the event kinds `CommandPlugin` handles. */
  predicate IsImplemented(t: EventType) {
    t == ChannelOnMessage || t == UserOnPrivateMessage || t == PluginOnCreateChannel || t == PluginOnCreateUser
  }

  /** The handler `redirect` calls for an event kind, among those `CommandPlugin` overrides. */
  datatype Reaction = RegisterUserCommands | RegisterChannelCommands | ParsePrivate | ParseChannel | Inherited

  function ReactionTo(t: EventType): Reaction {
    match t
    case PluginOnCreateUser => RegisterUserCommands
    case PluginOnCreateChannel => RegisterChannelCommands
    case UserOnPrivateMessage => ParsePrivate
    case ChannelOnMessage => ParseChannel
    case _ => Inherited
  }

  /** The plugin declares exactly the kinds whose handlers it overrides. */
  lemma ImplementedIffOverridden(t: EventType)
    ensures IsImplemented(t) <==> ReactionTo(t) != Inherited
  {
  }

  /** `Plugin.receive`: an event reaches `handleEvent` only when its kind is implemented. */
  function PluginReaction(e: Event): (r: Reaction)
    ensures r != Inherited <==> IsImplemented(e.kind)
  {
    if IsImplemented(e.kind) then ReactionTo(e.kind) else Inherited
  }

  // ---------------------------------------------------------------- first answer

  /** The first present answer, or none. */
  function FirstAnswer(rs: seq<W.Option<string>>): (r: W.Option<string>)
    ensures r.Some? <==> exists k :: 0 <= k < |rs| && rs[k].Some?
    ensures r.Some? ==> exists k :: 0 <= k < |rs| && rs[k] == r && forall j :: 0 <= j < k ==> rs[j].None?
  {
    if rs == [] then W.None
    else if rs[0].Some? then rs[0]
    else
      var t := FirstAnswer(rs[1..]);
      assert forall k :: 1 <= k < |rs| ==> rs[k] == rs[1..][k - 1];
      t
  }

  lemma {:induction false} FirstAnswerSnoc(rs: seq<W.Option<string>>, x: W.Option<string>)
    ensures FirstAnswer(rs + [x]) == if FirstAnswer(rs).Some? then FirstAnswer(rs) else x
    decreases |rs|
  {
    if rs != [] {
      assert (rs + [x])[1..] == rs[1..] + [x];
      FirstAnswerSnoc(rs[1..], x);
    } else {
      assert ([] + [x])[1..] == [];
    }
  }

  /** The answers of the commands, in iteration order. */
  function Answers(order: seq<CommandInfo>, receive: CommandInfo -> W.Option<string>): (rs: seq<W.Option<string>>)
    ensures |rs| == |order|
    ensures forall k :: 0 <= k < |order| ==> rs[k] == receive(order[k])
  {
    seq(|order|, k requires 0 <= k < |order| => receive(order[k]))
  }

  /** The command set `parseMessage` iterates: the channel's, or the sender's in private chat. */
  function ScopeCommands(reg: Registry, channel: W.Option<int>, sender: UserState): W.Option<set<CommandInfo>> {
    match channel
    case Some(c) => if c in reg.channels then W.Some(reg.channels[c]) else W.None
    case None => if sender in reg.users then W.Some(reg.users[sender]) else W.None
  }

  /** The outcome of `parseMessage`: the answer and the commands that were run, or the exception of a missing set. */
  datatype DispatchResult = Dispatched(answer: W.Option<string>, ran: seq<CommandInfo>) | NoCommandSet

  /**
   * `parseMessage`: every command of the scope receives the message, in
   * iteration order; the first non-null answer is kept. A scope without a
   * set throws.
   */
  method ParseMessage(reg: Registry, channel: W.Option<int>, sender: UserState, order: seq<CommandInfo>,
                      receive: CommandInfo -> W.Option<string>) returns (d: DispatchResult)
    requires ScopeCommands(reg, channel, sender).Some? ==> IsEnumeration(order, ScopeCommands(reg, channel, sender).value)
    ensures d.NoCommandSet? <==> ScopeCommands(reg, channel, sender).None?
    ensures d.Dispatched? ==> d.ran == order && d.answer == FirstAnswer(Answers(order, receive))
  {
    if ScopeCommands(reg, channel, sender).None? {
      return NoCommandSet;
    }
    var answers := Answers(order, receive);
    var result: W.Option<string> := W.None;
    var ran: seq<CommandInfo> := [];
    var i := 0;
    while i < |order|
      invariant i <= |order|
      invariant ran == order[..i]
      invariant result == FirstAnswer(answers[..i])
    {
      var r := receive(order[i]);
      FirstAnswerSnoc(answers[..i], r);
      assert answers[..i + 1] == answers[..i] + [r];
      result := if result.Some? || r.None? then result else r;
      ran := ran + [order[i]];
      i := i + 1;
    }
    assert answers[..i] == answers;
    d := Dispatched(result, ran);
  }

  /** A command whose predecessors all answer null wins, whatever comes after it. */
  lemma FirstAnswerWins(rs: seq<W.Option<string>>, k: nat)
    requires k < |rs| && rs[k].Some? && forall j :: 0 <= j < k ==> rs[j].None?
    ensures FirstAnswer(rs) == rs[k]
  {
    var r := FirstAnswer(rs);
    var m :| 0 <= m < |rs| && rs[m] == r && forall j :: 0 <= j < m ==> rs[j].None?;
  }

  /**
   * A scope of queued commands never answers: whatever each command's
   * worker holds and whether or not it handles the request, its `receive`
   * queues and returns null, so the dispatch loop has no answer to send.
   */
  lemma QueuedScopeIsSilent(order: seq<CommandInfo>, worker: CommandInfo -> Worker<Request>, handled: CommandInfo -> bool, req: Request)
    ensures FirstAnswer(Answers(order, c => CommandReceive(worker(c), handled(c), req).0)).None?
  {
  }

  // ---------------------------------------------------------------- chat lines

  /**
   * `onMessage`: a channel line is ignored unless it starts with `!` or
   * with the bot's nickname and a colon; that address is cut off.
   */
  function ChannelLine(botNick: string, line: string): (r: W.Option<string>)
    ensures r.None? <==> !StartsWith(line, Prefix) && !StartsWith(line, botNick + ":")
    ensures r.Some? && StartsWith(line, botNick + ":") ==> line == botNick + ":" + r.value
    ensures r.Some? && !StartsWith(line, botNick + ":") ==> r.value == line
  {
    var alternate := botNick + ":";
    if !StartsWith(line, Prefix) && !StartsWith(line, alternate) then W.None
    else if StartsWith(line, alternate) then
      assert line == alternate + line[|alternate|..];
      W.Some(line[|alternate|..])
    else W.Some(line)
  }

  /** A line addressed to the bot is parsed without the address. */
  lemma AddressedLine(botNick: string, text: string)
    ensures ChannelLine(botNick, botNick + ":" + text) == W.Some(text)
  {
    var line := botNick + ":" + text;
    assert line[..|botNick + ":"|] == botNick + ":";
  }

  /** The message parsed for a channel line, if it is parsed at all. */
  function ChannelMessage(botNick: string, line: string): (m: W.Option<Message>)
    ensures m.Some? <==> ChannelLine(botNick, line).Some?
    ensures m.Some? ==> m.value == Parse(ChannelLine(botNick, line).value)
  {
    match ChannelLine(botNick, line)
    case None => W.None
    case Some(t) => W.Some(Parse(t))
  }

  /** Where a non-null answer goes: the channel, or the sender when there is none. */
  function Reply(channel: W.Option<int>, answer: W.Option<string>): (r: W.Option<Outgoing>)
    ensures r.Some? <==> answer.Some?
    ensures r.Some? ==> r.value.text == answer.value
    ensures r.Some? ==> (r.value.ToUser? <==> channel.None?)
  {
    match answer
    case None => W.None
    case Some(a) =>
      match channel
      case None => W.Some(ToUser(a))
      case Some(c) => W.Some(ToChannel(c, a))
  }
}

=== FILE: events.dfy ===
/**
 * The event kinds the bot raises (`EventType`) and the event record handed
 * to plugins. Of an event the model keeps its kind and its identity; the
 * payload fields are only carried through.
 */
module Events {

  datatype EventType =
    | PluginOnCreateUser | PluginOnCreateChannel
    | UserOnAction | UserOnNickChange | UserOnNotice | UserOnPrivateMessage | UserOnQuit | UserOnUserMode
    | ChannelOnAction | ChannelOnChannelInfo | ChannelOnDeop | ChannelOnDevoice | ChannelOnInvite
    | ChannelOnJoin | ChannelOnKick | ChannelOnMessage | ChannelOnMode | ChannelOnNickChange
    | ChannelOnNotice | ChannelOnOp | ChannelOnPart | ChannelOnQuit
    | ChannelOnRemoveChannelBan | ChannelOnRemoveChannelKey | ChannelOnRemoveChannelLimit
    | ChannelOnRemoveInviteOnly | ChannelOnRemoveModerated | ChannelOnRemoveNoExternalMessages
    | ChannelOnRemovePrivate | ChannelOnRemoveSecret | ChannelOnRemoveTopicProtection
    | ChannelOnSetChannelBan | ChannelOnSetChannelKey | ChannelOnSetChannelLimit
    | ChannelOnSetInviteOnly | ChannelOnSetModerated | ChannelOnSetNoExternalMessages
    | ChannelOnSetPrivate | ChannelOnSetSecret | ChannelOnSetTopicProtection
    | ChannelOnTopic | ChannelOnUserList | ChannelOnVoice
    | Unknown

  /** An event object: its kind, and `ref` for the object's identity. */
  datatype Event = Event(kind: EventType, ref: int)
}

=== FILE: handlers.dfy ===
/**
 * The inline handler kind (`IOCommand`): it answers on the caller's thread,
 * so its answer reaches the dispatcher directly. The queued kind is in
 * `Queues`.
 */
module Handlers {
  import W = Wrappers
  import opened Messages
  import opened Users
  import opened Commands

  /**
   * `IOCommand.handleMessage`: an unhandled message gives null without
   * evaluating any argument; a handled one has its arguments materialised
   * once and gets the list handler's answer. The second component lists the
   * nested invocations handed to the dispatcher.
   */
  function InlineHandle(isHandled: Request -> bool, handleList: (Request, seq<W.Option<string>>) -> W.Option<string>,
                        req: Request, dispatch: Message -> W.Option<string>): (r: (W.Option<string>, seq<Message>))
    requires req.msg.Invocation?
    ensures !isHandled(req) ==> r.0.None? && r.1 == []
    ensures isHandled(req) ==> r.0 == handleList(req, ParseArguments(req.msg.children, dispatch))
    ensures isHandled(req) ==> r.1 == NestedCalls(req.msg.children)
  {
    if isHandled(req) then
      var args := ParseArguments(req.msg.children, dispatch);
      (handleList(req, args), NestedCalls(req.msg.children))
    else (W.None, [])
  }

  /**
   * `Command.receive` for an inline command: the answer of its
   * `handleMessage` for the request, unchanged. The overload without a
   * channel is this call with the channel absent, as in private chat.
   */
  function Receive(isHandled: Request -> bool, handleList: (Request, seq<W.Option<string>>) -> W.Option<string>,
                   channel: W.Option<int>, user: UserState, msg: Message, dispatch: Message -> W.Option<string>): (r: W.Option<string>)
    requires msg.Invocation?
    ensures !isHandled(Request(channel, user, msg)) ==> r.None?
    ensures isHandled(Request(channel, user, msg)) ==> r == handleList(Request(channel, user, msg), ParseArguments(msg.children, dispatch))
  {
    InlineHandle(isHandled, handleList, Request(channel, user, msg), dispatch).0
  }

  /** A message without nested invocations is handled without any dispatch, whatever the gate says. */
  lemma FlatMessageDispatchesNothing(isHandled: Request -> bool, handleList: (Request, seq<W.Option<string>>) -> W.Option<string>,
                                     req: Request, dispatch: Message -> W.Option<string>)
    requires req.msg.Invocation? && forall k :: 0 <= k < |req.msg.children| ==> req.msg.children[k].Literal?
    ensures InlineHandle(isHandled, handleList, req, dispatch).1 == []
  {
    NoNestedCalls(req.msg.children);
  }

  lemma {:induction false} NoNestedCalls(children: seq<Message>)
    requires forall k :: 0 <= k < |children| ==> children[k].Literal?
    ensures NestedCalls(children) == []
    decreases |children|
  {
    if children != [] {
      NoNestedCalls(children[1..]);
    }
  }
}

=== FILE: legacy.dfy ===
/**
 * The older `command.Command` class. Keyword matching and argument
 * concatenation are the same code as in `Commands` and are not repeated;
 * what differs is the error colouring and the autoregister setters.
 */
module LegacyCommands {
  import W = Wrappers
  import opened Levels
  import opened Users
  import opened Commands

  /**
   * The three-argument `sendErrorMessage`: wrapped in colours wherever it
   * goes; in private chat it fails with the user's nickname.
   */
  function SendError(channel: W.Option<int>, u: UserState, message: string): (d: Delivery)
    ensures d.Sent? <==> channel.Some? || NickText(u).Some?
    ensures d.Sent? ==> d.out.text == WrapErrorMessage(message)
    ensures d.Sent? ==> (channel.None? <==> d.out.ToUser?)
    ensures d.Sent? && channel.Some? ==> d.out.channel == channel.value
  {
    match channel
    case None => PrivateSend(u, Bold + Red + message)
    case Some(c) => Sent(ToChannel(c, Bold + Red + message))
  }

  /**
   * The four-argument `sendErrorMessage`: uncoloured in private chat,
   * colours then nickname then message when personal in a channel.
   */
  function SendErrorPersonal(channel: W.Option<int>, u: UserState, message: string, personal: bool): (d: Delivery)
    ensures channel.None? ==> d == PrivateSend(u, message)
    ensures d.Sent? <==> (channel.Some? && !personal) || NickText(u).Some?
  {
    match channel
    case None => PrivateSend(u, message)
    case Some(c) =>
      if !personal then Sent(ToChannel(c, Bold + Red + message))
      else match NickText(u)
        case Some(n) => Sent(ToChannel(c, Bold + Red + n + ": " + message))
        case None => NickFault
  }

  /** The four-argument form sends exactly what the newer class sends. */
  lemma SendErrorPersonalAgrees(channel: W.Option<int>, u: UserState, message: string, personal: bool)
    ensures SendErrorPersonal(channel, u, message, personal) == SendErrorMessage(channel, u, message, personal)
  {
    if channel.Some? && personal && NickText(u).Some? {
      var n := NickText(u).value;
      assert Bold + Red + n + ": " + message == WrapErrorMessage(n + ": " + message);
    }
  }

  /** The three-argument forms of the two classes differ exactly in private chat, where only the old one colours. */
  lemma SendErrorDiffersInPrivate(channel: W.Option<int>, u: UserState, message: string)
    ensures channel.Some? ==> SendError(channel, u, message) == SendErrorMessage(channel, u, message, false)
    ensures channel.None? && NickText(u).Some? ==> SendError(channel, u, message) == Sent(ToUser(WrapErrorMessage(message)))
    ensures channel.None? && NickText(u).Some? ==> SendErrorMessage(channel, u, message, false) == Sent(ToUser(message))
    ensures channel.None? && NickText(u).None? ==> SendError(channel, u, message) == NickFault == SendErrorMessage(channel, u, message, false)
  {
  }

  /** `checkPermissions` of the old class: the same comparison, reported with the four-argument form. */
  function CheckPermissionsLegacy(action: string, required: UserLevel, channel: W.Option<int>, u: UserState, store: ChannelStore): (r: (bool, seq<Delivery>))
    ensures r.0 <==> HasLevelIn(u, required, channel, store)
    ensures r.0 ==> r.1 == []
    ensures !r.0 ==> |r.1| == 1
  {
    var actual := if channel.None? then u.minLevel else GetLevelIn(u, channel, store);
    if Rank(actual) < Rank(required) then
      (false, [SendErrorPersonal(channel, u, PermissionMessage(action, actual, required), true)])
    else (true, [])
  }

  /** The old and the new permission gate decide and report alike. */
  lemma CheckPermissionsAgree(action: string, required: UserLevel, channel: W.Option<int>, u: UserState, store: ChannelStore)
    ensures CheckPermissionsLegacy(action, required, channel, u, store) == CheckPermissions(action, required, channel, u, store)
  {
    var actual := GetLevelIn(u, channel, store);
    SendErrorPersonalAgrees(channel, u, PermissionMessage(action, actual, required), true);
  }

  /** The database write a setter attempts: `UPDATE commands SET <column> = value WHERE id = id`. */
  datatype ColumnUpdate = ColumnUpdate(column: string, value: bool, id: int)

  /**
   * `setAutoregisterChannels`: sets the channel flag; a command with a
   * positive id also writes the `autoregister_channels` column.
   */
  function SetAutoregisterChannels(c: CommandInfo, v: bool): (r: (CommandInfo, W.Option<ColumnUpdate>))
    ensures r.0.autoregisterChannels == v
    ensures r.0.autoregisterUsers == c.autoregisterUsers
    ensures r.0.ref == c.ref && r.0.id == c.id && r.0.name == c.name
    ensures r.1.Some? <==> c.id > 0
    ensures r.1.Some? ==> r.1.value == ColumnUpdate("autoregister_channels", v, c.id)
  {
    (c.(autoregisterChannels := v), if c.id > 0 then W.Some(ColumnUpdate("autoregister_channels", v, c.id)) else W.None)
  }

  /**
   * `setAutoregisterUsers`: sets the user flag; a command with a positive
   * id also writes the `autoregister_users` column.
   */
  function SetAutoregisterUsers(c: CommandInfo, v: bool): (r: (CommandInfo, W.Option<ColumnUpdate>))
    ensures r.0.autoregisterUsers == v
    ensures r.0.autoregisterChannels == c.autoregisterChannels
    ensures r.0.ref == c.ref && r.0.id == c.id && r.0.name == c.name
    ensures r.1.Some? <==> c.id > 0
    ensures r.1.Some? ==> r.1.value == ColumnUpdate("autoregister_users", v, c.id)
  {
    (c.(autoregisterUsers := v), if c.id > 0 then W.Some(ColumnUpdate("autoregister_users", v, c.id)) else W.None)
  }

  /** The two setters touch different flags and columns, so their order does not matter. */
  lemma AutoregisterSettersCommute(c: CommandInfo, a: bool, b: bool)
    ensures SetAutoregisterChannels(SetAutoregisterUsers(c, b).0, a).0 == SetAutoregisterUsers(SetAutoregisterChannels(c, a).0, b).0
    ensures SetAutoregisterChannels(c, a).1.Some? ==> SetAutoregisterChannels(c, a).1 != SetAutoregisterUsers(c, b).1
  {
  }
  /**
   * The newer class's `setAutoregisterChannels` as written: it assigns the
   * user flag and writes the `autoregister_users` column, so the channel
   * flag it is named after never changes.
   */
  function SetAutoregisterChannelsAsWritten(c: CommandInfo, v: bool): (r: (CommandInfo, W.Option<ColumnUpdate>))
    ensures r.0.autoregisterChannels == c.autoregisterChannels
    ensures r.0 == c.(autoregisterUsers := v)
    ensures r.1.Some? <==> c.id > 0
    ensures r.1.Some? ==> r.1.value == ColumnUpdate("autoregister_users", v, c.id)
  {
    (c.(autoregisterUsers := v), if c.id > 0 then W.Some(ColumnUpdate("autoregister_users", v, c.id)) else W.None)
  }

  /**
   * The newer class's `setAutoregisterUsers` as written: it assigns the user
   * flag but writes the `autoregister_channels` column.
   */
  function SetAutoregisterUsersAsWritten(c: CommandInfo, v: bool): (r: (CommandInfo, W.Option<ColumnUpdate>))
    ensures r.0 == c.(autoregisterUsers := v)
    ensures r.1.Some? <==> c.id > 0
    ensures r.1.Some? ==> r.1.value == ColumnUpdate("autoregister_channels", v, c.id)
  {
    (c.(autoregisterUsers := v), if c.id > 0 then W.Some(ColumnUpdate("autoregister_channels", v, c.id)) else W.None)
  }

  /**
   * A stored command with both flags off: switching channel autoregistration
   * on leaves it off and turns user autoregistration on instead, in memory
   * and in the database; `SetAutoregisterChannels` does what was meant.
   */
  lemma AutoregisterChannelsSwapped()
    ensures var c := CommandInfo(1, 7, "say", false, false);
      && !SetAutoregisterChannelsAsWritten(c, true).0.autoregisterChannels
      && SetAutoregisterChannelsAsWritten(c, true).0.autoregisterUsers
      && SetAutoregisterChannelsAsWritten(c, true).1 == W.Some(ColumnUpdate("autoregister_users", true, 7))
      && SetAutoregisterChannels(c, true).0.autoregisterChannels
      && SetAutoregisterChannels(c, true).1 == W.Some(ColumnUpdate("autoregister_channels", true, 7))
  {
  }

  /**
   * Saving user autoregistration in the database, as written, overwrites the
   * channel column and leaves the user column stale; `SetAutoregisterUsers`
   * writes the user column.
   */
  lemma AutoregisterUsersWrongColumn(c: CommandInfo, v: bool)
    requires c.id > 0
    ensures SetAutoregisterUsersAsWritten(c, v).1 != SetAutoregisterUsers(c, v).1
    ensures SetAutoregisterUsers(c, v).1 == W.Some(ColumnUpdate("autoregister_users", v, c.id))
  {
  }
}

=== FILE: levels.dfy ===
/**
 * Permission levels (`UserLevel`): the declaration order, the explicit
 * integer map used for storage, `max` and the lower-case rendering.
 */
module Levels {
  import W = Wrappers
  import opened Text

  /** The seven levels, in declaration order. */
  datatype UserLevel = Unknown | None | Identified | User | Operator | Administrator | Owner

  /** The declaration index of a level: what `compareTo` compares. */
  function Rank(l: UserLevel): (r: nat)
    ensures r < 7
  {
    match l
    case Unknown => 0
    case None => 1
    case Identified => 2
    case User => 3
    case Operator => 4
    case Administrator => 5
    case Owner => 6
  }

  /** `a.compareTo(b) >= 0`. */
  predicate AtLeast(a: UserLevel, b: UserLevel) {
    Rank(a) >= Rank(b)
  }

  /** Two levels with the same index are the same level. */
  lemma RankInjective(a: UserLevel, b: UserLevel)
    ensures Rank(a) == Rank(b) <==> a == b
  {
  }

  /** The storage map, as its list of entries. */
  const IntMap: seq<(int, UserLevel)> :=
    [(-1, Unknown), (0, None), (1, Identified), (2, User), (3, Operator), (4, Administrator), (5, Owner)]

  /** `toInteger`: the key under which the storage map holds the level. */
  function ToInteger(l: UserLevel): (n: int)
    ensures -1 <= n <= 5
    ensures IntMap[n + 1] == (n, l)
  {
    match l
    case Unknown => -1
    case None => 0
    case Identified => 1
    case User => 2
    case Operator => 3
    case Administrator => 4
    case Owner => 5
  }

  /** `fromInteger`: the level the storage map holds under `n`, or null. */
  function FromInteger(n: int): (r: W.Option<UserLevel>)
    ensures r.Some? <==> -1 <= n <= 5
    ensures r.Some? ==> IntMap[n + 1] == (n, r.value)
  {
    if n == -1 then W.Some(Unknown)
    else if n == 0 then W.Some(None)
    else if n == 1 then W.Some(Identified)
    else if n == 2 then W.Some(User)
    else if n == 3 then W.Some(Operator)
    else if n == 4 then W.Some(Administrator)
    else if n == 5 then W.Some(Owner)
    else W.None
  }

  /** Every level survives a round trip through its integer. */
  lemma FromToInteger(l: UserLevel)
    ensures FromInteger(ToInteger(l)) == W.Some(l)
  {
  }

  /** Every integer in the map survives a round trip through its level. */
  lemma ToFromInteger(n: int)
    requires -1 <= n <= 5
    ensures FromInteger(n).Some? && ToInteger(FromInteger(n).value) == n
  {
  }

  /** The integer map is strictly monotone in the declaration order. */
  lemma ToIntegerMonotone(a: UserLevel, b: UserLevel)
    ensures Rank(a) < Rank(b) <==> ToInteger(a) < ToInteger(b)
  {
  }

  /** `max`: `u1` if it compares above `u2`, otherwise `u2`. */
  function Max(u1: UserLevel, u2: UserLevel): (r: UserLevel)
    ensures r == u1 || r == u2
    ensures AtLeast(r, u1) && AtLeast(r, u2)
  {
    if Rank(u1) > Rank(u2) then u1 else u2
  }

  /** `max` does not depend on the order of its arguments. */
  lemma MaxCommutes(a: UserLevel, b: UserLevel)
    ensures Max(a, b) == Max(b, a)
  {
    RankInjective(a, b);
  }

  /** `max` is the least level at least both arguments. */
  lemma MaxIsLeast(a: UserLevel, b: UserLevel, c: UserLevel)
    ensures AtLeast(c, Max(a, b)) <==> AtLeast(c, a) && AtLeast(c, b)
  {
  }

  /** The constant name of a level. */
  function Name(l: UserLevel): (s: string)
    ensures forall k :: 0 <= k < |s| ==> 'A' <= s[k] <= 'Z'
  {
    match l
    case Unknown => "UNKNOWN"
    case None => "NONE"
    case Identified => "IDENTIFIED"
    case User => "USER"
    case Operator => "OPERATOR"
    case Administrator => "ADMINISTRATOR"
    case Owner => "OWNER"
  }

  /** Distinct levels have distinct names. */
  lemma NameInjective(a: UserLevel, b: UserLevel)
    ensures Name(a) == Name(b) <==> a == b
  {
  }

  /** `valueOf`: the level whose constant name is exactly `s`, or none. */
  function ValueOf(s: string): (r: W.Option<UserLevel>)
    ensures r.Some? ==> Name(r.value) == s
  {
    if s == Name(Unknown) then W.Some(Unknown)
    else if s == Name(None) then W.Some(None)
    else if s == Name(Identified) then W.Some(Identified)
    else if s == Name(User) then W.Some(User)
    else if s == Name(Operator) then W.Some(Operator)
    else if s == Name(Administrator) then W.Some(Administrator)
    else if s == Name(Owner) then W.Some(Owner)
    else W.None
  }

  /** Every constant name is found by `valueOf`. */
  lemma ValueOfName(l: UserLevel)
    ensures ValueOf(Name(l)) == W.Some(l)
  {
    forall m: UserLevel
      ensures Name(m) == Name(l) ==> m == l
    {
      NameInjective(m, l);
    }
  }

  /** `toString`: the constant name in lower case. */
  function ToString(l: UserLevel): (s: string)
    ensures |s| == |Name(l)|
    ensures Upper(s) == Name(l)
    ensures s != [] && forall k :: 0 <= k < |s| ==> 'a' <= s[k] <= 'z'
  {
    UpperOfLower(Name(l));
    LowerOfCapitals(Name(l));
    Lower(Name(l))
  }

  /** Distinct levels print differently. */
  lemma ToStringInjective(a: UserLevel, b: UserLevel)
    ensures ToString(a) == ToString(b) <==> a == b
  {
    NameInjective(a, b);
  }
}

=== FILE: messages.dfy ===
/**
 * The message tree produced by the tokenizer: a literal leaf (the source's
 * StringMessage) or an invocation holding an ordered list of children (the
 * source's CommandMessage). The parent back-pointer of the source is dropped.
 */
module Messages {
  import opened Text

  datatype Message = Literal(text: string) | Invocation(children: seq<Message>)

  /** The command prefix character. */
  const Prefix: string := "!"

  /** Every word, as a literal, in order. */
  function Lits(ws: seq<string>): (ms: seq<Message>)
    ensures |ms| == |ws|
    ensures forall k :: 0 <= k < |ws| ==> ms[k] == Literal(ws[k])
  {
    if ws == [] then [] else [Literal(ws[0])] + Lits(ws[1..])
  }

  /** `getMessage` of a literal leaf: exactly the text it was built from. */
  function LiteralText(m: Message): (t: string)
    requires m.Literal?
    ensures Literal(t) == m
  {
    m.text
  }

  /** Keyword match: the input is the command name, bare or prefixed with `!`. */
  predicate IsCommandWord(input: string, command: string) {
    input == command || input == Prefix + command
  }

  /**
   * `CommandMessage.isCommand`: the first child is a literal whose text is the
   * command name, bare or prefixed. The source reads the first child
   * unconditionally, so a message without children is outside its domain.
   */
  predicate IsCommand(m: Message, command: string)
    requires m.Invocation? && |m.children| > 0
  {
    m.children[0].Literal? && IsCommandWord(m.children[0].text, command)
  }

  /**
   * Only the first child decides: an invocation there is never a command,
   * and a literal there is the command named bare or with the prefix.
   */
  lemma IsCommandReadsFirstChild(m: Message, command: string)
    requires m.Invocation? && |m.children| > 0
    ensures m.children[0].Invocation? ==> !IsCommand(m, command)
    ensures IsCommand(m, command) <==> IsCommand(Invocation([m.children[0]]), command)
    ensures IsCommand(Invocation([Literal(command)]), command) && IsCommand(Invocation([Literal(Prefix + command)]), command)
  {
  }

  /** The quoted rendering of a literal: `"` + text + `"`, no escaping. */
  function QuoteLiteral(text: string): (r: string)
    ensures |r| == |text| + 2
    ensures r[0] == '"' && r[|r| - 1] == '"'
    ensures r[1..|r| - 1] == text
  {
    "\"" + text + "\""
  }

  /**
   * `toString` of the tree: a literal renders quoted, an invocation renders
   * as `{`, then ` ` + rendering for each child, then ` }`.
   */
  function Render(m: Message): (r: string)
    ensures m.Literal? ==> r == QuoteLiteral(m.text)
    ensures m.Invocation? ==> |r| >= 3 && r[0] == '{' && r[|r| - 2..] == " }"
  {
    match m
    case Literal(t) => QuoteLiteral(t)
    case Invocation(cs) => "{" + RenderChildren(cs) + " }"
  }

  /** The concatenation of ` ` + rendering over the children, in order. */
  function RenderChildren(cs: seq<Message>): (r: string)
    ensures |r| >= |cs|
    decreases cs
  {
    if cs == [] then [] else " " + Render(cs[0]) + RenderChildren(cs[1..])
  }

  /** Rendering two runs of children one after the other renders each run in turn. */
  lemma {:induction false} RenderChildrenAppend(a: seq<Message>, b: seq<Message>)
    ensures RenderChildren(a + b) == RenderChildren(a) + RenderChildren(b)
    ensures |a| == 1 ==> RenderChildren(a) == " " + Render(a[0])
    decreases a
  {
    if a == [] {
      assert a + b == b;
    } else {
      assert (a + b)[0] == a[0] && (a + b)[1..] == a[1..] + b;
      RenderChildrenAppend(a[1..], b);
    }
    if |a| == 1 {
      assert a[1..] == [];
    }
  }
}

=== FILE: queues.dfy ===
/**
 * The queued handlers (`ThreadedCommand`, `ThreadedPlugin`) as a sequential
 * state machine. The queue and its worker thread are created on the first
 * accepted item; every accepted item goes to the tail of an unbounded
 * queue; the worker takes items from the head and handles them one at a
 * time. Blocking on an empty queue is the absence of a step.
 */
module Queues {
  import W = Wrappers
  import opened Events
  import opened Commands

  /** `queue == null` (no worker yet), or a running worker with its pending items. */
  datatype Worker<T> = Dormant | Running(queue: seq<T>)

  /** The items waiting to be handled. */
  function Pending<T>(w: Worker<T>): seq<T> {
    match w
    case Dormant => []
    case Running(q) => q
  }

  /**
   * `receive`: an accepted item is offered at the tail, creating the queue
   * (and starting the worker) first when there is none; anything else
   * leaves the state alone.
   */
  function Offer<T>(w: Worker<T>, accept: bool, x: T): (r: Worker<T>)
    ensures !accept ==> r == w
    ensures accept ==> r.Running? && r.queue == Pending(w) + [x]
  {
    if !accept then w
    else match w
      case Dormant => Running([x])
      case Running(q) => Running(q + [x])
  }

  /** Whether this `receive` call starts the worker thread. */
  predicate StartsWorker<T>(w: Worker<T>, accept: bool) {
    accept && w.Dormant?
  }

  /** One `take` of the worker: the head of the queue, when there is one. */
  function Take<T>(w: Worker<T>): (r: W.Option<(T, Worker<T>)>)
    ensures r.Some? <==> Pending(w) != []
    ensures r.Some? ==> [r.value.0] + Pending(r.value.1) == Pending(w) && r.value.1.Running?
  {
    match w
    case Dormant => W.None
    case Running(q) => if q == [] then W.None else W.Some((q[0], Running(q[1..])))
  }

  /** A step of the interleaving: a `receive` call, or one iteration of the worker's loop. */
  datatype Op<T> = Receive(accept: bool, item: T) | Work

  /** The items of the `receive` calls that were accepted, in call order. */
  function Accepted<T>(ops: seq<Op<T>>): seq<T> {
    if ops == [] then []
    else (if ops[0].Receive? && ops[0].accept then [ops[0].item] else []) + Accepted(ops[1..])
  }

  /** The outcome of an interleaving: the final state, the thread starts and the items handled in order. */
  datatype Trace<T> = Trace(last: Worker<T>, starts: nat, handled: seq<T>)

  /** Runs the steps in order; a worker step on an empty queue blocks and is skipped. */
  function Run<T>(w: Worker<T>, ops: seq<Op<T>>): Trace<T>
    decreases |ops|
  {
    if ops == [] then Trace(w, 0, [])
    else match ops[0]
      case Receive(accept, x) =>
        var t := Run(Offer(w, accept, x), ops[1..]);
        Trace(t.last, t.starts + (if StartsWorker(w, accept) then 1 else 0), t.handled)
      case Work =>
        match Take(w)
        case None => Run(w, ops[1..])
        case Some(p) =>
          var t := Run(p.1, ops[1..]);
          Trace(t.last, t.starts, [p.0] + t.handled)
  }

  /**
   * The FIFO facts of a trace `t` that started from `w` and accepted `acc`:
   * the items handled followed by those still queued are the items pending
   * at the start followed by the accepted ones, and the worker was started
   * once exactly when it was dormant and something was accepted.
   */
  ghost predicate FifoTrace<T>(w: Worker<T>, acc: seq<T>, t: Trace<T>) {
    && t.handled + Pending(t.last) == Pending(w) + acc
    && t.starts == (if w.Dormant? && acc != [] then 1 else 0)
    && (w.Running? || acc != [] ==> t.last.Running?)
    && (w.Dormant? && acc == [] ==> t.last == Dormant)
  }

  /** An accepted `receive` call in front of a FIFO trace gives a FIFO trace. */
  lemma AcceptKeepsFifo<T>(w: Worker<T>, x: T, acc: seq<T>, t: Trace<T>)
    requires FifoTrace(Offer(w, true, x), acc, t)
    ensures FifoTrace(w, [x] + acc, Trace(t.last, t.starts + (if w.Dormant? then 1 else 0), t.handled))
  {
    assert Pending(Offer(w, true, x)) == Pending(w) + [x];
    assert (Pending(w) + [x]) + acc == Pending(w) + ([x] + acc);
  }

  /** A worker iteration that takes an item, in front of a FIFO trace, gives a FIFO trace. */
  lemma WorkKeepsFifo<T>(w: Worker<T>, acc: seq<T>, t: Trace<T>)
    requires Take(w).Some? && FifoTrace(Take(w).value.1, acc, t)
    ensures FifoTrace(w, acc, Trace(t.last, t.starts, [Take(w).value.0] + t.handled))
  {
    var p := Take(w).value;
    assert ([p.0] + t.handled) + Pending(t.last) == [p.0] + (t.handled + Pending(t.last));
    assert [p.0] + (Pending(p.1) + acc) == ([p.0] + Pending(p.1)) + acc;
  }

  /**
   * First in, first out: the items handled followed by those still queued
   * are the items pending at the start followed by the items accepted, in
   * order; the worker is started at most once and only for an accepted item.
   */
  lemma {:induction false} RunIsFifo<T>(w: Worker<T>, ops: seq<Op<T>>)
    ensures Run(w, ops).handled + Pending(Run(w, ops).last) == Pending(w) + Accepted(ops)
    ensures Run(w, ops).starts == (if w.Dormant? && Accepted(ops) != [] then 1 else 0)
    ensures w.Running? || Accepted(ops) != [] ==> Run(w, ops).last.Running?
    ensures w.Dormant? && Accepted(ops) == [] ==> Run(w, ops).last == Dormant
    decreases |ops|
  {
    if ops != [] {
      var rest := ops[1..];
      match ops[0] {
        case Receive(accept, x) =>
          RunIsFifo(Offer(w, accept, x), rest);
          if accept {
            AcceptKeepsFifo(w, x, Accepted(rest), Run(Offer(w, accept, x), rest));
            assert Accepted(ops) == [x] + Accepted(rest);
          } else {
            assert Accepted(ops) == Accepted(rest);
          }
        case Work =>
          assert Accepted(ops) == Accepted(rest);
          match Take(w) {
            case None => RunIsFifo(w, rest);
            case Some(p) =>
              RunIsFifo(p.1, rest);
              WorkKeepsFifo(w, Accepted(rest), Run(p.1, rest));
          }
      }
    }
  }

  /** From a fresh command or plugin, the items handled are a prefix of the items accepted. */
  lemma HandledInAcceptOrder<T>(ops: seq<Op<T>>)
    ensures Run(Dormant, ops).handled <= Accepted(ops)
    ensures Run(Dormant, ops).starts <= 1
  {
    RunIsFifo(Dormant, ops);
    var t := Run(Dormant, ops);
    assert t.handled + Pending(t.last) == Accepted(ops);
    assert Accepted(ops)[..|t.handled|] == t.handled;
  }

  // ---------------------------------------------------------------- the two handler kinds

  /**
   * `ThreadedCommand.receive`: a handled request is queued as
   * `(channel, user, msg)`; the answer is always null.
   */
  function CommandReceive(w: Worker<Request>, handled: bool, req: Request): (r: (W.Option<string>, Worker<Request>))
    ensures r.0.None?
    ensures !handled ==> r.1 == w
    ensures handled ==> Pending(r.1) == Pending(w) + [req]
  {
    (W.None, Offer(w, handled, req))
  }

  /** `ThreadedPlugin.receive`: an event of an implemented kind is queued. */
  function PluginReceive(w: Worker<Event>, implemented: EventType -> bool, e: Event): (r: Worker<Event>)
    ensures !implemented(e.kind) ==> r == w
    ensures implemented(e.kind) ==> r.Running? && Pending(r) == Pending(w) + [e]
  {
    Offer(w, implemented(e.kind), e)
  }
}

=== FILE: registry.dfy ===
/**
 * The registries: `CommandPlugin`'s global command set with its per-channel
 * and per-user sets, and `Pluginable`'s plugin set. Channels are keyed by
 * their id and users by their state. A database lookup of registered ids
 * is a parameter.
 */
module Registry {
  import W = Wrappers
  import opened Events
  import opened Users
  import opened Commands

  /** `order` lists every element of `s` exactly once: how a `HashSet` is iterated. */
  predicate IsEnumeration<T>(order: seq<T>, s: set<T>) {
    && (forall i, j :: 0 <= i < j < |order| ==> order[i] != order[j])
    && s == set k | 0 <= k < |order| :: order[k]
  }

  /** An enumeration is as long as the set it enumerates. */
  lemma {:induction false} EnumerationSize<T>(order: seq<T>, s: set<T>)
    requires IsEnumeration(order, s)
    ensures |order| == |s|
    decreases |order|
  {
    if order != [] {
      var x := order[|order| - 1];
      var init := order[..|order| - 1];
      assert x !in init;
      assert IsEnumeration(init, s - {x});
      EnumerationSize(init, s - {x});
    } else {
      assert s == {};
    }
  }

  // ---------------------------------------------------------------- command registry

  /** `commands`, `channels` and `users` of `CommandPlugin`. */
  datatype Registry = Registry(
    commands: set<CommandInfo>,
    channels: map<int, set<CommandInfo>>,
    users: map<UserState, set<CommandInfo>>)

  /** Adds `c` to the set of every key in `keys`, creating missing sets. */
  function AddTo<K(==)>(m: map<K, set<CommandInfo>>, keys: set<K>, c: CommandInfo): (r: map<K, set<CommandInfo>>)
    ensures r.Keys == m.Keys + keys
    ensures forall k :: k in keys ==> c in r[k] && r[k] - {c} == (if k in m then m[k] else {}) - {c}
    ensures forall k :: k in m && k !in keys ==> r[k] == m[k]
  {
    map k | k in m.Keys + keys :: if k in keys then (if k in m then m[k] else {}) + {c} else m[k]
  }

  /** Removes `c` from every set, keeping the keys. */
  function RemoveFrom<K(==)>(m: map<K, set<CommandInfo>>, c: CommandInfo): (r: map<K, set<CommandInfo>>)
    ensures r.Keys == m.Keys
    ensures forall k :: k in m ==> c !in r[k] && r[k] + {c} == m[k] + {c}
  {
    map k | k in m.Keys :: m[k] - {c}
  }

  /** `register(command, channel)`: only that channel's set changes, gaining the command. */
  function RegisterInChannel(reg: Registry, c: CommandInfo, channel: int): (r: Registry)
    ensures r.commands == reg.commands && r.users == reg.users
    ensures r.channels.Keys == reg.channels.Keys + {channel}
    ensures c in r.channels[channel]
    ensures r.channels[channel] - {c} == (if channel in reg.channels then reg.channels[channel] else {}) - {c}
    ensures forall k :: k in reg.channels && k != channel ==> r.channels[k] == reg.channels[k]
  {
    reg.(channels := AddTo(reg.channels, {channel}, c))
  }

  /** `register(command, user)`: only that user's set changes, gaining the command. */
  function RegisterForUser(reg: Registry, c: CommandInfo, u: UserState): (r: Registry)
    ensures r.commands == reg.commands && r.channels == reg.channels
    ensures r.users.Keys == reg.users.Keys + {u}
    ensures c in r.users[u]
    ensures r.users[u] - {c} == (if u in reg.users then reg.users[u] else {}) - {c}
    ensures forall k :: k in reg.users && k != u ==> r.users[k] == reg.users[k]
  {
    reg.(users := AddTo(reg.users, {u}, c))
  }

  /** `unregister(command)`: gone from the global set and from every scope; nothing else changes. */
  function Unregister(reg: Registry, c: CommandInfo): (r: Registry)
    ensures r.commands == reg.commands - {c}
    ensures r.channels.Keys == reg.channels.Keys && r.users.Keys == reg.users.Keys
    ensures forall k :: k in r.channels ==> c !in r.channels[k] && r.channels[k] + {c} == reg.channels[k] + {c}
    ensures forall k :: k in r.users ==> c !in r.users[k] && r.users[k] + {c} == reg.users[k] + {c}
  {
    Registry(reg.commands - {c}, RemoveFrom(reg.channels, c), RemoveFrom(reg.users, c))
  }

  /** Unregistering undoes registering a command that was nowhere before. */
  lemma UnregisterUndoesRegister(reg: Registry, c: CommandInfo, channel: int)
    requires c !in reg.commands
    requires forall k :: k in reg.channels ==> c !in reg.channels[k]
    requires forall k :: k in reg.users ==> c !in reg.users[k]
    requires channel in reg.channels
    ensures Unregister(RegisterInChannel(reg, c, channel), c) == reg
  {
    var r := Unregister(RegisterInChannel(reg, c, channel), c);
    forall k | k in reg.channels
      ensures r.channels[k] == reg.channels[k]
    {
      assert c !in reg.channels[k];
    }
    assert r.channels == reg.channels;
    forall k | k in reg.users
      ensures r.users[k] == reg.users[k]
    {
      assert c !in reg.users[k];
    }
    assert r.users == reg.users;
  }

  /**
   * A lookup of the ids registered in the database: no statement, or the
   * ids read. A query that fails part-way is `Rows` of the ids read before
   * the failure where the caller keeps them, and `Rows({})` where the
   * caller's loop is inside the failing `try`.
   */
  datatype IdQuery = NoStatement | Rows(ids: set<int>)

  /** Which of a command's two autoregister flags applies. */
  datatype ScopeKind = ForChannels | ForUsers

  predicate AutoFor(c: CommandInfo, kind: ScopeKind) {
    if kind == ForChannels then c.autoregisterChannels else c.autoregisterUsers
  }

  /** The commands of `commands` a scope gets: those auto-registering for it and those registered by id. */
  function Selected(commands: set<CommandInfo>, kind: ScopeKind, ids: set<int>): (s: set<CommandInfo>)
    ensures forall c :: c in s <==> c in commands && (AutoFor(c, kind) || c.id in ids)
  {
    set c | c in commands && (AutoFor(c, kind) || c.id in ids)
  }

  /**
   * `registerCommands(channel)`: replaces the channel's set by the selected
   * commands; without a statement nothing changes.
   */
  function RegisterCommandsForChannel(reg: Registry, channel: int, rows: IdQuery): (r: Registry)
    ensures rows.NoStatement? ==> r == reg
    ensures r.commands == reg.commands && r.users == reg.users
    ensures rows.Rows? ==> r.channels.Keys == reg.channels.Keys + {channel}
    ensures rows.Rows? ==> forall c :: c in r.channels[channel] <==> c in reg.commands && (c.autoregisterChannels || c.id in rows.ids)
    ensures forall k :: k in reg.channels && k != channel ==> r.channels[k] == reg.channels[k]
  {
    match rows
    case NoStatement => reg
    case Rows(ids) => reg.(channels := reg.channels[channel := Selected(reg.commands, ForChannels, ids)])
  }

  /**
   * `registerCommands(user)`: the database is asked only for identified
   * users, so an unidentified user gets the auto-registering commands alone.
   */
  function RegisterCommandsForUser(reg: Registry, u: UserState, rows: IdQuery): (r: Registry)
    ensures u.identified && rows.NoStatement? ==> r == reg
    ensures r.commands == reg.commands && r.channels == reg.channels
    ensures r.users.Keys == reg.users.Keys + (if u.identified && rows.NoStatement? then {} else {u})
    ensures !u.identified ==> forall c :: c in r.users[u] <==> c in reg.commands && c.autoregisterUsers
    ensures u.identified && rows.Rows? ==> forall c :: c in r.users[u] <==> c in reg.commands && (c.autoregisterUsers || c.id in rows.ids)
    ensures forall k :: k in reg.users && k != u ==> r.users[k] == reg.users[k]
  {
    if !u.identified then reg.(users := reg.users[u := Selected(reg.commands, ForUsers, {})])
    else match rows
      case NoStatement => reg
      case Rows(ids) => reg.(users := reg.users[u := Selected(reg.commands, ForUsers, ids)])
  }

  /**
   * `unidentify` as `CommandPlugin` sees it: the user's fields are reset,
   * and the create-user broadcast that follows makes the plugin rebuild the
   * user's command set. The set moves from the user's old state to the new
   * one (the source keys it by the user object), and holds exactly the
   * commands that auto-register for users, whatever the user had before.
   */
  function UnidentifyUser(reg: Registry, u: UserState): (r: (UserState, Registry))
    ensures !r.0.identified && r.0.id == 0 && r.0.uniqueId == u.uniqueId
    ensures r.1.commands == reg.commands && r.1.channels == reg.channels
    ensures r.1.users.Keys == reg.users.Keys - {u} + {r.0}
    ensures forall c :: c in r.1.users[r.0] <==> c in reg.commands && c.autoregisterUsers
    ensures forall k :: k in reg.users && k != u && k != r.0 ==> r.1.users[k] == reg.users[k]
  {
    var v := Unidentify(u);
    (v, RegisterCommandsForUser(reg.(users := reg.users - {u}), v, NoStatement))
  }

  /**
   * Once unidentified, the user's command set is settled: a further
   * create-user event, whatever the database says, rebuilds the same set.
   */
  lemma UnidentifiedSetSettled(reg: Registry, u: UserState, rows: IdQuery)
    ensures var (v, after) := UnidentifyUser(reg, u);
      RegisterCommandsForUser(after, v, rows) == after
  {
    var (v, after) := UnidentifyUser(reg, u);
    assert after.users[v := Selected(after.commands, ForUsers, {})] == after.users;
  }

  /** What `registerCommand` consults: the bot's channels and users, and two database lookups. */
  datatype Surroundings = Surroundings(
    botChannels: set<int>,
    botUsers: set<UserState>,
    channelRows: IdQuery,
    userRows: IdQuery)

  /** The channels a command joins: all of them when it auto-registers, else those listed for it. */
  function ChannelTargets(c: CommandInfo, env: Surroundings): set<int>
    requires c.autoregisterChannels || env.channelRows.Rows?
  {
    if c.autoregisterChannels then env.botChannels
    else set k | k in env.botChannels && k in env.channelRows.ids
  }

  function UserTargets(c: CommandInfo, env: Surroundings): set<UserState>
    requires c.autoregisterUsers || env.userRows.Rows?
  {
    if c.autoregisterUsers then env.botUsers
    else set u | u in env.botUsers && u.id in env.userRows.ids
  }

  /**
   * `registerCommand`: the command joins its channels, then its users. A
   * missing statement returns from the whole method, so a failed channel
   * lookup also skips the users.
   */
  function RegisterCommand(reg: Registry, c: CommandInfo, env: Surroundings): (r: Registry)
    ensures r.commands == reg.commands
    ensures reg.channels.Keys <= r.channels.Keys && reg.users.Keys <= r.users.Keys
    ensures !c.autoregisterChannels && env.channelRows.NoStatement? ==> r == reg
    ensures c.autoregisterChannels || env.channelRows.Rows? ==>
      && r.channels == AddTo(reg.channels, ChannelTargets(c, env), c)
      && (c.autoregisterUsers || env.userRows.Rows? ==> r.users == AddTo(reg.users, UserTargets(c, env), c))
      && (!c.autoregisterUsers && env.userRows.NoStatement? ==> r.users == reg.users)
  {
    if !c.autoregisterChannels && env.channelRows.NoStatement? then reg
    else
      var withChannels := reg.(channels := AddTo(reg.channels, ChannelTargets(c, env), c));
      if !c.autoregisterUsers && env.userRows.NoStatement? then withChannels
      else withChannels.(users := AddTo(reg.users, UserTargets(c, env), c))
  }

  /** `register(command)` and `initCommand`: into the global set, then into its scopes. */
  function AddCommand(reg: Registry, c: CommandInfo, env: Surroundings): (r: Registry)
    ensures r.commands == reg.commands + {c}
    ensures reg.channels.Keys <= r.channels.Keys && reg.users.Keys <= r.users.Keys
    ensures forall k :: k in reg.channels ==> reg.channels[k] <= r.channels[k]
    ensures forall k :: k in reg.users ==> reg.users[k] <= r.users[k]
  {
    RegisterCommand(reg.(commands := reg.commands + {c}), c, env)
  }

  /** An auto-registering command ends up in the set of every channel of the bot. */
  lemma AutoregisteredInEveryChannel(reg: Registry, c: CommandInfo, env: Surroundings, channel: int)
    requires c.autoregisterChannels && channel in env.botChannels
    ensures channel in AddCommand(reg, c, env).channels && c in AddCommand(reg, c, env).channels[channel]
  {
  }

  /**
   * `reloadCommand`: the old instance leaves the global set and every scope;
   * a new instance with the same id, name and flags is then added. When
   * the class cannot be instantiated again nothing is added back.
   */
  function ReloadCommand(reg: Registry, c: CommandInfo, created: W.Option<int>, env: Surroundings): (r: (bool, Registry))
    ensures r.0 <==> created.Some?
    ensures !r.0 ==> r.1 == Unregister(reg, c)
    ensures r.0 ==> r.1 == AddCommand(Unregister(reg, c), c.(ref := created.value), env)
  {
    var removed := Unregister(reg, c);
    match created
    case None => (false, removed)
    case Some(ref) => (true, AddCommand(removed, c.(ref := ref), env))
  }

  /** After a reload the old instance is nowhere, provided the new one is a different object. */
  lemma ReloadDropsOldInstance(reg: Registry, c: CommandInfo, created: W.Option<int>, env: Surroundings)
    requires created.Some? ==> created.value != c.ref
    ensures c !in ReloadCommand(reg, c, created, env).1.commands
    ensures forall k :: k in ReloadCommand(reg, c, created, env).1.channels ==> c !in ReloadCommand(reg, c, created, env).1.channels[k]
    ensures forall k :: k in ReloadCommand(reg, c, created, env).1.users ==> c !in ReloadCommand(reg, c, created, env).1.users[k]
  {
    var removed := Unregister(reg, c);
    if created.Some? {
      var renewed := c.(ref := created.value);
      assert renewed != c;
      var r := AddCommand(removed, renewed, env);
      assert forall k :: k in r.channels ==> k !in removed.channels || r.channels[k] <= removed.channels[k] + {renewed};
    }
  }

  // ---------------------------------------------------------------- plugin set

  /** `Pluginable.register`: the plugin is in the set afterwards; nothing else changes. */
  function RegisterPlugin<P>(plugins: set<P>, p: P): (r: set<P>)
    ensures p in r && r - {p} == plugins - {p}
  {
    plugins + {p}
  }

  /** `Pluginable.unregister`: the plugin is out of the set afterwards; nothing else changes. */
  function UnregisterPlugin<P>(plugins: set<P>, p: P): (r: set<P>)
    ensures p !in r && r + {p} == plugins + {p}
  {
    plugins - {p}
  }

  /** Registering twice is registering once; unregistering undoes registering a new plugin. */
  lemma PluginRegistration<P>(plugins: set<P>, p: P)
    ensures RegisterPlugin(RegisterPlugin(plugins, p), p) == RegisterPlugin(plugins, p)
    ensures p !in plugins ==> UnregisterPlugin(RegisterPlugin(plugins, p), p) == plugins
  {
  }

  /** `Pluginable.update`: the event is handed to the plugins in iteration order. */
  method Update<P>(plugins: set<P>, order: seq<P>, e: Event) returns (calls: seq<(P, Event)>)
    requires IsEnumeration(order, plugins)
    ensures |calls| == |plugins|
    ensures forall k :: 0 <= k < |calls| ==> calls[k].1 == e
    ensures forall p :: p in plugins <==> exists k :: 0 <= k < |calls| && calls[k].0 == p
    ensures forall i, j :: 0 <= i < j < |calls| ==> calls[i].0 != calls[j].0
  {
    calls := [];
    var i := 0;
    while i < |order|
      invariant i <= |order|
      invariant |calls| == i
      invariant forall k :: 0 <= k < i ==> calls[k] == (order[k], e)
    {
      calls := calls + [(order[i], e)];
      i := i + 1;
    }
    EnumerationSize(order, plugins);
    assert forall p :: p in plugins ==> exists k :: 0 <= k < |calls| && calls[k].0 == p by {
      forall p | p in plugins
        ensures exists k :: 0 <= k < |calls| && calls[k].0 == p
      {
        var k :| 0 <= k < |order| && order[k] == p;
        assert calls[k].0 == p;
      }
    }
  }
}

=== FILE: render.dfy ===
/**
 * The rendering of a message tree read back by the tokenizer: an
 * invocation of plain literals renders to a brace group that splits into
 * exactly that invocation again.
 */
module Rendering {
  import opened Text
  import opened Messages
  import opened Tokenizer
  import opened TokenizerQuotes
  import opened TokenizerNesting

  /** A word the unescaped rendering can carry: no quote, backslash or brace. */
  predicate PlainWord(w: string) {
    '"' !in w && '\\' !in w && '{' !in w && '}' !in w
  }

  /** No backslash and no brace anywhere in `t`. */
  predicate Unbraced(t: string) {
    '\\' !in t && '{' !in t && '}' !in t
  }

  /** Escaping leaves a plain word as it is. */
  lemma EscapePlain(w: string)
    requires PlainWord(w)
    ensures EscapeText(w) == w
  {
    if w != [] {
      assert w == [w[0]] + w[1..];
      EscapePlain(w[1..]);
    }
  }

  /** A plain word, quoted, has no backslash and no brace. */
  lemma QuoteArgUnbraced(w: string)
    requires PlainWord(w)
    ensures Unbraced(QuoteArg(w))
  {
    EscapePlain(w);
  }

  /** Joining two texts with no backslash and no brace by a space adds none. */
  lemma UnbracedJoin(a: string, b: string)
    requires Unbraced(a) && Unbraced(b)
    ensures Unbraced(a + " " + b)
  {
  }

  /** The quoted rendering of plain words has no backslash and no brace. */
  lemma {:induction false} ArgsUnbraced(ws: seq<string>)
    requires forall k :: 0 <= k < |ws| ==> PlainWord(ws[k])
    ensures Unbraced(RenderArgs(ws))
  {
    if ws != [] {
      QuoteArgUnbraced(ws[0]);
      RenderArgsCons(ws);
      if |ws| > 1 {
        PlainRest(ws);
        ArgsUnbraced(ws[1..]);
        UnbracedJoin(QuoteArg(ws[0]), RenderArgs(ws[1..]));
      }
    }
  }

  /** A plain word renders as a literal exactly as it is quoted as an argument. */
  lemma RenderPlainLiteral(w: string)
    requires PlainWord(w)
    ensures Render(Literal(w)) == QuoteArg(w)
  {
    EscapePlain(w);
  }

  /** The first plain literal renders as its quoted argument, followed by the rest. */
  lemma RenderLitsCons(ws: seq<string>)
    requires ws != [] && PlainWord(ws[0])
    ensures RenderChildren(Lits(ws)) == " " + QuoteArg(ws[0]) + RenderChildren(Lits(ws[1..]))
  {
    var cs := Lits(ws);
    assert cs[0] == Literal(ws[0]);
    assert cs[1..] == Lits(ws[1..]);
    RenderPlainLiteral(ws[0]);
  }

  /** The quoted argument list: the first argument alone, or followed by a space and the rest. */
  lemma RenderArgsCons(ws: seq<string>)
    requires ws != []
    ensures |ws| == 1 ==> RenderArgs(ws) == QuoteArg(ws[0])
    ensures |ws| > 1 ==> RenderArgs(ws) == QuoteArg(ws[0]) + " " + RenderArgs(ws[1..])
  {
  }

  /** Regrouping a space-led concatenation. */
  lemma SpaceJoin(q: string, r: string)
    ensures " " + q + (" " + r) == " " + (q + " " + r)
  {
  }

  /** The words after the first of a plain list are plain. */
  lemma PlainRest(ws: seq<string>)
    requires ws != [] && forall k :: 0 <= k < |ws| ==> PlainWord(ws[k])
    ensures forall k :: 0 <= k < |ws[1..]| ==> PlainWord(ws[1..][k])
  {
    forall k | 0 <= k < |ws[1..]|
      ensures PlainWord(ws[1..][k])
    {
      assert ws[1..][k] == ws[k + 1];
    }
  }

  /** Rendering the literals of plain words is a space followed by the quoted argument list. */
  lemma {:induction false} RenderLits(ws: seq<string>)
    requires ws != [] && forall k :: 0 <= k < |ws| ==> PlainWord(ws[k])
    ensures RenderChildren(Lits(ws)) == " " + RenderArgs(ws)
  {
    var q := QuoteArg(ws[0]);
    var rest := ws[1..];
    RenderLitsCons(ws);
    RenderArgsCons(ws);
    if rest == [] {
      assert Lits(rest) == [];
    } else {
      PlainRest(ws);
      RenderLits(rest);
      SpaceJoin(q, RenderArgs(rest));
    }
  }

  /** One space on either side of a trimmed text is trimmed away again. */
  lemma TrimPadded(t: string)
    requires t != [] && !IsWhitespace(t[0]) && !IsWhitespace(t[|t| - 1])
    ensures Trim(" " + t + " ") == t
  {
    assert (" " + t + " ")[1..] == t + " ";
    assert (t + " ")[..|t|] == t;
  }

  /** A brace group around text with no backslash and no brace is one invocation of that text. */
  lemma UnbracedGroup(inner: string)
    requires Unbraced(inner)
    ensures Split("{" + inner + "}") == [Invocation(Split(inner))]
  {
    var s := "{" + inner + "}";
    assert s[1..|s| - 1] == inner;
    assert BraceSafe(s, 1, |s| - 1, true) by {
      forall m | 1 <= m < |s| - 1
        ensures s[m] != '\\' && s[m] != '{' && s[m] != '}'
      {
        assert s[m] == inner[m - 1];
      }
    }
    SafeStaysOpen(s, 1, |s| - 1, 1, true);
    GroupSplit(s);
  }

  /** Splitting ignores one space on either side of a trimmed text. */
  lemma SplitPadded(t: string)
    requires t != [] && !IsWhitespace(t[0]) && !IsWhitespace(t[|t| - 1])
    ensures Split(" " + t + " ") == Split(t)
  {
    TrimPadded(t);
    SplitIgnoresSurroundingSpace(" " + t + " ");
  }

  /** A lone space splits into nothing. */
  lemma SplitOfSpace()
    ensures Split(" ") == []
  {
    assert Trim(" ") == [];
  }

  /** The quoted argument list between two spaces splits back into the arguments. */
  lemma SplitOfPaddedArgs(ws: seq<string>)
    requires ws != []
    ensures Split(" " + RenderArgs(ws) + " ") == Lits(ws)
  {
    SplitPadded(RenderArgs(ws));
    QuotedArgsRoundTrip(ws);
  }

  /** Spaces around text with no backslash and no brace add none. */
  lemma UnbracedPadded(t: string)
    requires Unbraced(t)
    ensures Unbraced(" " + t + " ")
  {
  }

  /** Rendered plain children, followed by a space, are the quoted argument list between two spaces. */
  lemma PaddedArgs(ws: seq<string>)
    requires ws != [] && forall k :: 0 <= k < |ws| ==> PlainWord(ws[k])
    ensures RenderChildren(Lits(ws)) + " " == " " + RenderArgs(ws) + " "
  {
    RenderLits(ws);
  }

  /** Rendered plain children, followed by a space, hold no backslash and no brace. */
  lemma RenderedChildrenUnbraced(ws: seq<string>)
    requires forall k :: 0 <= k < |ws| ==> PlainWord(ws[k])
    ensures Unbraced(RenderChildren(Lits(ws)) + " ")
  {
    if ws == [] {
      assert RenderChildren(Lits(ws)) + " " == " ";
    } else {
      PaddedArgs(ws);
      ArgsUnbraced(ws);
      UnbracedPadded(RenderArgs(ws));
    }
  }

  /** The children of an invocation of plain literals, rendered and followed by a space, split back into those literals. */
  lemma RenderedChildrenSplit(ws: seq<string>)
    requires forall k :: 0 <= k < |ws| ==> PlainWord(ws[k])
    ensures Split(RenderChildren(Lits(ws)) + " ") == Lits(ws)
  {
    if ws == [] {
      assert RenderChildren(Lits(ws)) + " " == " ";
      SplitOfSpace();
    } else {
      PaddedArgs(ws);
      SplitOfPaddedArgs(ws);
    }
  }

  /** An invocation renders as a brace group around its rendered children and a space. */
  lemma RenderAsGroup(cs: seq<Message>)
    ensures Render(Invocation(cs)) == "{" + (RenderChildren(cs) + " ") + "}"
  {
  }

  /**
   * The tokenizer reads back the rendering of an invocation of plain
   * literals: `{ "a" "b" }` splits into one invocation of the literals
   * `a` and `b`, and `{ }` into one invocation with no children.
   */
  lemma RenderedWordsRoundTrip(ws: seq<string>)
    requires forall k :: 0 <= k < |ws| ==> PlainWord(ws[k])
    ensures Split(Render(Invocation(Lits(ws)))) == [Invocation(Lits(ws))]
  {
    var cs := Lits(ws);
    RenderAsGroup(cs);
    RenderedChildrenUnbraced(ws);
    RenderedChildrenSplit(ws);
    UnbracedGroup(RenderChildren(cs) + " ");
  }
}

=== FILE: say.dfy ===
/** `SayCommand`: `!say` echoes its arguments, `!parse` shows the parsed tree. */
module Say {
  import W = Wrappers
  import opened Text
  import opened Messages
  import opened Commands
  import opened Tokenizer

  /**
   * `isHandled`: the first child names `say` or `parse`. The keyword check
   * reads the first child, so the message must have one.
   */
  predicate IsSayHandled(msg: Message)
    requires msg.Invocation? && |msg.children| > 0
  {
    IsCommand(msg, "say") || IsCommand(msg, "parse")
  }

  const SayUsage: string := "Usage: !say <message>"

  /** The list handler: a lone keyword gets the usage error, anything more is echoed from the second argument on. */
  method SayList(args: seq<W.Option<string>>) returns (r: string)
    ensures |args| == 1 ==> r == WrapErrorMessage(SayUsage)
    ensures |args| == 0 ==> r == ""
    ensures |args| > 1 ==> r == JoinSpaced(ArgTexts(args)[1..])
  {
    if |args| == 1 {
      r := WrapErrorMessage(SayUsage);
    } else {
      var c := GetArgumentConcatFrom(args, 1);
      r := c.value;
    }
  }

  /**
   * `handleMessage`: null for other commands; `say` materialises the
   * arguments and echoes them; `parse` answers with the rendered tree.
   */
  method SayHandle(msg: Message, dispatch: Message -> W.Option<string>) returns (r: W.Option<string>)
    requires msg.Invocation? && |msg.children| > 0
    ensures r.Some? <==> IsSayHandled(msg)
    ensures IsCommand(msg, "say") && |msg.children| == 1 ==> r == W.Some(WrapErrorMessage(SayUsage))
    ensures IsCommand(msg, "say") && |msg.children| > 1 ==> r == W.Some(JoinSpaced(ArgTexts(ParseArguments(msg.children, dispatch))[1..]))
    ensures !IsCommand(msg, "say") && IsCommand(msg, "parse") ==> r == W.Some(Render(msg))
  {
    if !IsSayHandled(msg) {
      return W.None;
    }
    if IsCommand(msg, "say") {
      var args := ParseArguments(msg.children, dispatch);
      var s := SayList(args);
      r := W.Some(s);
    } else {
      r := W.Some(Render(msg));
    }
  }

  /** Literal arguments are echoed verbatim, joined by single spaces. */
  lemma SayEchoesLiterals(ws: seq<string>, dispatch: Message -> W.Option<string>)
    requires |ws| > 1
    ensures JoinSpaced(ArgTexts(ParseArguments(Lits(ws), dispatch))[1..]) == JoinSpaced(ws[1..])
  {
    ArgumentsOfLiterals(ws, dispatch);
  }

  /** A line that splits into plain words and starts with `!say` echoes the other words. */
  lemma SayOfPlainLine(text: string, ws: seq<string>, dispatch: Message -> W.Option<string>)
    requires Split(text) == Lits(ws) && |ws| > 1 && ws[0] == "!say"
    ensures IsCommand(Parse(text), "say")
    ensures JoinSpaced(ArgTexts(ParseArguments(Parse(text).children, dispatch))[1..]) == JoinSpaced(ws[1..])
  {
    var cs := Parse(text).children;
    assert cs == Lits(ws);
    assert cs[0] == Literal("!say");
    assert Prefix + "say" == "!say";
    SayEchoesLiterals(ws, dispatch);
  }
}

=== FILE: text.dfy ===
/**
 * Character classes and string helpers shared by the tokenizer and the
 * command layer. Strings are `seq<char>`.
 */
module Text {

  /**
   * The one whitespace set of the model: space, tab, line feed, carriage
   * return, vertical tab and form feed. It stands in for both Java's
   * `Character.isWhitespace` and the characters `String.trim` removes.
   */
  predicate IsWhitespace(c: char) {
    c == ' ' || c == '\t' || c == '\n' || c == '\r' || c == '\U{000B}' || c == '\U{000C}'
  }

  predicate StartsWith(s: string, prefix: string) {
    |prefix| <= |s| && s[..|prefix|] == prefix
  }

  /** Drops leading whitespace: the result is a suffix of `t`. */
  function TrimLeft(t: string): (r: string)
    ensures |r| <= |t| && r == t[|t| - |r|..]
    ensures r == [] || !IsWhitespace(r[0])
    ensures forall k :: 0 <= k < |t| - |r| ==> IsWhitespace(t[k])
  {
    if |t| > 0 && IsWhitespace(t[0]) then TrimLeft(t[1..]) else t
  }

  /** Drops trailing whitespace: the result is a prefix of `t`. */
  function TrimRight(t: string): (r: string)
    ensures |r| <= |t| && r == t[..|r|]
    ensures r == [] || !IsWhitespace(r[|r| - 1])
    ensures forall k :: |r| <= k < |t| ==> IsWhitespace(t[k])
  {
    if |t| > 0 && IsWhitespace(t[|t| - 1]) then TrimRight(t[..|t| - 1]) else t
  }

  /** `String.trim`: a slice of `t` that starts and ends with non-whitespace. */
  function Trim(t: string): (r: string)
    ensures |r| <= |t|
    ensures r == [] || (!IsWhitespace(r[0]) && !IsWhitespace(r[|r| - 1]))
  {
    TrimRight(TrimLeft(t))
  }

  /** A string that already starts and ends with non-whitespace is its own trim. */
  lemma TrimOfTrimmed(t: string)
    requires t == [] || (!IsWhitespace(t[0]) && !IsWhitespace(t[|t| - 1]))
    ensures Trim(t) == t
  {
  }

  /** A prefix of a suffix of `t` is a slice of `t`. */
  lemma SliceOfSuffix(t: string, l: string, r: string)
    requires |l| <= |t| && l == t[|t| - |l|..]
    requires |r| <= |l| && r == l[..|r|]
    ensures r == t[|t| - |l|..|t| - |l| + |r|]
  {
  }

  /** Whitespace at the end of a suffix of `t` is whitespace at the end of `t`. */
  lemma WhitespaceOfSuffix(t: string, l: string, n: nat)
    requires |l| <= |t| && l == t[|t| - |l|..] && n <= |l|
    requires forall k :: n <= k < |l| ==> IsWhitespace(l[k])
    ensures forall k :: |t| - |l| + n <= k < |t| ==> IsWhitespace(t[k])
  {
    forall k | |t| - |l| + n <= k < |t|
      ensures IsWhitespace(t[k])
    {
      assert t[k] == l[k - (|t| - |l|)];
    }
  }

  /** Trim returns a contiguous slice of its argument. */
  lemma TrimIsSlice(t: string) returns (a: nat, b: nat)
    ensures a <= b <= |t| && Trim(t) == t[a..b]
    ensures forall k :: 0 <= k < a ==> IsWhitespace(t[k])
    ensures forall k :: b <= k < |t| ==> IsWhitespace(t[k])
  {
    var l := TrimLeft(t);
    a := |t| - |l|;
    var r := TrimRight(l);
    b := a + |r|;
    assert Trim(t) == r;
    SliceOfSuffix(t, l, r);
    WhitespaceOfSuffix(t, l, |r|);
  }

  /** ASCII upper-casing of one character. */
  function UpperChar(c: char): (u: char)
    ensures 'a' <= c <= 'z' ==> 'A' <= u <= 'Z'
    ensures !('a' <= c <= 'z') ==> u == c
  {
    if 'a' <= c <= 'z' then (c as int - 'a' as int + 'A' as int) as char else c
  }

  /** ASCII lower-casing of one character: the inverse of `UpperChar` on capitals. */
  function LowerChar(c: char): (l: char)
    ensures 'A' <= c <= 'Z' ==> 'a' <= l <= 'z' && UpperChar(l) == c
    ensures !('A' <= c <= 'Z') ==> l == c
  {
    if 'A' <= c <= 'Z' then (c as int - 'A' as int + 'a' as int) as char else c
  }

  function Upper(s: string): (r: string)
    ensures |r| == |s|
    ensures forall k :: 0 <= k < |s| ==> r[k] == UpperChar(s[k])
  {
    if s == [] then [] else [UpperChar(s[0])] + Upper(s[1..])
  }

  function Lower(s: string): (r: string)
    ensures |r| == |s|
    ensures forall k :: 0 <= k < |s| ==> r[k] == LowerChar(s[k])
  {
    if s == [] then [] else [LowerChar(s[0])] + Lower(s[1..])
  }

  /** Upper-casing an already upper-cased string changes nothing. */
  lemma UpperIdempotent(s: string)
    ensures Upper(Upper(s)) == Upper(s)
  {
  }

  /** Lower-casing a run of capitals gives a run of lower-case letters. */
  lemma LowerOfCapitals(s: string)
    requires forall k :: 0 <= k < |s| ==> 'A' <= s[k] <= 'Z'
    ensures forall k :: 0 <= k < |Lower(s)| ==> 'a' <= Lower(s)[k] <= 'z'
  {
    var l := Lower(s);
    forall k | 0 <= k < |l|
      ensures 'a' <= l[k] <= 'z'
    {
      assert l[k] == LowerChar(s[k]);
    }
  }

  /** Upper-casing undoes lower-casing on strings made of capitals and `_`. */
  lemma UpperOfLower(s: string)
    requires forall k :: 0 <= k < |s| ==> 'A' <= s[k] <= 'Z' || s[k] == '_'
    ensures Upper(Lower(s)) == s
  {
  }

  /** Joins the parts with a single space between neighbours. */
  function JoinSpaced(parts: seq<string>): (r: string)
    ensures parts == [] ==> r == []
    ensures |parts| == 1 ==> r == parts[0]
  {
    if parts == [] then []
    else if |parts| == 1 then parts[0]
    else parts[0] + " " + JoinSpaced(parts[1..])
  }
}

=== FILE: tokenizer.dfy ===
/**
 * The command-text tokenizer (`CommandMessage.splitMessage`). One call of
 * `Step` is one iteration of the source's character loop; `Scan` runs the
 * loop and materialises nested invocations by parsing their text again.
 */
module Tokenizer {
  import opened Text
  import opened Messages

  /** The loop variables of the source: nesting level, quote mode, first-word flag, accumulated word. */
  datatype TokState = TokState(level: nat, inString: bool, firstWord: bool, word: string)

  const Start := TokState(0, false, true, [])

  /** What one loop iteration adds to the parent's children. */
  datatype Emit =
    | Nothing
    | Leaf(msg: Message)      // a message built directly
    | Nested(text: string)    // text to be parsed into a child invocation

  /** The characters a backslash escapes. */
  predicate IsEscapable(c: char) {
    c == '"' || c == '\\' || c == '{' || c == '}'
  }

  /**
   * A finished level-0 token: after the first word, a token starting with
   * the prefix becomes a one-literal invocation; otherwise a literal.
   */
  function WordToken(word: string, firstWord: bool): (m: Message)
    ensures m.Literal? || m == Invocation([Literal(word)])
    ensures m.Invocation? <==> !firstWord && StartsWith(word, Prefix)
  {
    if !firstWord && StartsWith(word, Prefix) then Invocation([Literal(word)]) else Literal(word)
  }

  /**
   * What holds before every iteration of the loop at index `i`: the word is
   * never longer than the text consumed, strictly shorter once a level is
   * open; the first-word flag is cleared only after index 0; a whitespace
   * character just consumed at level 0 outside quotes has ended the word;
   * and the level stays 0 inside a quote.
   */
  ghost predicate ScanInv(s: string, i: nat, st: TokState) {
    && i <= |s|
    && |st.word| <= i
    && (st.level > 0 ==> |st.word| < i)
    && (!st.firstWord ==> i > 0)
    && (0 < i && IsWhitespace(s[i - 1]) && st.level == 0 && !st.inString ==> st.word == [])
    && (st.inString ==> st.level == 0)
  }

  /** The result of one iteration: the next index, the next state, the output. */
  datatype StepResult = StepResult(next: nat, st: TokState, emit: Emit)

  /** One iteration of the character loop at index `i`, branch for branch. */
  function Step(s: string, i: nat, st: TokState): (r: StepResult)
    requires i < |s| && ScanInv(s, i, st)
    ensures i < r.next <= |s| && ScanInv(s, r.next, r.st)
    ensures r.emit.Nested? ==> |r.emit.text| < |s|
  {
    var c := s[i];
    if c == '\\' && i + 1 < |s| then
      // backslash: escapes " \ { }, and is itself kept only inside a nesting level
      var n := s[i + 1];
      if IsEscapable(n) then
        StepResult(i + 2, st.(word := st.word + (if st.level > 0 then [c] else []) + [n]), Nothing)
      else
        StepResult(i + 1, st.(word := st.word + [c]), Nothing)
    else if !st.inString && st.level > 0 && c == '}' then
      // closing brace: back at level 0 the word is parsed as a child invocation
      if st.level == 1 then
        StepResult(i + 1, st.(level := 0, word := []), Nested(st.word))
      else
        StepResult(i + 1, st.(level := st.level - 1, word := st.word + [c]), Nothing)
    else if !st.inString && c == '{' then
      // opening brace: kept in the word only when a level is already open
      StepResult(i + 1, st.(level := st.level + 1, word := if st.level != 0 then st.word + [c] else st.word), Nothing)
    else if !st.inString && !st.firstWord && c == '!' && IsWhitespace(s[i - 1]) then
      // implicit nesting: a whitespace-preceded prefix after the first word
      StepResult(i + 1, st.(level := st.level + 1, word := st.word + [c]), Nothing)
    else if st.level > 0 then
      StepResult(i + 1, st.(word := st.word + [c]), Nothing)
    else if c == '"' then
      if st.inString then
        // a quote closes only before whitespace or at the end of the text
        if i + 1 < |s| && !IsWhitespace(s[i + 1]) then
          StepResult(i + 1, st.(word := st.word + [c]), Nothing)
        else
          StepResult(i + 1, st.(inString := false, word := []), Leaf(Literal(st.word)))
      else
        // a quote opens only at the start of the text or after whitespace
        if i > 0 && !IsWhitespace(s[i - 1]) then
          StepResult(i + 1, st.(word := st.word + [c]), Nothing)
        else
          StepResult(i + 1, st.(inString := true), Nothing)
    else if !st.inString && (IsWhitespace(c) || i + 1 == |s|) then
      // end of a word; this branch is only reached at level 0, where the
      // source's level > 0 alternatives cannot fire
      var w := if i + 1 == |s| && !IsWhitespace(c) then st.word + [c] else st.word;
      StepResult(i + 1, st.(firstWord := false, word := []), if |w| > 0 then Leaf(WordToken(w, st.firstWord)) else Nothing)
    else
      StepResult(i + 1, st.(word := st.word + [c]), Nothing)
  }

  /** The flush after the loop: a pending word at an open level is parsed as a child invocation. */
  function Flush(st: TokState): Emit {
    if |st.word| > 0 then
      if st.level > 0 then Nested(st.word) else Leaf(WordToken(st.word, st.firstWord))
    else Nothing
  }

  /** What one emission adds to the token stream. */
  function EmitOut(e: Emit): seq<Emit> {
    if e.Nothing? then [] else [e]
  }

  /**
   * Runs the loop from index `i`, appending every emission to `out`. The
   * result is the flat stream of the parent's children, with nested texts
   * still unparsed.
   */
  function Scan(s: string, i: nat, st: TokState, out: seq<Emit>): seq<Emit>
    requires ScanInv(s, i, st)
    decreases |s| - i, 1
  {
    if i == |s| then out + EmitOut(Flush(st))
    else Resume(s, i, Step(s, i, st), out)
  }

  /** Records what one iteration emitted and carries on with the loop. */
  function Resume(s: string, i: nat, r: StepResult, out: seq<Emit>): seq<Emit>
    requires i < r.next <= |s| && ScanInv(s, r.next, r.st)
    decreases |s| - i, 0
  {
    Scan(s, r.next, r.st, out + EmitOut(r.emit))
  }

  /** Every nested text in `es` is shorter than `n`. */
  predicate ShorterThan(es: seq<Emit>, n: nat) {
    forall k :: 0 <= k < |es| ==> es[k].Nested? ==> |es[k].text| < n
  }

  /** The loop only ever hands over nested texts shorter than the line. */
  lemma {:induction false} ScanShorter(s: string, i: nat, st: TokState, out: seq<Emit>)
    requires ScanInv(s, i, st) && ShorterThan(out, |s|)
    ensures ShorterThan(Scan(s, i, st, out), |s|)
    decreases |s| - i
  {
    if i < |s| {
      var r := Step(s, i, st);
      ScanShorter(s, r.next, r.st, out + EmitOut(r.emit));
    }
  }

  /** The token stream of a (trimmed) line. */
  function Tokens(s: string): (es: seq<Emit>)
    ensures ShorterThan(es, |s|)
  {
    ScanShorter(s, 0, Start, []);
    Scan(s, 0, Start, [])
  }

  /** One more than the longest nested text of `es`; 0 when there is none. */
  function Weight(es: seq<Emit>): (w: nat)
    ensures forall k :: 0 <= k < |es| && es[k].Nested? ==> |es[k].text| < w
  {
    if es == [] then 0
    else
      var h := if es[0].Nested? then |es[0].text| + 1 else 0;
      var t := Weight(es[1..]);
      if h < t then t else h
  }

  lemma WeightBound(es: seq<Emit>, n: nat)
    requires ShorterThan(es, n)
    ensures Weight(es) <= n
  {
    if es != [] {
      WeightBound(es[1..], n);
    }
  }

  /** Turns the token stream into the children: nested texts are parsed again. */
  function Build(es: seq<Emit>): (ms: seq<Message>)
    decreases Weight(es), 0, |es|
  {
    if es == [] then []
    else
      var head := match es[0]
        case Nothing => []
        case Leaf(m) => [m]
        case Nested(t) => [Invocation(Split(t))];
      head + Build(es[1..])
  }

  /** The children `splitMessage` adds for a line of text (trimmed first). */
  function Split(text: string): (cs: seq<Message>)
    ensures Trim(text) == [] ==> cs == []
    decreases |text|, 1, 0
  {
    var es := Tokens(Trim(text));
    WeightBound(es, |Trim(text)|);
    Build(es)
  }

  /** `new CommandMessage(parent, text)`: the invocation whose children are `Split(text)`. */
  function Parse(text: string): (m: Message)
    ensures m.Invocation?
  {
    Invocation(Split(text))
  }
}

=== FILE: tokenizer_escapes.dfy ===
/**
 * Escapes at level 0: a backslash before `"`, `\`, `{` or `}` is dropped and
 * the character after it kept; any other backslash is ordinary text. The
 * reference is `Unescape` applied to each whitespace-separated word, and the
 * tokenizer is proved to agree with it on every line with no unescaped
 * quote or brace and no implicit nesting.
 */
module TokenizerEscapes {
  import opened Text
  import opened Messages
  import opened Tokenizer
  import opened TokenizerSteps
  import opened TokenizerWords

  /**
   * Reference unescaping of one word, read from the left: an escape pair
   * gives its second character, and any other character, a backslash
   * included, is kept.
   */
  function Unescape(w: string): (u: string)
    ensures |u| <= |w|
    ensures u == [] <==> w == []
    decreases |w|
  {
    if w == [] then []
    else if w[0] == '\\' && |w| > 1 && IsEscapable(w[1]) then [w[1]] + Unescape(w[2..])
    else [w[0]] + Unescape(w[1..])
  }

  /** Every word unescaped, in order. */
  function UnescapeAll(ws: seq<string>): (us: seq<string>)
    ensures |us| == |ws|
    ensures forall k :: 0 <= k < |ws| ==> us[k] == Unescape(ws[k])
  {
    if ws == [] then [] else [Unescape(ws[0])] + UnescapeAll(ws[1..])
  }

  lemma UnescapeAllAppend(a: seq<string>, b: seq<string>)
    ensures UnescapeAll(a + b) == UnescapeAll(a) + UnescapeAll(b)
  {
    assert |UnescapeAll(a + b)| == |UnescapeAll(a) + UnescapeAll(b)|;
    forall k | 0 <= k < |a| + |b|
      ensures UnescapeAll(a + b)[k] == (UnescapeAll(a) + UnescapeAll(b))[k]
    {
    }
  }

  /** Writing a text so that every escapable character is preceded by a backslash. */
  function Escape(w: string): (e: string)
    ensures |e| >= |w|
  {
    if w == [] then []
    else (if IsEscapable(w[0]) then ['\\', w[0]] else [w[0]]) + Escape(w[1..])
  }

  /** Unescaping undoes escaping, for every text. */
  lemma {:induction false} UnescapeEscape(w: string)
    ensures Unescape(Escape(w)) == w
  {
    if w != [] {
      var head := if IsEscapable(w[0]) then ['\\', w[0]] else [w[0]];
      var e := head + Escape(w[1..]);
      assert Escape(w) == e;
      if IsEscapable(w[0]) {
        assert e[0] == '\\' && e[1] == w[0] && e[2..] == Escape(w[1..]);
      } else {
        assert e[0] == w[0] && e[1..] == Escape(w[1..]);
      }
      UnescapeEscape(w[1..]);
      assert w == [w[0]] + w[1..];
    }
  }

  /** A text without backslashes is its own unescaping. */
  lemma {:induction false} UnescapeNoBackslash(w: string)
    requires forall k :: 0 <= k < |w| ==> w[k] != '\\'
    ensures Unescape(w) == w
  {
    if w != [] {
      UnescapeNoBackslash(w[1..]);
      assert w == [w[0]] + w[1..];
    }
  }

  /**
   * Reading `w` from the left does not end on a backslash that is still
   * waiting for its partner: a final lone backslash would pair with an
   * escapable character appended after it.
   */
  predicate Closed(w: string)
    decreases |w|
  {
    if w == [] then true
    else if w[0] == '\\' && |w| > 1 && IsEscapable(w[1]) then Closed(w[2..])
    else if |w| == 1 && w[0] == '\\' then false
    else Closed(w[1..])
  }

  /**
   * Unescaping distributes over concatenation unless a final lone backslash
   * of `a` would pair with the first character of `b`.
   */
  lemma {:induction false} UnescapeAppend(a: string, b: string)
    requires Closed(a) || b == [] || !IsEscapable(b[0])
    ensures Unescape(a + b) == Unescape(a) + Unescape(b)
    ensures b != [] ==> Closed(a + b) == Closed(b)
    decreases |a|
  {
    if a == [] {
      assert a + b == b;
    } else if a[0] == '\\' && |a| > 1 && IsEscapable(a[1]) {
      assert (a + b)[2..] == a[2..] + b;
      UnescapeAppend(a[2..], b);
    } else if |a| == 1 && a[0] == '\\' {
      if b == [] {
        assert a + b == a;
      } else {
        assert (a + b)[1..] == b;
      }
    } else {
      assert (a + b)[1..] == a[1..] + b;
      UnescapeAppend(a[1..], b);
    }
  }

  /**
   * `t` has no unescaped quote or brace, and no prefix `!` right after
   * whitespace (`afterSpace` says whether the character before `t` is
   * whitespace): the text the tokenizer reads as words with escapes.
   */
  predicate EscapedText(t: string, afterSpace: bool)
    decreases |t|
  {
    if t == [] then true
    else if t[0] == '\\' && |t| > 1 && IsEscapable(t[1]) then EscapedText(t[2..], false)
    else if t[0] == '"' || t[0] == '{' || t[0] == '}' then false
    else if t[0] == '!' && afterSpace then false
    else EscapedText(t[1..], IsWhitespace(t[0]))
  }

  /** The preconditions of the escaped-word scan at index `i`, with `raw` the word read so far as written. */
  ghost predicate EscScanPre(s: string, i: nat, st: TokState, raw: string)
  {
    && ScanInv(s, i, st) && st.level == 0 && !st.inString
    && EscapedText(s[i..], 0 < i && IsWhitespace(s[i - 1]))
    && st.word == Unescape(raw)
    && (Closed(raw) || i == |s| || !IsEscapable(s[i]))
    && (0 < i && st.word == [] ==> IsWhitespace(s[i - 1]))
    && (!st.firstWord && st.word != [] ==> st.word[0] != '!')
  }

  /** What the scan from `i` must still produce: the reference words of the rest, unescaped. */
  ghost function Expected(s: string, i: nat, raw: string, out: seq<Emit>): seq<Emit>
    requires i <= |s|
  {
    out + Leaves(UnescapeAll(SplitWords(raw, s[i..])))
  }

  /** The characters a backslash escapes are never whitespace. */
  lemma EscapableNotWhitespace(c: char)
    requires IsEscapable(c)
    ensures !IsWhitespace(c)
  {
  }

  /** An escape pair at level 0 adds the escaped character to the word. */
  lemma EscPair(s: string, i: nat, st: TokState, out: seq<Emit>, raw: string)
    returns (st': TokState, raw': string)
    requires EscScanPre(s, i, st, raw) && i + 1 < |s| && s[i] == '\\' && IsEscapable(s[i + 1])
    ensures EscScanPre(s, i + 2, st', raw')
    ensures Scan(s, i, st, out) == Scan(s, i + 2, st', out)
    ensures Expected(s, i, raw, out) == Expected(s, i + 2, raw', out)
  {
    var n := s[i + 1];
    EscapableNotWhitespace(n);
    StepEscape(s, i, st);
    ScanStepQuiet(s, i, st, out);
    st' := st.(word := st.word + [n]);
    raw' := raw + ['\\', n];
    assert Step(s, i, st).st == st';
    UnescapeAppend(raw, ['\\', n]);
    assert ['\\', n][2..] == [];
    assert Unescape(['\\', n]) == [n];
    assert s[i..][2..] == s[i + 2..];
    assert SplitWords(raw, s[i..]) == SplitWords(raw + ['\\'], s[i + 1..]) by {
      assert s[i..][0] == '\\' && s[i..][1..] == s[i + 1..];
    }
    assert SplitWords(raw + ['\\'], s[i + 1..]) == SplitWords(raw', s[i + 2..]) by {
      assert s[i + 1..][0] == n && s[i + 1..][1..] == s[i + 2..];
      assert raw + ['\\'] + [n] == raw';
    }
  }

  /** A backslash before a character it does not escape is kept in the word. */
  lemma EscLone(s: string, i: nat, st: TokState, out: seq<Emit>, raw: string)
    returns (st': TokState, raw': string)
    requires EscScanPre(s, i, st, raw) && i + 1 < |s| && s[i] == '\\' && !IsEscapable(s[i + 1])
    ensures EscScanPre(s, i + 1, st', raw')
    ensures Scan(s, i, st, out) == Scan(s, i + 1, st', out)
    ensures Expected(s, i, raw, out) == Expected(s, i + 1, raw', out)
  {
    StepLoneBackslash(s, i, st);
    ScanStepQuiet(s, i, st, out);
    st' := st.(word := st.word + ['\\']);
    raw' := raw + ['\\'];
    UnescapeAppend(raw, ['\\']);
    assert Unescape(['\\']) == ['\\'];
    assert s[i..][0] == '\\' && s[i..][1..] == s[i + 1..];
  }

  /** A character with no meaning to the grammar joins the word. */
  lemma EscChar(s: string, i: nat, st: TokState, out: seq<Emit>, raw: string)
    returns (st': TokState, raw': string)
    requires EscScanPre(s, i, st, raw) && i + 1 < |s|
    requires s[i] != '\\' && !IsWhitespace(s[i])
    ensures EscScanPre(s, i + 1, st', raw')
    ensures Scan(s, i, st, out) == Scan(s, i + 1, st', out)
    ensures Expected(s, i, raw, out) == Expected(s, i + 1, raw', out)
  {
    var c := s[i];
    assert s[i..][0] == c && s[i..][1..] == s[i + 1..];
    StepOrdinary(s, i, st);
    ScanStepQuiet(s, i, st, out);
    st' := st.(word := st.word + [c]);
    raw' := raw + [c];
    UnescapeAppend(raw, [c]);
    assert Unescape([c]) == [c];
    assert [c][1..] == [];
  }

  /** Whitespace ends the word: the word read so far is emitted, unescaped. */
  lemma EscSpace(s: string, i: nat, st: TokState, out: seq<Emit>, raw: string)
    returns (st': TokState, out': seq<Emit>)
    requires EscScanPre(s, i, st, raw) && i < |s| && IsWhitespace(s[i])
    ensures EscScanPre(s, i + 1, st', [])
    ensures Scan(s, i, st, out) == Scan(s, i + 1, st', out')
    ensures Expected(s, i, raw, out) == Expected(s, i + 1, [], out')
  {
    StepWhitespace(s, i, st);
    ScanStep(s, i, st, out);
    st' := st.(firstWord := false, word := []);
    var pending := if raw == [] then [] else [raw];
    out' := out + Leaves(UnescapeAll(pending));
    if raw != [] {
      WordTokenPlain(st.word, st.firstWord);
      assert EmitOut(Step(s, i, st).emit) == Leaves(UnescapeAll(pending));
    }
    assert s[i..][0] == s[i] && s[i..][1..] == s[i + 1..];
    assert SplitWords(raw, s[i..]) == pending + SplitWords([], s[i + 1..]);
    UnescapeAllAppend(pending, SplitWords([], s[i + 1..]));
    LeavesAppend(UnescapeAll(pending), UnescapeAll(SplitWords([], s[i + 1..])));
    AppendAssoc(out, Leaves(UnescapeAll(pending)), Leaves(UnescapeAll(SplitWords([], s[i + 1..]))));
  }

  /** The last character of the line, not whitespace, ends the last word. */
  lemma EscLast(s: string, i: nat, st: TokState, out: seq<Emit>, raw: string)
    requires EscScanPre(s, i, st, raw) && i + 1 == |s| && !IsWhitespace(s[i])
    ensures Scan(s, i, st, out) == Expected(s, i, raw, out)
  {
    var c := s[i];
    StepLastOrdinary(s, i, st);
    ScanStep(s, i, st, out);
    var w := st.word + [c];
    UnescapeAppend(raw, [c]);
    assert Unescape([c]) == [c];
    assert w == Unescape(raw + [c]);
    WordTokenPlain(w, st.firstWord);
    var st' := st.(firstWord := false, word := []);
    ScanEnd(s, st', out + [Leaf(Literal(w))]);
    assert s[i..] == [c];
    assert SplitWords(raw, [c]) == [raw + [c]] by {
      assert [c][1..] == [];
    }
  }

  /** The end of the line flushes the pending word, unescaped. */
  lemma EscEnd(s: string, st: TokState, out: seq<Emit>, raw: string)
    requires EscScanPre(s, |s|, st, raw)
    ensures Scan(s, |s|, st, out) == Expected(s, |s|, raw, out)
  {
    ScanEnd(s, st, out);
    assert s[|s|..] == [];
    if raw != [] {
      WordTokenPlain(st.word, st.firstWord);
    }
  }

  /**
   * Scanning from `i` at level 0 over escaped text emits exactly the
   * reference words of the rest, each unescaped, as literals.
   */
  lemma {:induction false} EscapedScan(s: string, i: nat, st: TokState, out: seq<Emit>, raw: string)
    requires EscScanPre(s, i, st, raw)
    ensures Scan(s, i, st, out) == Expected(s, i, raw, out)
    decreases |s| - i
  {
    if i == |s| {
      EscEnd(s, st, out, raw);
    } else if IsWhitespace(s[i]) {
      var st', out' := EscSpace(s, i, st, out, raw);
      EscapedScan(s, i + 1, st', out', []);
    } else if i + 1 == |s| {
      EscLast(s, i, st, out, raw);
    } else if s[i] == '\\' && IsEscapable(s[i + 1]) {
      var st', raw' := EscPair(s, i, st, out, raw);
      EscapedScan(s, i + 2, st', out, raw');
    } else if s[i] == '\\' {
      var st', raw' := EscLone(s, i, st, out, raw);
      EscapedScan(s, i + 1, st', out, raw');
    } else {
      var st', raw' := EscChar(s, i, st, out, raw);
      EscapedScan(s, i + 1, st', out, raw');
    }
  }

  /** The token stream of escaped text is its whitespace words, each unescaped, as literals. */
  lemma EscapedTokens(t: string)
    requires EscapedText(t, false)
    ensures Tokens(t) == Leaves(UnescapeAll(Words(t)))
  {
    assert t[0..] == t;
    assert EscScanPre(t, 0, Start, []);
    EscapedScan(t, 0, Start, [], []);
  }

  /** Whitespace before a text only forbids a prefix at its start. */
  lemma EscapedAfterSpace(t: string)
    requires EscapedText(t, true)
    ensures EscapedText(t, false)
  {
  }

  lemma {:induction false} EscapedTrimLeft(t: string, afterSpace: bool)
    requires EscapedText(t, afterSpace)
    ensures EscapedText(TrimLeft(t), false)
    decreases |t|
  {
    if |t| > 0 && IsWhitespace(t[0]) {
      EscapedTrimLeft(t[1..], true);
    } else if !afterSpace {
    } else {
      EscapedAfterSpace(t);
    }
  }

  /** Dropping one trailing whitespace character keeps the text escaped. */
  lemma {:induction false} EscapedDropLast(x: string, c: char, afterSpace: bool)
    requires IsWhitespace(c) && EscapedText(x + [c], afterSpace)
    ensures EscapedText(x, afterSpace)
    decreases |x|
  {
    if x == [] {
    } else if x[0] == '\\' && |x| > 1 && IsEscapable(x[1]) {
      assert (x + [c])[2..] == x[2..] + [c];
      EscapedDropLast(x[2..], c, false);
    } else if |x| == 1 && x[0] == '\\' {
      assert x[1..] == [];
    } else {
      assert (x + [c])[1..] == x[1..] + [c];
      EscapedDropLast(x[1..], c, IsWhitespace(x[0]));
    }
  }

  lemma {:induction false} EscapedTrimRight(t: string)
    requires EscapedText(t, false)
    ensures EscapedText(TrimRight(t), false)
    decreases |t|
  {
    if |t| > 0 && IsWhitespace(t[|t| - 1]) {
      var x := t[..|t| - 1];
      assert t == x + [t[|t| - 1]];
      EscapedDropLast(x, t[|t| - 1], false);
      EscapedTrimRight(x);
    }
  }

  /**
   * A line with no unescaped quote or brace and no whitespace-preceded
   * prefix splits into its whitespace-separated words, each unescaped, as
   * literals: an escape pair gives its second character, and a backslash
   * before any other character is kept.
   */
  lemma EscapedSplit(text: string)
    requires EscapedText(text, false)
    ensures Split(text) == Lits(UnescapeAll(Words(text)))
  {
    var t := Trim(text);
    EscapedTrimLeft(text, false);
    EscapedTrimRight(TrimLeft(text));
    EscapedTokens(t);
    SplitIsBuild(text);
    BuildLeaves(UnescapeAll(Words(t)));
    WordsTrim(text);
  }
}

=== FILE: tokenizer_examples.dfy ===
/** Concrete lines and how they tokenize, composed from the general lemmas. */
module TokenizerExamples {
  import opened Text
  import opened Messages
  import opened Tokenizer
  import opened TokenizerWords
  import opened TokenizerSteps
  import opened TokenizerNesting
  import opened TokenizerEscapes

  /** A run of non-whitespace characters is read into the current word. */
  lemma {:induction false} ReadWord(acc: string, w: string, rest: string)
    requires forall k :: 0 <= k < |w| ==> !IsWhitespace(w[k])
    ensures SplitWords(acc, w + rest) == SplitWords(acc + w, rest)
    decreases |w|
  {
    if w != [] {
      assert (w + rest)[0] == w[0];
      assert (w + rest)[1..] == w[1..] + rest;
      ReadWord(acc + [w[0]], w[1..], rest);
      assert acc + [w[0]] + w[1..] == acc + w;
    } else {
      assert w + rest == rest && acc + w == acc;
    }
  }

  predicate IsWord(w: string) {
    w != [] && forall k :: 0 <= k < |w| ==> !IsWhitespace(w[k])
  }

  /** A word followed by a space is emitted before the rest is read. */
  lemma EndWord(w: string, rest: string)
    requires IsWord(w)
    ensures SplitWords([], w + " " + rest) == [w] + SplitWords([], rest)
  {
    ReadWord([], w, " " + rest);
    assert w + " " + rest == w + (" " + rest);
    assert [] + w == w;
    assert (" " + rest)[1..] == rest;
  }

  /** A word ending the line is its last word. */
  lemma LastWord(w: string)
    requires IsWord(w)
    ensures SplitWords([], w) == [w]
  {
    ReadWord([], w, []);
    assert w + [] == w && [] + w == w;
  }

  /** Three words separated by single spaces split into those words. */
  lemma ThreeWords(a: string, b: string, c: string)
    requires IsWord(a) && IsWord(b) && IsWord(c)
    ensures Words(a + " " + b + " " + c) == [a, b, c]
  {
    assert a + " " + b + " " + c == a + " " + (b + " " + c);
    EndWord(a, b + " " + c);
    EndWord(b, c);
    LastWord(c);
  }

  /** `!say hello world` gives the three words as literals. */
  lemma SayHelloWorld()
    ensures Split("!say hello world") == Lits(["!say", "hello", "world"])
  {
    var t := "!say hello world";
    assert Plain(t);
    assert t == "!say" + " " + "hello" + " " + "world";
    ThreeWords("!say", "hello", "world");
    PlainTextSplitsIntoWords(t);
  }

  /**
   * A plain prefix ending in whitespace, then a brace group whose closing
   * brace is swallowed by a whitespace-preceded prefix inside it: the
   * prefix's words come out as literals and everything after the opening
   * brace becomes one child.
   */
  lemma PlainThenSwallowedGroup(s: string, i: nat, j: nat, k: nat, last: nat)
    requires 0 < i < j < k < |s| && IsWhitespace(s[i - 1]) && PlainRange(s, 0, i)
    requires s[i] == '{' && s[j] == '!' && IsWhitespace(s[j - 1]) && s[k] == '}'
    requires BraceSafe(s, i + 1, j, false) && BraceSafe(s, j + 1, k, false)
    requires last > 0 && StaysOpen(s, k + 1, |s|, 1, false, last)
    ensures Tokens(s) == Leaves(Words(s[..i])) + [Nested(s[i + 1..])]
  {
    assert PlainSegmentPre(s, 0, i, Start) by {
      assert ScanInv(s, 0, Start);
    }
    PlainSegment(s, 0, i, Start, []);
    assert s[0..i] == s[..i];
    var out := [] + Leaves(Words(s[..i]));
    assert out == Leaves(Words(s[..i]));
    assert Scan(s, 0, Start, []) == Scan(s, i, AfterWords, out);
    SwallowedClose(s, i, j, k, AfterWords, out, last);
    assert AfterWords.word + s[i + 1..] == s[i + 1..];
  }

  /** The same line as children: the prefix's words, then one invocation of the rest after the brace. */
  lemma PlainThenSwallowedSplit(s: string, i: nat, j: nat, k: nat, last: nat)
    requires 0 < i < j < k < |s| && IsWhitespace(s[i - 1]) && PlainRange(s, 0, i)
    requires s[i] == '{' && s[j] == '!' && IsWhitespace(s[j - 1]) && s[k] == '}'
    requires BraceSafe(s, i + 1, j, false) && BraceSafe(s, j + 1, k, false)
    requires last > 0 && StaysOpen(s, k + 1, |s|, 1, false, last)
    requires !IsWhitespace(s[0]) && !IsWhitespace(s[|s| - 1])
    ensures Split(s) == Lits(Words(s[..i])) + [Invocation(Split(s[i + 1..]))]
  {
    PlainThenSwallowedGroup(s, i, j, k, last);
    var ws := Words(s[..i]);
    SplitOfTrimmed(s, Leaves(ws) + [Nested(s[i + 1..])]);
    BuildAppend(Leaves(ws), [Nested(s[i + 1..])]);
    BuildLeaves(ws);
    BuildOne(Nested(s[i + 1..]));
  }

  /**
   * `!o {!i a !x} t`: the `!x` inside the braces opens a second level, so
   * the brace after it is swallowed and the child runs to the end of the line.
   */
  lemma SwallowedCloseExample()
    ensures Tokens("!o {!i a !x} t") == [Leaf(Literal("!o")), Nested("!i a !x} t")]
  {
    var s := "!o {!i a !x} t";
    SwallowedExampleShape(s);
    PlainThenSwallowedGroup(s, 3, 9, 11, 1);
  }

  /** The positions and plain stretches of `!o {!i a !x} t` that the general lemma asks for. */
  lemma SwallowedExampleShape(s: string)
    requires s == "!o {!i a !x} t"
    ensures |s| == 14 && IsWhitespace(s[2]) && PlainRange(s, 0, 3)
    ensures s[3] == '{' && s[9] == '!' && IsWhitespace(s[8]) && s[11] == '}'
    ensures BraceSafe(s, 4, 9, false) && BraceSafe(s, 10, 11, false)
    ensures StaysOpen(s, 12, 14, 1, false, 1)
    ensures Leaves(Words(s[..3])) == [Leaf(Literal("!o"))] && s[4..] == "!i a !x} t"
  {
    assert s[..3] == "!o" + " " + [];
    EndWord("!o", []);
    assert SplitWords([], []) == [];
    ExampleTailStaysOpen(s);
  }

  /** The ` t` after the swallowed brace keeps the outer level open. */
  lemma ExampleTailStaysOpen(s: string)
    requires s == "!o {!i a !x} t"
    ensures StaysOpen(s, 12, 14, 1, false, 1)
  {
    assert LevelMove(s, 12, 1, false) == (13, 1);
    assert LevelMove(s, 13, 1, false) == (14, 1);
  }

  /**
   * A plain prefix ending in whitespace, then a prefix `!` whose level the
   * rest of the line never closes: the prefix's words come out as literals
   * and the rest of the line from the `!` on becomes one child.
   */
  lemma PlainThenImplicit(s: string, i: nat, last: nat)
    requires 0 < i < |s| && IsWhitespace(s[i - 1]) && PlainRange(s, 0, i) && s[i] == '!'
    requires last > 0 && StaysOpen(s, i + 1, |s|, 1, false, last)
    ensures Tokens(s) == Leaves(Words(s[..i])) + [Nested(s[i..])]
  {
    assert PlainSegmentPre(s, 0, i, Start) by {
      assert ScanInv(s, 0, Start);
    }
    PlainSegment(s, 0, i, Start, []);
    assert s[0..i] == s[..i];
    var out := [] + Leaves(Words(s[..i]));
    assert out == Leaves(Words(s[..i]));
    ImplicitTail(s, i, AfterWords, out, last);
  }

  /** In `!s a !b {c} d` the group after `!b` opens and closes inside the implicit level. */
  lemma ImplicitGroupStaysOpenExample(s: string)
    requires s == "!s a !b {c} d"
    ensures StaysOpen(s, 6, 13, 1, false, 1)
  {
    assert LevelMove(s, 12, 1, false) == (13, 1);
    assert LevelMove(s, 11, 1, false) == (12, 1);
    assert LevelMove(s, 10, 2, false) == (11, 1);
    assert LevelMove(s, 9, 2, false) == (10, 2);
    assert LevelMove(s, 8, 1, false) == (9, 2);
    assert LevelMove(s, 7, 1, false) == (8, 1);
    assert LevelMove(s, 6, 1, false) == (7, 1);
  }

  /** The two words before the implicit level. */
  lemma PrefixWordsExample()
    ensures Leaves(Words("!s a ")) == [Leaf(Literal("!s")), Leaf(Literal("a"))]
  {
    assert "!s a " == "!s" + " " + ("a" + " " + []);
    EndWord("!s", "a" + " " + []);
    EndWord("a", []);
    assert SplitWords([], []) == [];
  }

  lemma PrefixPlainExample(s: string)
    requires s == "!s a !b {c} d"
    ensures PlainRange(s, 0, 5) && s[..5] == "!s a "
  {
  }

  /** `!s a !b {c} d`: the inner group does not end the implicit level, which runs to the end of the line. */
  lemma ImplicitAroundGroupExample()
    ensures Tokens("!s a !b {c} d") == [Leaf(Literal("!s")), Leaf(Literal("a")), Nested("!b {c} d")]
  {
    var s := "!s a !b {c} d";
    ImplicitExampleShape(s);
    PlainThenImplicit(s, 5, 1);
  }

  /** The positions and plain stretches of `!s a !b {c} d` that the general lemma asks for. */
  lemma ImplicitExampleShape(s: string)
    requires s == "!s a !b {c} d"
    ensures |s| == 13 && IsWhitespace(s[4]) && PlainRange(s, 0, 5) && s[5] == '!'
    ensures StaysOpen(s, 6, 13, 1, false, 1)
    ensures Leaves(Words(s[..5])) == [Leaf(Literal("!s")), Leaf(Literal("a"))] && s[5..] == "!b {c} d"
  {
    ImplicitGroupStaysOpenExample(s);
    PrefixWordsExample();
    PrefixPlainExample(s);
  }

  /** `{a {b} c`: the inner group closes only itself, so the outer brace takes the rest of the line. */
  lemma UnclosedAroundGroupExample()
    ensures Tokens("{a {b} c") == [Nested("a {b} c")]
  {
    var s := "{a {b} c";
    assert StaysOpen(s, 1, 8, 1, true, 1) by {
      assert LevelMove(s, 7, 1, true) == (8, 1);
      assert LevelMove(s, 6, 1, true) == (7, 1);
      assert LevelMove(s, 5, 2, true) == (6, 1);
      assert LevelMove(s, 4, 2, true) == (5, 2);
      assert LevelMove(s, 3, 1, true) == (4, 2);
      assert LevelMove(s, 2, 1, true) == (3, 1);
      assert LevelMove(s, 1, 1, true) == (2, 1);
    }
    UnclosedBrace(s, 0, Start, [], 1);
    assert s[1..] == "a {b} c";
    assert Start.word + s[1..] == "a {b} c";
    assert Tokens(s) == Scan(s, 0, Start, []);
  }

  /** Two escaped words separated by one space split into the two words, each unescaped. */
  lemma TwoEscapedWords(a: string, b: string)
    requires IsWord(a) && IsWord(b) && EscapedText(a + " " + b, false)
    ensures Split(a + " " + b) == Lits([Unescape(a), Unescape(b)])
  {
    EndWord(a, b);
    LastWord(b);
    EscapedSplit(a + " " + b);
  }

  /** Characters without meaning to the grammar, then escaped text. */
  lemma {:induction false} EscapedWordThen(x: string, t: string, afterSpace: bool)
    requires x != [] && (afterSpace ==> x[0] != '!') && EscapedText(t, false)
    requires forall k :: 0 <= k < |x| ==> !IsSpecial(x[k]) && !IsWhitespace(x[k])
    ensures EscapedText(x + t, afterSpace)
    decreases |x|
  {
    assert (x + t)[0] == x[0];
    if |x| == 1 {
      assert (x + t)[1..] == t;
    } else {
      assert (x + t)[1..] == x[1..] + t;
      EscapedWordThen(x[1..], t, false);
    }
  }

  /** An escape pair, then escaped text. */
  lemma EscapedPairThen(e: char, t: string, afterSpace: bool)
    requires IsEscapable(e) && EscapedText(t, false)
    ensures EscapedText(['\\', e] + t, afterSpace)
  {
    assert (['\\', e] + t)[2..] == t;
  }

  /** Whitespace, then escaped text. */
  lemma EscapedSpaceThen(c: char, t: string, afterSpace: bool)
    requires IsWhitespace(c) && EscapedText(t, true)
    ensures EscapedText([c] + t, afterSpace)
  {
    assert ([c] + t)[1..] == t;
  }

  /** An escape pair unescapes to its second character. */
  lemma UnescapePairThen(e: char, t: string)
    requires IsEscapable(e)
    ensures Unescape(['\\', e] + t) == [e] + Unescape(t)
  {
    assert (['\\', e] + t)[2..] == t;
  }

  /** Text without backslashes passes through unescaping unchanged. */
  lemma UnescapePlainThen(x: string, t: string)
    requires forall k :: 0 <= k < |x| ==> x[k] != '\\'
    ensures Unescape(x + t) == x + Unescape(t)
  {
    UnescapeNoBackslash(x);
    NoBackslashClosed(x);
    UnescapeAppend(x, t);
  }

  lemma {:induction false} NoBackslashClosed(x: string)
    requires forall k :: 0 <= k < |x| ==> x[k] != '\\'
    ensures Closed(x)
    decreases |x|
  {
    if x != [] {
      NoBackslashClosed(x[1..]);
    }
  }

  /** `!say \{literal\}`: both escaped braces lose their backslash and the word is one literal. */
  lemma SayEscapedBraces()
    ensures Split("!say \\{literal\\}") == Lits(["!say", "{literal}"])
  {
    var w := BracesWord();
    assert "!say \\{literal\\}" == "!say" + " " + w;
    SayThen(w);
    TwoEscapedWords("!say", w);
  }

  /** `\{literal\}`, a word that is escaped text and unescapes to `{literal}`. */
  lemma BracesWord() returns (w: string)
    ensures w == "\\{literal\\}"
    ensures IsWord(w) && EscapedText(w, true) && Unescape(w) == "{literal}"
  {
    var x := "literal";
    var close := ['\\', '}'] + [];
    w := ['\\', '{'] + (x + close);
    assert IsWord(w);
    EscapedPairThen('}', [], false);
    EscapedWordThen(x, close, false);
    EscapedPairThen('{', x + close, true);
    UnescapePairThen('{', x + close);
    UnescapePlainThen(x, close);
    UnescapePairThen('}', []);
  }

  /** `!say ` followed by an escaped word is escaped text, and `!say` is its own unescaping. */
  lemma SayThen(w: string)
    requires EscapedText(w, true)
    ensures EscapedText("!say" + " " + w, false) && Unescape("!say") == "!say"
  {
    EscapedSpaceThen(' ', w, false);
    EscapedWordThen("!say", " " + w, false);
    assert "!say" + " " + w == "!say" + (" " + w);
    UnescapeNoBackslash("!say");
  }

  /** `!say a\b`: a backslash before a character it does not escape stays in the word. */
  lemma SayLoneBackslash()
    ensures Split("!say a\\b") == Lits(["!say", "a\\b"])
  {
    var w := LoneBackslashWord();
    assert "!say a\\b" == "!say" + " " + w;
    SayThen(w);
    TwoEscapedWords("!say", w);
  }

  /** `a\b`, a word that is escaped text and is its own unescaping. */
  lemma LoneBackslashWord() returns (w: string)
    ensures w == "a\\b"
    ensures IsWord(w) && EscapedText(w, true) && Unescape(w) == w
  {
    w := "a\\b";
    assert IsWord(w);
    var b := w[1..][1..];
    assert b == "b" && b[1..] == [];
    assert EscapedText(b, false) && Unescape(b) == b;
    assert EscapedText(w[1..], false) && Unescape(w[1..]) == w[1..];
  }
}

=== FILE: tokenizer_nesting.dfy ===
/**
 * Nesting in the tokenizer: brace groups, implicit nesting at a
 * whitespace-preceded prefix, and what the end-of-text flush does with a
 * level or a quote still open.
 */
module TokenizerNesting {
  import opened Text
  import opened Messages
  import opened Tokenizer
  import opened TokenizerSteps
  import opened TokenizerWords

  /**
   * `s[i..k]` can sit between a pair of braces without opening or closing
   * another level: no backslash, no brace, and no prefix that would start an
   * implicit nesting.
   */
  ghost predicate BraceSafe(s: string, i: nat, k: nat, firstWord: bool)
    requires i <= k <= |s|
  {
    forall m :: i <= m < k ==>
      s[m] != '\\' && s[m] != '{' && s[m] != '}' && (s[m] == '!' && !firstWord ==> m > 0 && !IsWhitespace(s[m - 1]))
  }

  /** Moving one character from the rest of the text to the end of the word. */
  lemma MoveChar(w: string, s: string, i: nat, k: nat)
    requires i < k <= |s|
    ensures (w + [s[i]]) + s[i + 1..k] == w + s[i..k]
  {
    assert s[i..k] == [s[i]] + s[i + 1..k];
  }

  /**
   * Where one iteration at an open level moves, as (next index, next
   * level): an escape pair is consumed whole, a closing brace lowers the
   * level, an opening brace or a whitespace-preceded prefix after the first
   * word raises it, and any other character leaves it.
   */
  function LevelMove(s: string, i: nat, level: nat, firstWord: bool): (m: (nat, nat))
    requires i < |s| && level > 0
    ensures i < m.0 <= |s| && m.0 <= i + 2
    ensures m.1 == level - 1 <==> s[i] == '}'
  {
    if s[i] == '\\' && i + 1 < |s| && IsEscapable(s[i + 1]) then (i + 2, level)
    else if s[i] == '}' then (i + 1, level - 1)
    else if s[i] == '{' then (i + 1, level + 1)
    else if !firstWord && s[i] == '!' && i > 0 && IsWhitespace(s[i - 1]) then (i + 1, level + 1)
    else (i + 1, level)
  }

  /**
   * Scanning `s[i..k]` from `level` keeps a level open all the way, no
   * escape pair straddles `k`, and the level at `k` is `last`: the text is
   * balanced when `last` is the starting level.
   */
  ghost predicate StaysOpen(s: string, i: nat, k: nat, level: nat, firstWord: bool, last: nat)
    decreases if i <= k then k - i else 0
  {
    if i >= k then i == k && level == last
    else
      && level > 0 && i < |s|
      && var m := LevelMove(s, i, level, firstWord);
      && m.0 <= k && StaysOpen(s, m.0, k, m.1, firstWord, last)
  }

  /** One iteration at an open level that does not close it keeps everything it consumed and emits nothing. */
  lemma LevelStep(s: string, i: nat, st: TokState)
    requires ScanInv(s, i, st) && st.level > 0 && !st.inString && i < |s|
    requires s[i] == '}' ==> st.level > 1
    ensures var m := LevelMove(s, i, st.level, st.firstWord);
      Step(s, i, st) == StepResult(m.0, st.(level := m.1, word := st.word + s[i..m.0]), Nothing)
  {
    var m := LevelMove(s, i, st.level, st.firstWord);
    if m.0 == i + 2 {
      assert s[i..i + 2] == [s[i], s[i + 1]];
    } else {
      assert s[i..i + 1] == [s[i]];
    }
  }

  /**
   * Scanning a stretch that keeps a level open emits nothing: the whole
   * stretch, escapes and inner braces included, is added to the word, and
   * the level at its end is the one the stretch leaves.
   */
  lemma {:induction false} GroupRun(s: string, i: nat, k: nat, st: TokState, out: seq<Emit>, last: nat)
    requires ScanInv(s, i, st) && st.level > 0 && !st.inString && last > 0
    requires StaysOpen(s, i, k, st.level, st.firstWord, last)
    ensures k <= |s|
    ensures ScanInv(s, k, st.(level := last, word := st.word + s[i..k]))
    ensures Scan(s, i, st, out) == Scan(s, k, st.(level := last, word := st.word + s[i..k]), out)
    decreases k - i
  {
    if i == k {
      assert st.word + s[i..k] == st.word;
      assert st.(level := last, word := st.word + s[i..k]) == st;
    } else {
      var m := LevelMove(s, i, st.level, st.firstWord);
      LevelStep(s, i, st);
      ScanStepQuiet(s, i, st, out);
      var st' := st.(level := m.1, word := st.word + s[i..m.0]);
      GroupRun(s, m.0, k, st', out, last);
      WordExtend(st.word, s, i, m.0, k);
    }
  }

  /** Extending a word by two adjacent slices extends it by their union. */
  lemma WordExtend(w: string, s: string, i: nat, m: nat, k: nat)
    requires i <= m <= k <= |s|
    ensures (w + s[i..m]) + s[m..k] == w + s[i..k]
  {
    assert s[i..k] == s[i..m] + s[m..k];
  }

  /** Text that opens and closes nothing keeps any open level where it is. */
  lemma {:induction false} SafeStaysOpen(s: string, i: nat, k: nat, level: nat, firstWord: bool)
    requires i <= k <= |s| && level > 0 && BraceSafe(s, i, k, firstWord)
    ensures StaysOpen(s, i, k, level, firstWord, level)
    decreases k - i
  {
    if i < k {
      SafeStaysOpen(s, i + 1, k, level, firstWord);
    }
  }

  /** Two stretches that keep a level open, one after the other, keep it open together. */
  lemma {:induction false} StaysOpenAppend(s: string, i: nat, j: nat, k: nat, level: nat, firstWord: bool, mid: nat, last: nat)
    requires StaysOpen(s, i, j, level, firstWord, mid) && StaysOpen(s, j, k, mid, firstWord, last)
    ensures StaysOpen(s, i, k, level, firstWord, last)
    decreases if i <= j then j - i else 0
  {
    if i < j {
      var m := LevelMove(s, i, level, firstWord);
      StaysOpenAppend(s, m.0, j, k, m.1, firstWord, mid, last);
    }
  }

  /** The closing brace emits the invocation parsed from the collected text. */
  lemma BraceClose(s: string, k: nat, st: TokState, out: seq<Emit>)
    requires ScanInv(s, k, st) && st.level == 1 && !st.inString
    requires k < |s| && s[k] == '}'
    ensures ScanInv(s, k + 1, st.(level := 0, word := []))
    ensures Scan(s, k, st, out) == Scan(s, k + 1, st.(level := 0, word := []), out + [Nested(st.word)])
  {
    StepCloseBrace(s, k, st);
    ScanStep(s, k, st, out);
  }

  /**
   * A level-0 brace group `{X}` whose inside is balanced becomes one child
   * invocation equal to parsing the pending word followed by `X`, inner
   * braces and escapes kept as written; the outer braces are dropped, and
   * the first-word flag is left as it was.
   */
  lemma BraceGroup(s: string, i: nat, k: nat, st: TokState, out: seq<Emit>)
    requires ScanInv(s, i, st) && st.level == 0 && !st.inString
    requires i < k < |s| && s[i] == '{' && s[k] == '}'
    requires StaysOpen(s, i + 1, k, 1, st.firstWord, 1)
    ensures ScanInv(s, k + 1, st.(word := []))
    ensures Scan(s, i, st, out) == Scan(s, k + 1, st.(word := []), out + [Nested(st.word + s[i + 1..k])])
  {
    var st1 := st.(level := 1);
    OpenBrace(s, i, st, out);
    GroupRun(s, i + 1, k, st1, out, 1);
    var st2 := st1.(level := 1, word := st.word + s[i + 1..k]);
    BraceClose(s, k, st2, out);
    assert st2.(level := 0, word := []) == st.(word := []);
  }

  /** Scanning a line that is one balanced brace group emits that group's text and nothing else. */
  lemma GroupScan(s: string)
    requires |s| >= 2 && s[0] == '{' && s[|s| - 1] == '}'
    requires StaysOpen(s, 1, |s| - 1, 1, true, 1)
    ensures Scan(s, 0, Start, []) == [Nested(s[1..|s| - 1])]
  {
    var k := |s| - 1;
    var e := Nested(Start.word + s[1..k]);
    BraceGroup(s, 0, k, Start, []);
    assert Start.(word := []) == Start;
    ScanEnd(s, Start, [] + [e]);
    assert Start.word + s[1..k] == s[1..k];
  }

  /** The token stream of a line that is one balanced brace group is that group's text. */
  lemma GroupTokens(s: string)
    requires |s| >= 2 && s[0] == '{' && s[|s| - 1] == '}'
    requires StaysOpen(s, 1, |s| - 1, 1, true, 1)
    ensures Tokens(s) == [Nested(s[1..|s| - 1])]
  {
    GroupScan(s);
  }

  /**
   * A line that is one balanced brace group `{X}` is one invocation whose
   * children are what `X` splits into: the group's text is parsed exactly
   * once more, with its escapes still in it.
   */
  lemma GroupSplit(s: string)
    requires |s| >= 2 && s[0] == '{' && s[|s| - 1] == '}'
    requires StaysOpen(s, 1, |s| - 1, 1, true, 1)
    ensures Tokens(s) == [Nested(s[1..|s| - 1])]
    ensures Split(s) == [Invocation(Split(s[1..|s| - 1]))]
  {
    var e := Nested(s[1..|s| - 1]);
    GroupTokens(s);
    SplitOfTrimmed(s, [e]);
    BuildOne(e);
  }

  /** An escape pair at level 0 is resolved: the backslash is dropped and the escaped character is a literal. */
  lemma EscapeAtTop(t: string)
    requires |t| == 2 && t[0] == '\\' && IsEscapable(t[1])
    ensures Split(t) == [Literal([t[1]])]
  {
    var st := Start.(word := [t[1]]);
    StepEscape(t, 0, Start);
    assert Step(t, 0, Start) == StepResult(2, st, Nothing);
    ScanStepQuiet(t, 0, Start, []);
    ScanEnd(t, st, []);
    assert Tokens(t) == [Leaf(Literal([t[1]]))];
    SplitOfTrimmed(t, [Leaf(Literal([t[1]]))]);
    BuildOne(Leaf(Literal([t[1]])));
  }

  /**
   * An escape inside a group is resolved exactly once: the nested text
   * keeps the backslash, and parsing that text drops it, so `{\x}` is one
   * invocation of the single literal `x`.
   */
  lemma EscapeResolvedOnce(s: string)
    requires |s| == 4 && s[0] == '{' && s[1] == '\\' && IsEscapable(s[2]) && s[3] == '}'
    ensures Tokens(s) == [Nested(['\\', s[2]])]
    ensures Split(s) == [Invocation([Literal([s[2]])])]
  {
    EscapeStaysOpen(s);
    GroupSplit(s);
    EscapeInside(s);
  }

  /** The text inside `{\\x}` splits into the literal `x`. */
  lemma EscapeInside(s: string)
    requires |s| == 4 && s[1] == '\\' && IsEscapable(s[2])
    ensures s[1..|s| - 1] == ['\\', s[2]]
    ensures Split(s[1..|s| - 1]) == [Literal([s[2]])]
  {
    var t := s[1..3];
    assert t == ['\\', s[2]];
    EscapeAtTop(t);
  }

  /** An escape pair between braces keeps the group's level open up to the closing brace. */
  lemma EscapeStaysOpen(s: string)
    requires |s| == 4 && s[0] == '{' && s[1] == '\\' && IsEscapable(s[2]) && s[3] == '}'
    ensures StaysOpen(s, 1, 3, 1, true, 1)
  {
    assert LevelMove(s, 1, 1, true) == (3, 1);
    assert StaysOpen(s, 3, 3, 1, true, 1);
  }

  /**
   * Braces inside a group nest: `{A{B}C}` with plain pieces `A`, `B`, `C`
   * is one invocation of what `A{B}C` splits into, the inner braces kept
   * in that text.
   */
  lemma NestedGroupSplit(s: string, j: nat, k: nat)
    requires 1 <= j < k < |s| - 1 && s[0] == '{' && s[|s| - 1] == '}' && s[j] == '{' && s[k] == '}'
    requires BraceSafe(s, 1, j, true) && BraceSafe(s, j + 1, k, true) && BraceSafe(s, k + 1, |s| - 1, true)
    ensures Split(s) == [Invocation(Split(s[1..|s| - 1]))]
  {
    NestedStaysOpen(s, j, k);
    GroupSplit(s);
  }

  /** An inner group `{B}` of plain text raises the level and lowers it back. */
  lemma InnerBracesStayOpen(s: string, j: nat, k: nat)
    requires j < k < |s| && s[j] == '{' && s[k] == '}' && BraceSafe(s, j + 1, k, true)
    ensures StaysOpen(s, j, k + 1, 1, true, 1)
  {
    SafeStaysOpen(s, j + 1, k, 2, true);
    assert LevelMove(s, j, 1, true) == (j + 1, 2);
    assert StaysOpen(s, k, k + 1, 2, true, 1) by {
      assert LevelMove(s, k, 2, true) == (k + 1, 1);
    }
    StaysOpenAppend(s, j + 1, k, k + 1, 2, true, 2, 1);
  }

  /** The inside of `{A{B}C}` is balanced. */
  lemma NestedStaysOpen(s: string, j: nat, k: nat)
    requires 1 <= j < k < |s| - 1 && s[j] == '{' && s[k] == '}'
    requires BraceSafe(s, 1, j, true) && BraceSafe(s, j + 1, k, true) && BraceSafe(s, k + 1, |s| - 1, true)
    ensures StaysOpen(s, 1, |s| - 1, 1, true, 1)
  {
    var e := |s| - 1;
    SafeStaysOpen(s, 1, j, 1, true);
    SafeStaysOpen(s, k + 1, e, 1, true);
    InnerBracesStayOpen(s, j, k);
    StaysOpenAppend(s, 1, j, k + 1, 1, true, 1, 1);
    StaysOpenAppend(s, 1, k + 1, e, 1, true, 1, 1);
  }

  /** The token stream of `{}` is one nested token with empty text. */
  lemma EmptyBracesTokens()
    ensures Tokens("{}") == [Nested([])]
  {
    var s := "{}";
    BraceGroup(s, 0, 1, Start, []);
    assert s[1..1] == [];
    ScanEnd(s, Start, [Nested([])]);
  }

  /** `{}` is one invocation with no children. */
  lemma EmptyBraces()
    ensures Split("{}") == [Invocation([])]
  {
    EmptyBracesTokens();
    SplitOfTrimmed("{}", [Nested([])]);
    BuildOne(Nested([]));
  }

  /** The text left for the end-of-text flush: nothing, or one nested token of it. */
  function TailChild(t: string): seq<Emit> {
    if t == [] then [] else [Nested(t)]
  }

  /**
   * Once a level is open and the rest of the text never closes it (inner
   * groups and escapes may come and go, but the level ends above 0), every
   * remaining character is kept and the flush turns the pending word, up to
   * the end of the text, into one child invocation.
   */
  lemma VerbatimTail(s: string, i: nat, st: TokState, out: seq<Emit>, last: nat)
    requires ScanInv(s, i, st) && st.level > 0 && !st.inString
    requires last > 0 && StaysOpen(s, i, |s|, st.level, st.firstWord, last)
    ensures Scan(s, i, st, out) == out + TailChild(st.word + s[i..])
  {
    GroupRun(s, i, |s|, st, out, last);
    var st2 := st.(level := last, word := st.word + s[i..|s|]);
    assert s[i..|s|] == s[i..];
    ScanEnd(s, st2, out);
  }

  /**
   * Implicit nesting: after the first word, a prefix preceded by whitespace
   * opens a level that the rest of the text never closes, so the rest of the
   * text from the prefix on becomes one child invocation.
   */
  lemma ImplicitTail(s: string, i: nat, st: TokState, out: seq<Emit>, last: nat)
    requires ScanInv(s, i, st) && st.level == 0 && !st.inString && !st.firstWord
    requires i < |s| && s[i] == '!' && IsWhitespace(s[i - 1])
    requires last > 0 && StaysOpen(s, i + 1, |s|, 1, false, last)
    ensures Scan(s, i, st, out) == out + [Nested(s[i..])]
  {
    assert st.word == [];
    StepImplicitOpen(s, i, st);
    ScanStepQuiet(s, i, st, out);
    var st' := st.(level := 1, word := ['!']);
    assert Step(s, i, st).st == st';
    VerbatimTail(s, i + 1, st', out, last);
    assert ['!'] + s[i + 1..] == s[i..];
    assert TailChild(st'.word + s[i + 1..]) == [Nested(s[i..])];
  }

  /** Inside an open level, characters that open and close nothing are kept and the level stays. */
  lemma {:induction false} LevelRun(s: string, i: nat, k: nat, st: TokState, out: seq<Emit>)
    requires ScanInv(s, i, st) && st.level > 0 && !st.inString
    requires i <= k <= |s| && BraceSafe(s, i, k, st.firstWord)
    ensures ScanInv(s, k, st.(word := st.word + s[i..k]))
    ensures Scan(s, i, st, out) == Scan(s, k, st.(word := st.word + s[i..k]), out)
    decreases k - i
  {
    if i == k {
      assert st.word + s[i..k] == st.word;
      assert st.(word := st.word + s[i..k]) == st;
    } else {
      StepInsideLevel(s, i, st);
      ScanStepQuiet(s, i, st, out);
      var st' := st.(word := st.word + [s[i]]);
      LevelRun(s, i + 1, k, st', out);
      MoveChar(st.word, s, i, k);
      assert st'.(word := st'.word + s[i + 1..k]) == st.(word := st.word + s[i..k]);
    }
  }

  /**
   * Inside a brace group, a whitespace-preceded prefix opens a second level,
   * so the group's closing brace only closes that inner level: the brace is
   * kept, the outer level stays open, and everything after the opening
   * brace up to the end of the text becomes one child invocation.
   */
  lemma SwallowedClose(s: string, i: nat, j: nat, k: nat, st: TokState, out: seq<Emit>, last: nat)
    requires ScanInv(s, i, st) && st.level == 0 && !st.inString && !st.firstWord
    requires i < j < k < |s| && s[i] == '{' && s[j] == '!' && IsWhitespace(s[j - 1]) && s[k] == '}'
    requires BraceSafe(s, i + 1, j, false) && BraceSafe(s, j + 1, k, false)
    requires last > 0 && StaysOpen(s, k + 1, |s|, 1, false, last)
    ensures Scan(s, i, st, out) == out + [Nested(st.word + s[i + 1..])]
  {
    var st1 := st.(level := 1);
    OpenBrace(s, i, st, out);
    LevelRun(s, i + 1, j, st1, out);
    var st2 := st1.(word := st.word + s[i + 1..j]);
    InnerGroup(s, j, k, st2, out);
    var st5 := st2.(word := st2.word + ['!'] + s[j + 1..k] + ['}']);
    VerbatimTail(s, k + 1, st5, out, last);
    SwallowedPieces(st.word, s, i, j, k);
  }

  /** An opening brace at level 0 opens level 1 and keeps the pending word. */
  lemma OpenBrace(s: string, i: nat, st: TokState, out: seq<Emit>)
    requires ScanInv(s, i, st) && st.level == 0 && !st.inString && i < |s| && s[i] == '{'
    ensures ScanInv(s, i + 1, st.(level := 1))
    ensures Scan(s, i, st, out) == Scan(s, i + 1, st.(level := 1), out)
  {
    StepOpenBrace(s, i, st);
    ScanStepQuiet(s, i, st, out);
  }

  /**
   * At level 1, a whitespace-preceded prefix opens level 2, and the next
   * closing brace only brings the level back to 1; the prefix, the text
   * between and the brace are all kept.
   */
  lemma InnerGroup(s: string, j: nat, k: nat, st: TokState, out: seq<Emit>)
    requires ScanInv(s, j, st) && st.level == 1 && !st.inString && !st.firstWord
    requires j < k < |s| && s[j] == '!' && IsWhitespace(s[j - 1]) && s[k] == '}'
    requires BraceSafe(s, j + 1, k, false)
    ensures ScanInv(s, k + 1, st.(word := st.word + ['!'] + s[j + 1..k] + ['}']))
    ensures Scan(s, j, st, out) == Scan(s, k + 1, st.(word := st.word + ['!'] + s[j + 1..k] + ['}']), out)
  {
    ImplicitGroupStaysOpen(s, j, k);
    GroupRun(s, j, k + 1, st, out, 1);
    ImplicitGroupPieces(st.word, s, j, k);
    assert st.(level := 1) == st;
  }

  /** After the first word, a whitespace-preceded prefix and plain text up to `}` raise the level and lower it back. */
  lemma ImplicitGroupStaysOpen(s: string, j: nat, k: nat)
    requires 0 < j < k < |s| && s[j] == '!' && IsWhitespace(s[j - 1]) && s[k] == '}'
    requires BraceSafe(s, j + 1, k, false)
    ensures StaysOpen(s, j, k + 1, 1, false, 1)
  {
    SafeStaysOpen(s, j + 1, k, 2, false);
    assert LevelMove(s, j, 1, false) == (j + 1, 2);
    assert StaysOpen(s, k, k + 1, 2, false, 1) by {
      assert LevelMove(s, k, 2, false) == (k + 1, 1);
    }
    StaysOpenAppend(s, j + 1, k, k + 1, 2, false, 2, 1);
  }

  /** The text from the prefix to the brace is the prefix, the text between and the brace. */
  lemma ImplicitGroupPieces(w: string, s: string, j: nat, k: nat)
    requires j < k < |s| && s[j] == '!' && s[k] == '}'
    ensures w + s[j..k + 1] == w + ['!'] + s[j + 1..k] + ['}']
  {
    assert s[j..k + 1] == ['!'] + s[j + 1..k] + ['}'];
  }

  /** The pieces the swallowed-close scan collects add up to the text after the opening brace. */
  lemma SwallowedPieces(w: string, s: string, i: nat, j: nat, k: nat)
    requires i < j < k < |s| && s[j] == '!' && s[k] == '}'
    ensures w + s[i + 1..j] + ['!'] + s[j + 1..k] + ['}'] + s[k + 1..] == w + s[i + 1..]
  {
    assert s[i + 1..] == s[i + 1..j] + s[j..];
    assert s[j..] == ['!'] + s[j + 1..k] + s[k..];
    assert s[k..] == ['}'] + s[k + 1..];
  }

  /**
   * An opening brace that the rest of the line never closes turns the rest
   * of the line after it into one child invocation.
   */
  lemma UnclosedBrace(s: string, i: nat, st: TokState, out: seq<Emit>, last: nat)
    requires ScanInv(s, i, st) && st.level == 0 && !st.inString
    requires i < |s| && s[i] == '{'
    requires last > 0 && StaysOpen(s, i + 1, |s|, 1, st.firstWord, last)
    ensures Scan(s, i, st, out) == out + TailChild(st.word + s[i + 1..])
  {
    OpenBrace(s, i, st, out);
    VerbatimTail(s, i + 1, st.(level := 1), out, last);
  }

  /** No quote and no backslash from `i` to the end of the text. */
  ghost predicate NoQuoteAhead(s: string, i: nat)
    requires i <= |s|
  {
    forall m :: i <= m < |s| ==> s[m] != '"' && s[m] != '\\'
  }

  /** The token left for the flush at level 0: nothing, or the word as a token. */
  function TailToken(t: string, firstWord: bool): seq<Emit> {
    if t == [] then [] else [Leaf(WordToken(t, firstWord))]
  }

  /**
   * A quote that is never closed: the rest of the text is kept in the word
   * and the flush emits it as an ordinary token, without the opening quote.
   */
  lemma {:induction false} StringTail(s: string, i: nat, st: TokState, out: seq<Emit>)
    requires ScanInv(s, i, st) && st.inString && NoQuoteAhead(s, i)
    ensures Scan(s, i, st, out) == out + TailToken(st.word + s[i..], st.firstWord)
    decreases |s| - i
  {
    if i == |s| {
      ScanEnd(s, st, out);
      assert st.word + s[i..] == st.word;
    } else {
      StepStringChar(s, i, st);
      ScanStepQuiet(s, i, st, out);
      var st' := st.(word := st.word + [s[i]]);
      StringTail(s, i + 1, st', out);
      MoveChar(st.word, s, i, |s|);
      assert s[i..|s|] == s[i..] && s[i + 1..|s|] == s[i + 1..];
    }
  }

  /** The token stream of a line that opens a quote and never closes it. */
  lemma UnterminatedTokens(x: string)
    requires x != []
    requires forall m :: 0 <= m < |x| ==> x[m] != '"' && x[m] != '\\'
    ensures Tokens(['"'] + x) == [Leaf(Literal(x))]
  {
    var s := ['"'] + x;
    StepQuoteOpen(s, 0, Start);
    ScanStepQuiet(s, 0, Start, []);
    assert s[1..] == x;
    assert NoQuoteAhead(s, 1) by {
      forall m | 1 <= m < |s|
        ensures s[m] != '"' && s[m] != '\\'
      {
        assert s[m] == x[m - 1];
      }
    }
    StringTail(s, 1, Start.(inString := true), []);
    assert [] + x == x;
  }

  /** A line that opens a quote and never closes it is one literal without the quote. */
  lemma UnterminatedQuote(x: string)
    requires x != [] && !IsWhitespace(x[|x| - 1])
    requires forall m :: 0 <= m < |x| ==> x[m] != '"' && x[m] != '\\'
    ensures Split(['"'] + x) == [Literal(x)]
  {
    var s := ['"'] + x;
    UnterminatedTokens(x);
    SplitOfTrimmed(s, [Leaf(Literal(x))]);
    BuildOne(Leaf(Literal(x)));
  }

  /** Text is trimmed before it is split: surrounding whitespace never matters. */
  lemma SplitIgnoresSurroundingSpace(text: string)
    ensures Split(text) == Split(Trim(text))
  {
    TrimOfTrimmed(Trim(text));
  }
}

=== FILE: tokenizer_quotes.dfy ===
/**
 * Quoted arguments: a reference encoder for a list of literal arguments and
 * the proof that the tokenizer decodes it back into exactly those literals.
 */
module TokenizerQuotes {
  import opened Text
  import opened Messages
  import opened Tokenizer
  import opened TokenizerSteps
  import opened TokenizerWords

  /** Characters that need a backslash inside a quoted string. */
  predicate NeedsEscape(c: char) {
    c == '"' || c == '\\'
  }

  /** Puts a backslash before every quote and backslash of `a`. */
  function EscapeText(a: string): (e: string)
    ensures |e| >= |a|
    ensures forall k :: 0 <= k < |e| ==> e[k] != '"' || (k > 0 && e[k - 1] == '\\')
  {
    if a == [] then []
    else if NeedsEscape(a[0]) then ['\\', a[0]] + EscapeText(a[1..])
    else [a[0]] + EscapeText(a[1..])
  }

  /** One argument as a quoted string. */
  function QuoteArg(a: string): (q: string)
    ensures |q| == |EscapeText(a)| + 2 && q[0] == '"' && q[|q| - 1] == '"'
  {
    ['"'] + EscapeText(a) + ['"']
  }

  /** The arguments, quoted and separated by single spaces. */
  function RenderArgs(args: seq<string>): (t: string)
    ensures args == [] <==> t == []
    ensures t != [] ==> t[0] == '"' && t[|t| - 1] == '"'
  {
    if args == [] then []
    else if |args| == 1 then QuoteArg(args[0])
    else QuoteArg(args[0]) + " " + RenderArgs(args[1..])
  }

  /** Position `i` is inside a quoted string whose rest, up to the closing quote at `k`, is the escaped `x`. */
  ghost predicate QuotedPre(s: string, i: nat, k: nat, st: TokState, x: string) {
    && ScanInv(s, i, st) && st.inString
    && k == i + |EscapeText(x)| && k < |s|
    && s[i..k] == EscapeText(x) && s[k] == '"'
    && (k + 1 == |s| || IsWhitespace(s[k + 1]))
  }

  /** The closing quote emits the word. */
  lemma QuotedClose(s: string, i: nat, st: TokState, out: seq<Emit>)
    requires QuotedPre(s, i, i, st, [])
    ensures ScanInv(s, i + 1, st.(inString := false, word := []))
    ensures Scan(s, i, st, out) == Scan(s, i + 1, st.(inString := false, word := []), out + [Leaf(Literal(st.word))])
  {
    StepStringClose(s, i, st);
    ScanStep(s, i, st, out);
  }

  /** An escaped character inside the string adds the character alone to the word. */
  lemma QuotedEscape(s: string, i: nat, k: nat, st: TokState, x: string, out: seq<Emit>)
    requires QuotedPre(s, i, k, st, x) && x != [] && NeedsEscape(x[0])
    ensures QuotedPre(s, i + 2, k, st.(word := st.word + [x[0]]), x[1..])
    ensures Scan(s, i, st, out) == Scan(s, i + 2, st.(word := st.word + [x[0]]), out)
  {
    assert EscapeText(x) == ['\\', x[0]] + EscapeText(x[1..]);
    assert s[i] == '\\' && s[i + 1] == x[0];
    assert s[i + 2..k] == EscapeText(x[1..]);
    StepStringEscape(s, i, st);
    ScanStepQuiet(s, i, st, out);
  }

  /** Any other character inside the string is added to the word as it is. */
  lemma QuotedChar(s: string, i: nat, k: nat, st: TokState, x: string, out: seq<Emit>)
    requires QuotedPre(s, i, k, st, x) && x != [] && !NeedsEscape(x[0])
    ensures QuotedPre(s, i + 1, k, st.(word := st.word + [x[0]]), x[1..])
    ensures Scan(s, i, st, out) == Scan(s, i + 1, st.(word := st.word + [x[0]]), out)
  {
    assert EscapeText(x) == [x[0]] + EscapeText(x[1..]);
    assert s[i] == x[0];
    assert s[i + 1..k] == EscapeText(x[1..]);
    StepStringChar(s, i, st);
    ScanStepQuiet(s, i, st, out);
  }

  /**
   * Scanning the escaped text of `x` and its closing quote, inside a quoted
   * string, adds `x` to the word and emits the word as one literal.
   */
  lemma {:induction false} QuotedBody(s: string, i: nat, k: nat, st: TokState, x: string, out: seq<Emit>)
    requires QuotedPre(s, i, k, st, x)
    ensures ScanInv(s, k + 1, st.(inString := false, word := []))
    ensures Scan(s, i, st, out) == Scan(s, k + 1, st.(inString := false, word := []), out + [Leaf(Literal(st.word + x))])
    decreases |x|
  {
    if x == [] {
      QuotedClose(s, i, st, out);
      assert st.word + x == st.word;
    } else {
      var st' := st.(word := st.word + [x[0]]);
      if NeedsEscape(x[0]) {
        QuotedEscape(s, i, k, st, x, out);
        QuotedBody(s, i + 2, k, st', x[1..], out);
      } else {
        QuotedChar(s, i, k, st, x, out);
        QuotedBody(s, i + 1, k, st', x[1..], out);
      }
      assert st'.word + x[1..] == st.word + x;
      assert st'.(inString := false, word := []) == st.(inString := false, word := []);
    }
  }

  /** Scanning one quoted argument from its opening quote emits its literal. */
  lemma QuotedArg(s: string, i: nat, st: TokState, a: string, out: seq<Emit>)
    requires ScanInv(s, i, st) && st.level == 0 && !st.inString && st.word == []
    requires i == 0 || IsWhitespace(s[i - 1])
    requires i + |QuoteArg(a)| <= |s| && s[i..i + |QuoteArg(a)|] == QuoteArg(a)
    requires i + |QuoteArg(a)| == |s| || IsWhitespace(s[i + |QuoteArg(a)|])
    ensures ScanInv(s, i + |QuoteArg(a)|, st)
    ensures Scan(s, i, st, out) == Scan(s, i + |QuoteArg(a)|, st, out + [Leaf(Literal(a))])
  {
    var k := i + 1 + |EscapeText(a)|;
    var q := QuoteArg(a);
    assert q == ['"'] + EscapeText(a) + ['"'];
    var t := s[i..k + 1];
    assert t == q;
    assert s[i] == '"' && s[k] == '"';
    assert s[i + 1..k] == EscapeText(a) by {
      forall m | 0 <= m < k - i - 1
        ensures s[i + 1..k][m] == EscapeText(a)[m]
      {
        assert s[i + 1 + m] == t[1 + m] == q[1 + m];
      }
    }
    StepQuoteOpen(s, i, st);
    ScanStepQuiet(s, i, st, out);
    assert QuotedPre(s, i + 1, k, st.(inString := true), a);
    QuotedBody(s, i + 1, k, st.(inString := true), a, out);
    assert st.(inString := true).(inString := false, word := []) == st;
    assert st.word + a == a;
  }

  /** A text that continues with `q`, a space and `rest` splits at the space. */
  lemma SliceAtSpace(s: string, i: nat, q: string, rest: string)
    requires i <= |s| && s[i..] == q + " " + rest
    ensures i + |q| < |s| && s[i..i + |q|] == q && s[i + |q|] == ' ' && s[i + |q| + 1..] == rest
  {
    var t := s[i..];
    assert s[i..i + |q|] == t[..|q|];
    assert s[i + |q| + 1..] == t[|q| + 1..];
  }

  /** The space between two arguments emits nothing and ends the first word. */
  lemma ArgSeparator(s: string, k: nat, st: TokState, out: seq<Emit>)
    requires ScanInv(s, k, st) && st.level == 0 && !st.inString && st.word == []
    requires k < |s| && s[k] == ' '
    ensures ScanInv(s, k + 1, st.(firstWord := false))
    ensures Scan(s, k, st, out) == Scan(s, k + 1, st.(firstWord := false), out)
  {
    StepWhitespace(s, k, st);
    ScanStepQuiet(s, k, st, out);
  }

  /** The facts that hold before a rendered argument list at `i`. */
  ghost predicate ArgsAt(s: string, i: nat, st: TokState, args: seq<string>) {
    && ScanInv(s, i, st) && st.level == 0 && !st.inString && st.word == []
    && (i == 0 || IsWhitespace(s[i - 1]))
    && args != [] && i <= |s| && s[i..] == RenderArgs(args)
  }

  /** The last argument ends the line. */
  lemma ArgsLast(s: string, i: nat, st: TokState, args: seq<string>, out: seq<Emit>)
    requires ArgsAt(s, i, st, args) && |args| == 1
    ensures Scan(s, i, st, out) == out + [Leaf(Literal(args[0]))]
  {
    var q := QuoteArg(args[0]);
    assert s[i..] == q;
    assert s[i..i + |q|] == q;
    QuotedArg(s, i, st, args[0], out);
    ScanEnd(s, st, out + [Leaf(Literal(args[0]))]);
  }

  /** An argument followed by a space emits its literal and leaves the rest of the list. */
  lemma ArgsHead(s: string, i: nat, st: TokState, args: seq<string>, out: seq<Emit>)
    requires ArgsAt(s, i, st, args) && |args| > 1
    ensures ArgsAt(s, i + |QuoteArg(args[0])| + 1, st.(firstWord := false), args[1..])
    ensures Scan(s, i, st, out)
         == Scan(s, i + |QuoteArg(args[0])| + 1, st.(firstWord := false), out + [Leaf(Literal(args[0]))])
  {
    var q := QuoteArg(args[0]);
    var k := i + |q|;
    SliceAtSpace(s, i, q, RenderArgs(args[1..]));
    QuotedArg(s, i, st, args[0], out);
    ArgSeparator(s, k, st, out + [Leaf(Literal(args[0]))]);
  }

  /** Scanning a rendered, non-empty argument list emits one literal per argument. */
  lemma {:induction false} ArgsScan(s: string, i: nat, st: TokState, args: seq<string>, out: seq<Emit>)
    requires ArgsAt(s, i, st, args)
    ensures Scan(s, i, st, out) == out + Leaves(args)
    decreases |args|
  {
    var head := [Leaf(Literal(args[0]))];
    var tail := Leaves(args[1..]);
    assert Leaves(args) == head + tail;
    if |args| == 1 {
      ArgsLast(s, i, st, args, out);
    } else {
      var n := i + |QuoteArg(args[0])| + 1;
      var st' := st.(firstWord := false);
      ArgsHead(s, i, st, args, out);
      assert Scan(s, i, st, out) == Scan(s, n, st', out + head);
      ArgsScan(s, n, st', args[1..], out + head);
      AppendAssoc(out, head, tail);
    }
  }

  /** The token stream of a rendered, non-empty argument list is one literal token per argument. */
  lemma RenderedTokens(args: seq<string>)
    requires args != []
    ensures Tokens(RenderArgs(args)) == Leaves(args)
  {
    var t := RenderArgs(args);
    assert t[0..] == t;
    ArgsScan(t, 0, Start, args, []);
  }

  /**
   * The tokenizer inverts the quoted rendering: every list of arguments,
   * whatever characters they hold, comes back as the same literals.
   */
  lemma QuotedArgsRoundTrip(args: seq<string>)
    ensures Split(RenderArgs(args)) == Lits(args)
  {
    var t := RenderArgs(args);
    TrimOfTrimmed(t);
    SplitIsBuild(t);
    if args != [] {
      RenderedTokens(args);
    }
    BuildLeaves(args);
  }
}

=== FILE: tokenizer_steps.dfy ===
/**
 * One-iteration facts about the tokenizer loop, stated once so that the
 * longer proofs never have to look inside `Step`.
 */
module TokenizerSteps {
  import opened Text
  import opened Messages
  import opened Tokenizer

  /** Unfolds the loop once. */
  lemma ScanStep(s: string, i: nat, st: TokState, out: seq<Emit>)
    requires ScanInv(s, i, st) && i < |s|
    ensures ScanInv(s, Step(s, i, st).next, Step(s, i, st).st)
    ensures Scan(s, i, st, out) == Scan(s, Step(s, i, st).next, Step(s, i, st).st, out + EmitOut(Step(s, i, st).emit))
  {
  }

  /** Unfolds the loop once, for an iteration that emits nothing. */
  lemma ScanStepQuiet(s: string, i: nat, st: TokState, out: seq<Emit>)
    requires ScanInv(s, i, st) && i < |s|
    requires Step(s, i, st).emit == Nothing
    ensures ScanInv(s, Step(s, i, st).next, Step(s, i, st).st)
    ensures Scan(s, i, st, out) == Scan(s, Step(s, i, st).next, Step(s, i, st).st, out)
  {
    assert out + EmitOut(Nothing) == out;
  }

  /** Whitespace at level 0 outside quotes ends the word and the first word. */
  lemma StepWhitespace(s: string, i: nat, st: TokState)
    requires ScanInv(s, i, st) && i < |s|
    requires IsWhitespace(s[i]) && st.level == 0 && !st.inString
    ensures Step(s, i, st) == StepResult(i + 1, st.(firstWord := false, word := []),
                                         if |st.word| > 0 then Leaf(WordToken(st.word, st.firstWord)) else Nothing)
  {
  }

  /** An ordinary character at level 0 outside quotes, not the last one, extends the word. */
  lemma StepOrdinary(s: string, i: nat, st: TokState)
    requires ScanInv(s, i, st) && i + 1 < |s|
    requires st.level == 0 && !st.inString
    requires !IsWhitespace(s[i]) && s[i] != '"' && s[i] != '\\' && s[i] != '{' && s[i] != '}'
    requires s[i] == '!' ==> st.firstWord || !IsWhitespace(s[i - 1])
    ensures Step(s, i, st) == StepResult(i + 1, st.(word := st.word + [s[i]]), Nothing)
  {
  }

  /** The last character, ordinary, at level 0 outside quotes, completes the word. */
  lemma StepLastOrdinary(s: string, i: nat, st: TokState)
    requires ScanInv(s, i, st) && i + 1 == |s|
    requires st.level == 0 && !st.inString
    requires !IsWhitespace(s[i]) && s[i] != '"' && s[i] != '{' && s[i] != '}'
    requires s[i] == '!' ==> st.firstWord || !IsWhitespace(s[i - 1])
    ensures Step(s, i, st) == StepResult(i + 1, st.(firstWord := false, word := []), Leaf(WordToken(st.word + [s[i]], st.firstWord)))
  {
  }

  /** At the end of the text the loop stops and flushes the pending word. */
  lemma ScanEnd(s: string, st: TokState, out: seq<Emit>)
    requires ScanInv(s, |s|, st)
    ensures st.word == [] ==> Scan(s, |s|, st, out) == out
    ensures st.word != [] && st.level == 0 ==> Scan(s, |s|, st, out) == out + [Leaf(WordToken(st.word, st.firstWord))]
    ensures st.word != [] && st.level > 0 ==> Scan(s, |s|, st, out) == out + [Nested(st.word)]
  {
    assert out + [] == out;
  }

  /** A quote at the start of the text or after whitespace opens a quoted string. */
  lemma StepQuoteOpen(s: string, i: nat, st: TokState)
    requires ScanInv(s, i, st) && i < |s|
    requires s[i] == '"' && st.level == 0 && !st.inString
    requires i == 0 || IsWhitespace(s[i - 1])
    ensures Step(s, i, st) == StepResult(i + 1, st.(inString := true), Nothing)
  {
  }

  /** Inside a quoted string a backslash before an escapable character keeps only that character. */
  lemma StepStringEscape(s: string, i: nat, st: TokState)
    requires ScanInv(s, i, st) && i + 1 < |s|
    requires st.inString && s[i] == '\\' && IsEscapable(s[i + 1])
    ensures Step(s, i, st) == StepResult(i + 2, st.(word := st.word + [s[i + 1]]), Nothing)
  {
    assert st.level == 0;
    assert st.word + [] + [s[i + 1]] == st.word + [s[i + 1]];
  }

  /** Inside a quoted string every character but a backslash or a quote is kept as it is. */
  lemma StepStringChar(s: string, i: nat, st: TokState)
    requires ScanInv(s, i, st) && i < |s|
    requires st.inString && s[i] != '\\' && s[i] != '"'
    ensures Step(s, i, st) == StepResult(i + 1, st.(word := st.word + [s[i]]), Nothing)
  {
  }

  /** A quote before whitespace or at the end of the text closes the string and emits its literal. */
  lemma StepStringClose(s: string, i: nat, st: TokState)
    requires ScanInv(s, i, st) && i < |s|
    requires st.inString && s[i] == '"'
    requires i + 1 == |s| || IsWhitespace(s[i + 1])
    ensures Step(s, i, st) == StepResult(i + 1, st.(inString := false, word := []), Leaf(Literal(st.word)))
  {
  }

  /** A level-0 opening brace outside quotes opens level 1 and is not kept. */
  lemma StepOpenBrace(s: string, i: nat, st: TokState)
    requires ScanInv(s, i, st) && i < |s|
    requires s[i] == '{' && st.level == 0 && !st.inString
    ensures Step(s, i, st) == StepResult(i + 1, st.(level := 1), Nothing)
  {
  }

  /** The closing brace of level 1 hands the word over to be parsed as a child invocation. */
  lemma StepCloseBrace(s: string, i: nat, st: TokState)
    requires ScanInv(s, i, st) && i < |s|
    requires s[i] == '}' && st.level == 1 && !st.inString
    ensures Step(s, i, st) == StepResult(i + 1, st.(level := 0, word := []), Nested(st.word))
  {
  }

  /**
   * Inside an open level every character but a backslash or a closing brace
   * is kept; an opening brace or a whitespace-preceded prefix after the first
   * word opens one more level.
   */
  lemma StepVerbatim(s: string, i: nat, st: TokState)
    requires ScanInv(s, i, st) && i < |s|
    requires st.level > 0 && s[i] != '\\' && s[i] != '}'
    ensures Step(s, i, st).next == i + 1 && Step(s, i, st).emit == Nothing
    ensures Step(s, i, st).st == st.(level := Step(s, i, st).st.level, word := st.word + [s[i]])
    ensures Step(s, i, st).st.level >= st.level
  {
  }

  /** Inside an open level a character that opens nothing is kept and the level stays. */
  lemma StepInsideLevel(s: string, i: nat, st: TokState)
    requires ScanInv(s, i, st) && i < |s|
    requires st.level > 0 && s[i] != '\\' && s[i] != '}' && s[i] != '{'
    requires s[i] == '!' ==> st.firstWord || !IsWhitespace(s[i - 1])
    ensures Step(s, i, st) == StepResult(i + 1, st.(word := st.word + [s[i]]), Nothing)
  {
  }

  /** A whitespace-preceded prefix after the first word opens a level and starts the nested word. */
  lemma StepImplicitOpen(s: string, i: nat, st: TokState)
    requires ScanInv(s, i, st) && i < |s|
    requires s[i] == '!' && !st.inString && !st.firstWord && IsWhitespace(s[i - 1])
    ensures Step(s, i, st) == StepResult(i + 1, st.(level := st.level + 1, word := st.word + ['!']), Nothing)
  {
  }

  /** A closing brace at a level above 1 only lowers the level and is kept. */
  lemma StepCloseInner(s: string, i: nat, st: TokState)
    requires ScanInv(s, i, st) && i < |s|
    requires s[i] == '}' && st.level > 1 && !st.inString
    ensures Step(s, i, st) == StepResult(i + 1, st.(level := st.level - 1, word := st.word + ['}']), Nothing)
  {
  }

  /** A backslash before an escapable character consumes both; the backslash stays only inside a level. */
  lemma StepEscape(s: string, i: nat, st: TokState)
    requires ScanInv(s, i, st) && i + 1 < |s|
    requires s[i] == '\\' && IsEscapable(s[i + 1])
    ensures Step(s, i, st) == StepResult(i + 2, st.(word := st.word + (if st.level > 0 then ['\\'] else []) + [s[i + 1]]), Nothing)
  {
  }

  /** A backslash before any other character is an ordinary character of the word. */
  lemma StepLoneBackslash(s: string, i: nat, st: TokState)
    requires ScanInv(s, i, st) && i + 1 < |s|
    requires s[i] == '\\' && !IsEscapable(s[i + 1])
    ensures Step(s, i, st) == StepResult(i + 1, st.(word := st.word + ['\\']), Nothing)
  {
  }

  /** A quote inside a word, after a non-whitespace character, is an ordinary character. */
  lemma StepQuoteInWord(s: string, i: nat, st: TokState)
    requires ScanInv(s, i, st) && i < |s|
    requires s[i] == '"' && st.level == 0 && !st.inString && i > 0 && !IsWhitespace(s[i - 1])
    ensures Step(s, i, st) == StepResult(i + 1, st.(word := st.word + ['"']), Nothing)
  {
  }

  /** A quote inside a quoted string that is followed by a non-whitespace character is kept. */
  lemma StepQuoteInString(s: string, i: nat, st: TokState)
    requires ScanInv(s, i, st) && i + 1 < |s|
    requires s[i] == '"' && st.inString && !IsWhitespace(s[i + 1])
    ensures Step(s, i, st) == StepResult(i + 1, st.(word := st.word + ['"']), Nothing)
  {
  }

  /** Building children distributes over concatenation of token streams. */
  lemma {:induction false} BuildAppend(a: seq<Emit>, b: seq<Emit>)
    ensures Build(a + b) == Build(a) + Build(b)
    decreases |a|
  {
    if a == [] {
      assert a + b == b;
    } else {
      assert (a + b)[1..] == a[1..] + b;
      BuildAppend(a[1..], b);
    }
  }

  /** A leaf token is its message; a nested token is the invocation parsed from its text. */
  lemma BuildOne(e: Emit)
    ensures e.Leaf? ==> Build([e]) == [e.msg]
    ensures e.Nested? ==> Build([e]) == [Invocation(Split(e.text))]
  {
    assert [e][1..] == [];
  }

  /** The children of a line are built from the token stream of the trimmed line. */
  lemma SplitIsBuild(text: string)
    ensures Split(text) == Build(Tokens(Trim(text)))
  {
  }

  /** A line with no surrounding whitespace splits into the children built from its token stream. */
  lemma SplitOfTrimmed(text: string, es: seq<Emit>)
    requires text == [] || (!IsWhitespace(text[0]) && !IsWhitespace(text[|text| - 1]))
    requires Tokens(text) == es
    ensures Split(text) == Build(es)
  {
    TrimOfTrimmed(text);
    SplitIsBuild(text);
  }
}

=== FILE: tokenizer_words.dfy ===
/**
 * Reference splitting on whitespace, and the proof that the tokenizer agrees
 * with it on text without quotes, backslashes, braces or implicit nesting.
 */
module TokenizerWords {
  import opened Text
  import opened Messages
  import opened Tokenizer
  import opened TokenizerSteps

  /** The characters with a meaning to the grammar beyond plain text. */
  predicate IsSpecial(c: char) {
    c == '"' || c == '\\' || c == '{' || c == '}'
  }

  /** Between `i` and `j` there is no special character and no whitespace-preceded prefix. */
  ghost predicate PlainRange(s: string, i: nat, j: nat)
    requires i <= j <= |s|
  {
    forall k :: i <= k < j ==> !IsSpecial(s[k]) && (s[k] == '!' && k > 0 ==> !IsWhitespace(s[k - 1]))
  }

  ghost predicate Plain(s: string) {
    PlainRange(s, 0, |s|)
  }

  /**
   * Reference word splitting: `acc` is the word read so far; whitespace ends
   * a non-empty word, and empty words are never produced.
   */
  function SplitWords(acc: string, rest: string): (ws: seq<string>)
    decreases |rest|
  {
    if rest == [] then (if acc == [] then [] else [acc])
    else if IsWhitespace(rest[0]) then (if acc == [] then [] else [acc]) + SplitWords([], rest[1..])
    else SplitWords(acc + [rest[0]], rest[1..])
  }

  function Words(t: string): seq<string> {
    SplitWords([], t)
  }

  /** Every word, as a literal token of the stream. */
  function Leaves(ws: seq<string>): (es: seq<Emit>)
    ensures |es| == |ws|
    ensures forall k :: 0 <= k < |ws| ==> es[k] == Leaf(Literal(ws[k]))
  {
    if ws == [] then [] else [Leaf(Literal(ws[0]))] + Leaves(ws[1..])
  }

  lemma LeavesAppend(a: seq<string>, b: seq<string>)
    ensures Leaves(a + b) == Leaves(a) + Leaves(b)
  {
    assert |Leaves(a + b)| == |Leaves(a) + Leaves(b)|;
    forall k | 0 <= k < |a| + |b|
      ensures Leaves(a + b)[k] == (Leaves(a) + Leaves(b))[k]
    {
    }
  }

  /** A stream of literal tokens builds into the same literals. */
  lemma {:induction false} BuildLeaves(ws: seq<string>)
    ensures Build(Leaves(ws)) == Lits(ws)
    decreases |ws|
  {
    if ws != [] {
      assert Leaves(ws) == [Leaf(Literal(ws[0]))] + Leaves(ws[1..]);
      BuildAppend([Leaf(Literal(ws[0]))], Leaves(ws[1..]));
      BuildOne(Leaf(Literal(ws[0])));
      BuildLeaves(ws[1..]);
    }
  }

  lemma LitsAppend(a: seq<string>, b: seq<string>)
    ensures Lits(a + b) == Lits(a) + Lits(b)
  {
    assert |Lits(a + b)| == |Lits(a) + Lits(b)|;
    forall k | 0 <= k < |a| + |b|
      ensures Lits(a + b)[k] == (Lits(a) + Lits(b))[k]
    {
    }
  }

  /** Words never start with whitespace or contain it, and are never empty. */
  lemma {:induction false} SplitWordsShape(acc: string, rest: string)
    requires forall k :: 0 <= k < |acc| ==> !IsWhitespace(acc[k])
    ensures forall w :: w in SplitWords(acc, rest) ==> w != [] && forall k :: 0 <= k < |w| ==> !IsWhitespace(w[k])
    decreases |rest|
  {
    if rest == [] {
    } else if IsWhitespace(rest[0]) {
      SplitWordsShape([], rest[1..]);
    } else {
      SplitWordsShape(acc + [rest[0]], rest[1..]);
    }
  }

  /** Leading whitespace produces no word. */
  lemma {:induction false} WordsTrimLeft(t: string)
    ensures Words(TrimLeft(t)) == Words(t)
    decreases |t|
  {
    if |t| > 0 && IsWhitespace(t[0]) {
      WordsTrimLeft(t[1..]);
    }
  }

  /** A trailing whitespace character produces no word. */
  lemma {:induction false} SplitWordsDropTrailing(acc: string, x: string, c: char)
    requires IsWhitespace(c)
    ensures SplitWords(acc, x + [c]) == SplitWords(acc, x)
    decreases |x|
  {
    if x == [] {
      assert SplitWords(acc, [c]) == (if acc == [] then [] else [acc]) + SplitWords([], []);
    } else {
      assert (x + [c])[0] == x[0] && (x + [c])[1..] == x[1..] + [c];
      if IsWhitespace(x[0]) {
        SplitWordsDropTrailing([], x[1..], c);
      } else {
        SplitWordsDropTrailing(acc + [x[0]], x[1..], c);
      }
    }
  }

  lemma {:induction false} WordsTrimRight(t: string)
    ensures Words(TrimRight(t)) == Words(t)
    decreases |t|
  {
    if |t| > 0 && IsWhitespace(t[|t| - 1]) {
      var u := t[..|t| - 1];
      assert t == u + [t[|t| - 1]];
      SplitWordsDropTrailing([], u, t[|t| - 1]);
      WordsTrimRight(u);
    }
  }

  /** Trimming never changes the words of a text. */
  lemma WordsTrim(t: string)
    ensures Words(Trim(t)) == Words(t)
  {
    WordsTrimLeft(t);
    WordsTrimRight(TrimLeft(t));
  }

  /** A plain text stays plain when trimmed. */
  lemma PlainTrim(t: string)
    requires Plain(t)
    ensures Plain(Trim(t))
  {
    var a, b := TrimIsSlice(t);
    var u := Trim(t);
    forall k | 0 <= k < |u|
      ensures !IsSpecial(u[k]) && (u[k] == '!' && k > 0 ==> !IsWhitespace(u[k - 1]))
    {
      assert u[k] == t[a + k];
      if k > 0 {
        assert u[k - 1] == t[a + k - 1];
      }
    }
  }

  /** A word read after the first word never starts with the prefix in plain text. */
  lemma WordTokenPlain(w: string, firstWord: bool)
    requires w != []
    requires !firstWord ==> w[0] != '!'
    ensures WordToken(w, firstWord) == Literal(w)
  {
  }

  /** The preconditions shared by the plain-segment lemmas. */
  ghost predicate PlainSegmentPre(s: string, i: nat, j: nat, st: TokState)
  {
    && i < j <= |s|
    && (j == |s| || IsWhitespace(s[j - 1]))
    && PlainRange(s, i, j)
    && ScanInv(s, i, st) && st.level == 0 && !st.inString
    && (0 < i && st.word == [] ==> IsWhitespace(s[i - 1]))
    && (!st.firstWord && st.word != [] ==> st.word[0] != '!')
  }

  /** The state after a plain segment: level 0, past the first word, no pending word. */
  const AfterWords := TokState(0, false, false, [])

  /**
   * Scanning a plain segment `s[i..j]` that ends in whitespace (or at the end
   * of the text) emits exactly the reference words of that segment, as
   * literals, and leaves the loop at level 0 after the first word with an
   * empty word.
   */
  lemma {:induction false} PlainSegment(s: string, i: nat, j: nat, st: TokState, out: seq<Emit>)
    requires PlainSegmentPre(s, i, j, st)
    ensures ScanInv(s, j, AfterWords)
    ensures Scan(s, i, st, out) == Scan(s, j, AfterWords, out + Leaves(SplitWords(st.word, s[i..j])))
    decreases j - i, 1
  {
    if IsWhitespace(s[i]) {
      PlainSegmentSpace(s, i, j, st, out);
    } else if i + 1 == |s| {
      PlainSegmentLast(s, i, j, st, out);
    } else {
      PlainSegmentChar(s, i, j, st, out);
    }
  }

  lemma AppendAssoc<T>(a: seq<T>, b: seq<T>, c: seq<T>)
    ensures a + (b + c) == (a + b) + c
  {
  }

  /** The word before a space, if any, as a list of words. */
  function Pending(word: string): seq<string> {
    if word == [] then [] else [word]
  }

  /** One whitespace step inside a plain segment emits the pending word as a literal. */
  lemma PlainSpaceStep(s: string, i: nat, j: nat, st: TokState, out: seq<Emit>)
    requires PlainSegmentPre(s, i, j, st) && IsWhitespace(s[i])
    ensures ScanInv(s, i + 1, AfterWords)
    ensures Scan(s, i, st, out) == Scan(s, i + 1, AfterWords, out + Leaves(Pending(st.word)))
  {
    StepWhitespace(s, i, st);
    ScanStep(s, i, st, out);
    if st.word != [] {
      WordTokenPlain(st.word, st.firstWord);
      assert Leaves(Pending(st.word)) == [Leaf(Literal(st.word))];
    } else {
      assert Leaves(Pending(st.word)) == [];
    }
  }

  lemma {:induction false} PlainSegmentSpace(s: string, i: nat, j: nat, st: TokState, out: seq<Emit>)
    requires PlainSegmentPre(s, i, j, st) && IsWhitespace(s[i])
    ensures ScanInv(s, j, AfterWords)
    ensures Scan(s, i, st, out) == Scan(s, j, AfterWords, out + Leaves(SplitWords(st.word, s[i..j])))
    decreases j - i, 0
  {
    var seg := s[i..j];
    assert seg[0] == s[i] && seg[1..] == s[i + 1..j];
    PlainSpaceStep(s, i, j, st, out);
    var tail := SplitWords([], s[i + 1..j]);
    var out' := out + Leaves(Pending(st.word));
    assert SplitWords(st.word, seg) == Pending(st.word) + tail;
    if i + 1 == j {
      assert s[i + 1..j] == [];
      assert tail == [];
      assert Pending(st.word) + tail == Pending(st.word);
    } else {
      assert PlainSegmentPre(s, i + 1, j, AfterWords);
      PlainSegment(s, i + 1, j, AfterWords, out');
      LeavesAppend(Pending(st.word), tail);
      AppendAssoc(out, Leaves(Pending(st.word)), Leaves(tail));
    }
  }

  lemma {:induction false} PlainSegmentLast(s: string, i: nat, j: nat, st: TokState, out: seq<Emit>)
    requires PlainSegmentPre(s, i, j, st) && !IsWhitespace(s[i]) && i + 1 == |s|
    ensures ScanInv(s, j, AfterWords)
    ensures Scan(s, i, st, out) == Scan(s, j, AfterWords, out + Leaves(SplitWords(st.word, s[i..j])))
    decreases j - i, 0
  {
    var c := s[i];
    assert !IsSpecial(c);
    var w := st.word + [c];
    StepLastOrdinary(s, i, st);
    ScanStep(s, i, st, out);
    WordTokenPlain(w, st.firstWord);
    assert s[i..j] == [c];
    assert SplitWords(st.word, s[i..j]) == SplitWords(w, []);
  }

  lemma {:induction false} PlainSegmentChar(s: string, i: nat, j: nat, st: TokState, out: seq<Emit>)
    requires PlainSegmentPre(s, i, j, st) && !IsWhitespace(s[i]) && i + 1 < |s|
    ensures ScanInv(s, j, AfterWords)
    ensures Scan(s, i, st, out) == Scan(s, j, AfterWords, out + Leaves(SplitWords(st.word, s[i..j])))
    decreases j - i, 0
  {
    var c := s[i];
    assert !IsSpecial(c);
    var seg := s[i..j];
    assert seg[0] == c && seg[1..] == s[i + 1..j];
    var st' := st.(word := st.word + [c]);
    StepOrdinary(s, i, st);
    ScanStepQuiet(s, i, st, out);
    assert PlainSegmentPre(s, i + 1, j, st');
    PlainSegment(s, i + 1, j, st', out);
    assert SplitWords(st.word, seg) == SplitWords(st.word + [c], s[i + 1..j]);
  }

  /** The token stream of a trimmed plain line is its words, as literal tokens. */
  lemma PlainTokens(t: string)
    requires t != [] && Plain(t) && !IsWhitespace(t[0]) && !IsWhitespace(t[|t| - 1])
    ensures Tokens(t) == Leaves(Words(t))
  {
    assert PlainSegmentPre(t, 0, |t|, Start);
    PlainSegment(t, 0, |t|, Start, []);
    assert t[0..|t|] == t;
    ScanEnd(t, AfterWords, Leaves(Words(t)));
  }

  /**
   * Plain text splits into its whitespace-separated words, each a literal,
   * in order: the tokenizer agrees with the reference splitting.
   */
  lemma PlainTextSplitsIntoWords(text: string)
    requires Plain(text)
    ensures Split(text) == Lits(Words(text))
  {
    var t := Trim(text);
    WordsTrim(text);
    SplitIsBuild(text);
    if t != [] {
      PlainTrim(text);
      PlainTokens(t);
      BuildLeaves(Words(t));
    }
  }
}

=== FILE: usercommand.dfy ===
/**
 * The level-changing part of `UserCommand`: who may change levels, which
 * level strings are accepted, and what is written and answered. Finding
 * the affected user is not modelled; the caller passes that user.
 */
module UserCommand {
  import W = Wrappers
  import opened Text
  import opened Levels
  import opened Users
  import opened Commands

  /** What `changeChannelLevel` does with its level argument. */
  datatype ChannelChange = RemoveOverride | SetOverride(level: UserLevel) | InvalidChannelLevel

  /** `remove` drops the override; otherwise the level must lie between IDENTIFIED and ADMINISTRATOR. */
  function ChannelChangeFor(permission: string): (r: ChannelChange)
    ensures r == RemoveOverride <==> permission == "remove"
    ensures r.SetOverride? ==> r.level == FromLevelString(permission)
    ensures r.SetOverride? ==> AtLeast(r.level, Identified) && AtLeast(Administrator, r.level)
    ensures r == InvalidChannelLevel <==>
      permission != "remove" && !(AtLeast(FromLevelString(permission), Identified) && AtLeast(Administrator, FromLevelString(permission)))
  {
    if permission == "remove" then RemoveOverride
    else
      var l := FromLevelString(permission);
      if Rank(l) < Rank(Identified) || Rank(l) > Rank(Administrator) then InvalidChannelLevel
      else SetOverride(l)
  }

  /** The printed names of IDENTIFIED through ADMINISTRATOR set that level; OWNER, NONE and UNKNOWN are refused. */
  lemma ChannelLevelNames(l: UserLevel)
    ensures ChannelChangeFor(ToString(l)) == (if AtLeast(l, Identified) && AtLeast(Administrator, l) then SetOverride(l) else InvalidChannelLevel)
  {
    FromLevelStringOfToString(l);
    PrintedLevelIsNotRemove(l);
  }

  /** No printed level reads `remove`: no constant name starts with `R`. */
  lemma PrintedLevelIsNotRemove(l: UserLevel)
    ensures ToString(l) != "remove"
  {
    var s := ToString(l);
    assert Name(l)[0] != 'R';
    assert UpperChar(s[0]) == Name(l)[0];
    assert s[0] != 'r';
  }

  /** `changeChannelLevel`: removes or sets the override, or refuses the level; the user is told either way. */
  function ChangeChannelLevel(channel: int, actor: UserState, affected: UserState, nickname: string, permission: string,
                              store: ChannelStore): (r: (ChannelStore, Delivery))
    ensures ChannelChangeFor(permission) == InvalidChannelLevel ==> r.0 == store
    ensures ChannelChangeFor(permission) == RemoveOverride ==> r.0 == RemoveChannelLevel(affected, channel, store).1
    ensures ChannelChangeFor(permission).SetOverride? ==> r.0 == SetChannelLevel(affected, channel, ChannelChangeFor(permission).level, store).1
  {
    match ChannelChangeFor(permission)
    case RemoveOverride =>
      (RemoveChannelLevel(affected, channel, store).1,
       SendMessage(W.Some(channel), actor, "Channel level of " + nickname + " removed.", true))
    case SetOverride(l) =>
      (SetChannelLevel(affected, channel, l, store).1,
       SendMessage(W.Some(channel), actor, "Channel level of " + nickname + " changed to " + ToString(l), true))
    case InvalidChannelLevel =>
      (store, SendErrorMessage(W.Some(channel), actor, "Valid levels are identified, user, operator and administrator.", true))
  }

  /** `!user <nick> channel <level>`: behind the ADMINISTRATOR gate of the channel. */
  function ChannelLevelCommand(channel: int, actor: UserState, affected: UserState, nickname: string, permission: string,
                               store: ChannelStore): (r: (ChannelStore, seq<Delivery>))
    ensures !HasLevelIn(actor, Administrator, W.Some(channel), store) ==> r.0 == store && |r.1| == 1
    ensures HasLevelIn(actor, Administrator, W.Some(channel), store) ==> r.0 == ChangeChannelLevel(channel, actor, affected, nickname, permission, store).0
  {
    var gate := CheckPermissions("changing channel permissions", Administrator, W.Some(channel), actor, store);
    if !gate.0 then (store, gate.1)
    else
      var change := ChangeChannelLevel(channel, actor, affected, nickname, permission, store);
      (change.0, [change.1])
  }

  /** A channel override changes only when the actor is at least ADMINISTRATOR there and the level is acceptable. */
  lemma ChannelOverrideGuarded(channel: int, actor: UserState, affected: UserState, nickname: string, permission: string,
                               store: ChannelStore)
    requires ChannelLevelCommand(channel, actor, affected, nickname, permission, store).0 != store
    ensures HasLevelIn(actor, Administrator, W.Some(channel), store)
    ensures affected.identified
    ensures ChannelChangeFor(permission) != InvalidChannelLevel
  {
  }

  /** A valid level, once written, is what the affected user holds in the channel at least. */
  lemma ChannelOverrideTakesEffect(channel: int, actor: UserState, affected: UserState, nickname: string, permission: string,
                                   store: ChannelStore)
    requires ChannelChangeFor(permission).SetOverride?
    requires HasLevelIn(actor, Administrator, W.Some(channel), store) && affected.identified && store.Online?
    ensures GetLevelIn(affected, W.Some(channel), ChannelLevelCommand(channel, actor, affected, nickname, permission, store).0)
            == Max(affected.minLevel, ChannelChangeFor(permission).level)
  {
    SetChannelThenGet(affected, channel, ChannelChangeFor(permission).level, store);
  }

  /** `changeUserLevel`: any level from IDENTIFIED up is accepted, OWNER included. */
  function GlobalLevelFor(permission: string): (r: W.Option<UserLevel>)
    ensures r.Some? <==> AtLeast(FromLevelString(permission), Identified)
    ensures r.Some? ==> r.value == FromLevelString(permission)
  {
    var l := FromLevelString(permission);
    if Rank(l) < Rank(Identified) then W.None else W.Some(l)
  }

  /** The printed names of IDENTIFIED through OWNER are accepted as global levels; NONE and UNKNOWN are not. */
  lemma GlobalLevelNames(l: UserLevel)
    ensures GlobalLevelFor(ToString(l)) == (if AtLeast(l, Identified) then W.Some(l) else W.None)
  {
    FromLevelStringOfToString(l);
  }

  /**
   * `!user <nick> user <level>`: behind the OWNER gate; an accepted level is
   * written with `setLevel`, whose own guards still apply.
   */
  function UserLevelCommand(channel: W.Option<int>, actor: UserState, affected: UserState, nickname: string, permission: string,
                            store: ChannelStore, db: WriteOutcome): (r: (UserState, seq<Delivery>))
    ensures !HasLevelIn(actor, Owner, channel, store) ==> r.0 == affected && |r.1| == 1
    ensures GlobalLevelFor(permission).None? ==> r.0 == affected
    ensures HasLevelIn(actor, Owner, channel, store) && GlobalLevelFor(permission).Some?
            ==> r.0 == SetLevel(affected, GlobalLevelFor(permission).value, db).1
  {
    var gate := CheckPermissions("changing user permissions", Owner, channel, actor, store);
    if !gate.0 then (affected, gate.1)
    else match GlobalLevelFor(permission)
      case None =>
        (affected, [SendErrorMessage(channel, actor, "Valid levels are identified, user, operator, administrator and owner.", true)])
      case Some(l) =>
        (SetLevel(affected, l, db).1,
         [SendMessage(channel, actor, "Global level of " + nickname + " changed to " + ToString(l), true)])
  }

  /** A global level changes only for an OWNER actor and an accepted level, and then to that level. */
  lemma GlobalLevelGuarded(channel: W.Option<int>, actor: UserState, affected: UserState, nickname: string, permission: string,
                           store: ChannelStore, db: WriteOutcome)
    requires UserLevelCommand(channel, actor, affected, nickname, permission, store, db).0 != affected
    ensures HasLevelIn(actor, Owner, channel, store)
    ensures AtLeast(FromLevelString(permission), Identified)
    ensures UserLevelCommand(channel, actor, affected, nickname, permission, store, db).0.minLevel == FromLevelString(permission)
  {
  }
}

=== FILE: users.dfy ===
/**
 * The user helpers of `User`: unique IRC identifiers, level parsing, the
 * effective level in a channel and the guards on changing levels. The
 * database is a parameter: the `users` and `channels_users` tables become
 * values, and "no connection" and "query failed" become explicit cases.
 */
module Users {
  import W = Wrappers
  import opened Text
  import opened Levels

  // ---------------------------------------------------------------- decimal integers

  predicate IsDigit(c: char) {
    '0' <= c <= '9'
  }

  predicate AllDigits(s: string) {
    forall k :: 0 <= k < |s| ==> IsDigit(s[k])
  }

  /** The value of a string of decimal digits, most significant first. */
  function DigitsValue(ds: string): nat
    requires AllDigits(ds)
    decreases |ds|
  {
    if ds == [] then 0 else DigitsValue(ds[..|ds| - 1]) * 10 + (ds[|ds| - 1] as int - '0' as int)
  }

  const IntMin: int := -0x8000_0000
  const IntMax: int := 0x7FFF_FFFF

  /**
   * `Integer.parseInt`: an optional `-` or `+`, then at least one decimal
   * digit, with a value that fits in 32 bits; anything else is rejected.
   */
  function ParseInt(s: string): (r: W.Option<int>)
    ensures r.Some? ==> IntMin <= r.value <= IntMax
  {
    if s == [] then W.None
    else
      var signed := s[0] == '-' || s[0] == '+';
      var ds := if signed then s[1..] else s;
      if ds == [] || !AllDigits(ds) then W.None
      else
        var v: int := if s[0] == '-' then 0 - DigitsValue(ds) else DigitsValue(ds);
        if IntMin <= v <= IntMax then W.Some(v) else W.None
  }

  function DigitChar(d: nat): (c: char)
    requires d < 10
    ensures IsDigit(c) && c as int - '0' as int == d
  {
    ('0' as int + d) as char
  }

  /** The decimal digits of `n`, without leading zeros. */
  function ShowNat(n: nat): (s: string)
    ensures s != [] && AllDigits(s)
  {
    if n < 10 then [DigitChar(n)] else ShowNat(n / 10) + [DigitChar(n % 10)]
  }

  /** `Integer.toString`: a minus sign for negative values, then the digits. */
  function ShowInt(n: int): string {
    if n < 0 then "-" + ShowNat(-n) else ShowNat(n)
  }

  lemma {:induction false} ShowNatValue(n: nat)
    ensures DigitsValue(ShowNat(n)) == n
  {
    var s := ShowNat(n);
    if n >= 10 {
      assert s[..|s| - 1] == ShowNat(n / 10);
      ShowNatValue(n / 10);
    }
  }

  /** Unsigned digits parse as their value. */
  lemma ParseDigits(ds: string)
    requires ds != [] && AllDigits(ds) && DigitsValue(ds) <= IntMax
    ensures ParseInt(ds) == W.Some(DigitsValue(ds) as int)
  {
    assert IsDigit(ds[0]);
  }

  /** A minus sign before digits negates their value. */
  lemma ParseNegative(ds: string)
    requires ds != [] && AllDigits(ds) && DigitsValue(ds) <= -IntMin
    ensures ParseInt("-" + ds) == W.Some(0 - DigitsValue(ds))
  {
    assert ("-" + ds)[1..] == ds;
  }

  /** Parsing undoes printing for every 32-bit value. */
  lemma ParseShowInt(n: int)
    requires IntMin <= n <= IntMax
    ensures ParseInt(ShowInt(n)) == W.Some(n)
  {
    if n < 0 {
      ShowNatValue(-n);
      ParseNegative(ShowNat(-n));
    } else {
      ShowNatValue(n);
      ParseDigits(ShowNat(n));
    }
  }

  // ---------------------------------------------------------------- level strings

  /**
   * `fromLevelString`: a number is looked up in the integer map (UNKNOWN
   * when it is not there); anything else is matched, case-insensitively,
   * against the constant names (UNKNOWN when none matches).
   */
  function FromLevelString(s: string): UserLevel {
    match ParseInt(s)
    case Some(n) => FromInteger(n).GetOr(Unknown)
    case None => ValueOf(Upper(s)).GetOr(Unknown)
  }

  /** A number gives a real level exactly when it is a key of the integer map, and then that key's level. */
  lemma FromLevelStringNumber(s: string, n: int)
    requires ParseInt(s) == W.Some(n)
    ensures FromLevelString(s) != Unknown <==> 0 <= n <= 5
    ensures -1 <= n <= 5 ==> ToInteger(FromLevelString(s)) == n
  {
    if -1 <= n <= 5 {
      ToFromInteger(n);
    }
  }

  /** A word gives a real level exactly when it is that level's name in any case. */
  lemma FromLevelStringWord(s: string, l: UserLevel)
    requires ParseInt(s).None? && l != Unknown
    ensures FromLevelString(s) == l <==> Upper(s) == Name(l)
  {
    if Upper(s) == Name(l) {
      ValueOfName(l);
    }
  }

  /** Lower-case letters never parse as a number. */
  lemma LettersAreNotNumbers(s: string)
    requires s != [] && forall k :: 0 <= k < |s| ==> 'a' <= s[k] <= 'z'
    ensures ParseInt(s).None?
  {
    assert !IsDigit(s[0]);
  }

  /** Every level's printed form parses back to the level. */
  lemma FromLevelStringOfToString(l: UserLevel)
    ensures FromLevelString(ToString(l)) == l
  {
    var s := ToString(l);
    LettersAreNotNumbers(s);
    ValueOfName(l);
    assert Upper(s) == Name(l);
  }

  /** Every level's integer, printed in decimal, parses back to the level. */
  lemma FromLevelStringOfInteger(l: UserLevel)
    ensures FromLevelString(ShowInt(ToInteger(l))) == l
  {
    ParseShowInt(ToInteger(l));
    FromToInteger(l);
  }

  /** Upper-casing leaves a decimal string alone and never makes one. */
  lemma ParseIntUpper(s: string)
    ensures ParseInt(Upper(s)) == ParseInt(s)
  {
    if s != [] {
      var u := Upper(s);
      assert u[0] == UpperChar(s[0]) && u[1..] == Upper(s[1..]);
      var signed := s[0] == '-' || s[0] == '+';
      var ds := if signed then s[1..] else s;
      var us := if signed then u[1..] else u;
      assert us == Upper(ds);
      UpperOfDigits(ds);
    }
  }

  /** Upper-casing keeps a run of digits and never turns anything else into one. */
  lemma UpperOfDigits(ds: string)
    ensures AllDigits(Upper(ds)) <==> AllDigits(ds)
    ensures AllDigits(ds) ==> Upper(ds) == ds
  {
    var us := Upper(ds);
    if AllDigits(us) {
      forall k | 0 <= k < |ds|
        ensures IsDigit(ds[k])
      {
        assert us[k] == UpperChar(ds[k]);
      }
    }
    if AllDigits(ds) {
      assert forall k :: 0 <= k < |ds| ==> us[k] == ds[k];
    }
  }

  /** The level string is read case-insensitively. */
  lemma FromLevelStringIgnoresCase(s: string)
    ensures FromLevelString(Upper(s)) == FromLevelString(s)
  {
    ParseIntUpper(s);
    UpperIdempotent(s);
  }

  // ---------------------------------------------------------------- unique identifiers

  /** `createUniqueId`: `nick!login@hostname`. */
  function CreateUniqueId(nick: string, login: string, host: string): string {
    nick + "!" + login + "@" + host
  }

  /** `isUniqueId`: the identifier contains both `@` and `!`. */
  predicate IsUniqueId(s: string) {
    '@' in s && '!' in s
  }

  lemma CreatedIdsAreUniqueIds(nick: string, login: string, host: string)
    ensures IsUniqueId(CreateUniqueId(nick, login, host))
  {
    var s := CreateUniqueId(nick, login, host);
    assert s[|nick|] == '!';
    assert s[|nick| + 1 + |login|] == '@';
  }

  /** The part of `s` before the first `c`, or all of `s` when there is none. */
  function PrefixBefore(s: string, c: char): (r: string)
    ensures c !in r && r <= s
    ensures |r| < |s| ==> s[|r|] == c
  {
    if s == [] then []
    else if s[0] == c then []
    else [s[0]] + PrefixBefore(s[1..], c)
  }

  lemma {:induction false} PrefixBeforeAppend(a: string, b: string, c: char)
    requires c !in a
    ensures PrefixBefore(a + [c] + b, c) == a
    decreases |a|
  {
    if a != [] {
      assert (a + [c] + b)[1..] == a[1..] + [c] + b;
      PrefixBeforeAppend(a[1..], b, c);
    }
  }

  /** What `getNickname` gives: no identifier, a nickname, or the exception `split` leads to. */
  datatype NickLookup = NoId | Nick(nick: string) | SplitFault

  /**
   * `getNickname`: the identifier up to its first `!`. Splitting an
   * identifier made only of `!` characters gives no parts at all, so
   * reading the first part throws.
   */
  function GetNickname(uniqueId: W.Option<string>): (r: NickLookup)
    ensures uniqueId.None? <==> r == NoId
    ensures r.Nick? ==> r.nick == PrefixBefore(uniqueId.value, '!')
    ensures r == SplitFault <==> uniqueId.Some? && uniqueId.value != [] && forall k :: 0 <= k < |uniqueId.value| ==> uniqueId.value[k] == '!'
  {
    match uniqueId
    case None => NoId
    case Some(s) =>
      if s != [] && forall k :: 0 <= k < |s| ==> s[k] == '!' then SplitFault
      else Nick(PrefixBefore(s, '!'))
  }

  /** The nickname of a created identifier is the nick it was created from. */
  lemma NicknameOfCreatedId(nick: string, login: string, host: string)
    requires '!' !in nick
    ensures GetNickname(W.Some(CreateUniqueId(nick, login, host))) == Nick(nick)
  {
    var s := CreateUniqueId(nick, login, host);
    assert s == nick + ['!'] + (login + "@" + host);
    PrefixBeforeAppend(nick, login + "@" + host, '!');
    assert s[|nick| + 1 + |login|] == '@';
  }

  // ---------------------------------------------------------------- levels of a user

  /** The fields of `User` the level logic reads. */
  datatype UserState = UserState(
    id: int,
    username: W.Option<string>,
    minLevel: UserLevel,
    uniqueId: W.Option<string>,
    identified: bool)

  /** The `channels_users` table as the model sees it, keyed by (channel id, user id). */
  datatype ChannelStore =
    | Offline                               // no prepared statement could be made
    | Failing                               // the statement throws an SQLException
    | Online(rows: map<(int, int), UserLevel>)

  /**
   * `getLevel(channel)`: the global level, raised to the channel's level
   * when the table has a row for this user; UNKNOWN when the database is
   * unreachable. Unidentified users and the null channel get the global level.
   */
  function GetLevelIn(u: UserState, channel: W.Option<int>, store: ChannelStore): (r: UserLevel)
    ensures !u.identified || channel.None? ==> r == u.minLevel
    ensures u.identified && channel.Some? && store.Offline? ==> r == Unknown
    ensures !store.Offline? ==> AtLeast(r, u.minLevel)
    ensures u.identified && channel.Some? && store.Online? && (channel.value, u.id) in store.rows
            ==> AtLeast(r, store.rows[(channel.value, u.id)]) && (r == u.minLevel || r == store.rows[(channel.value, u.id)])
    ensures (store.Failing? || (store.Online? && channel.Some? && (channel.value, u.id) !in store.rows)) ==> r == u.minLevel
  {
    if !u.identified || channel.None? then u.minLevel
    else
      match store
      case Offline => Unknown
      case Failing => u.minLevel
      case Online(rows) =>
        var key := (channel.value, u.id);
        if key in rows then Max(u.minLevel, rows[key]) else u.minLevel
  }

  /** `hasLevel(l)`: the global level is at least `l`. */
  predicate HasLevel(u: UserState, l: UserLevel) {
    AtLeast(u.minLevel, l)
  }

  /** `hasLevel(l, channel)`: the level in the channel is at least `l`. */
  predicate HasLevelIn(u: UserState, l: UserLevel, channel: W.Option<int>, store: ChannelStore) {
    AtLeast(GetLevelIn(u, channel, store), l)
  }

  /** Holding a level implies holding every lower one. */
  lemma HasLevelMonotone(u: UserState, l: UserLevel, lower: UserLevel, channel: W.Option<int>, store: ChannelStore)
    requires AtLeast(l, lower)
    ensures HasLevel(u, l) ==> HasLevel(u, lower)
    ensures HasLevelIn(u, l, channel, store) ==> HasLevelIn(u, lower, channel, store)
  {
  }

  /** A channel can only add to the global level, unless the database is unreachable. */
  lemma ChannelNeverLowers(u: UserState, l: UserLevel, channel: W.Option<int>, store: ChannelStore)
    requires !store.Offline?
    ensures HasLevel(u, l) ==> HasLevelIn(u, l, channel, store)
  {
  }

  /** The result of one write to the `users` table. */
  datatype WriteOutcome = NoConnection | WriteFails | Written

  /**
   * `setLevel(level)`: refused for unidentified users and when the write
   * does not happen; otherwise the global level becomes `level`.
   */
  function SetLevel(u: UserState, level: UserLevel, db: WriteOutcome): (r: (bool, UserState))
    ensures r.0 <==> u.identified && db == Written
    ensures !r.0 ==> r.1 == u
    ensures r.0 ==> r.1.minLevel == level && r.1 == u.(minLevel := level)
  {
    if !u.identified then (false, u)
    else match db
      case NoConnection => (false, u)
      case WriteFails => (false, u)
      case Written => (true, u.(minLevel := level))
  }

  /** After a successful `setLevel` the user holds exactly the new level globally. */
  lemma SetLevelThenHasLevel(u: UserState, level: UserLevel, db: WriteOutcome, l: UserLevel)
    requires SetLevel(u, level, db).0
    ensures HasLevel(SetLevel(u, level, db).1, l) <==> AtLeast(level, l)
  {
  }

  /**
   * `setLevel(channel, level)`: `REPLACE INTO channels_users` for an
   * identified user; nothing is written otherwise.
   */
  function SetChannelLevel(u: UserState, channel: int, level: UserLevel, store: ChannelStore): (r: (bool, ChannelStore))
    ensures r.0 <==> u.identified && store.Online?
    ensures !r.0 ==> r.1 == store
    ensures r.0 ==> r.1.Online? && r.1.rows.Keys == store.rows.Keys + {(channel, u.id)}
    ensures r.0 ==> r.1.rows[(channel, u.id)] == level
    ensures r.0 ==> forall k :: k in store.rows && k != (channel, u.id) ==> r.1.rows[k] == store.rows[k]
  {
    if !u.identified then (false, store)
    else match store
      case Offline => (false, store)
      case Failing => (false, store)
      case Online(rows) => (true, Online(rows[(channel, u.id) := level]))
  }

  /** `removeLevel(channel)`: deletes the user's row of the channel. */
  function RemoveChannelLevel(u: UserState, channel: int, store: ChannelStore): (r: (bool, ChannelStore))
    ensures r.0 <==> u.identified && store.Online?
    ensures !r.0 ==> r.1 == store
    ensures r.0 ==> r.1.Online? && r.1.rows.Keys == store.rows.Keys - {(channel, u.id)}
    ensures r.0 ==> forall k :: k in r.1.rows ==> r.1.rows[k] == store.rows[k]
  {
    if !u.identified then (false, store)
    else match store
      case Offline => (false, store)
      case Failing => (false, store)
      case Online(rows) => (true, Online(rows - {(channel, u.id)}))
  }

  /** Reading a channel level back after setting it gives the larger of it and the global level. */
  lemma SetChannelThenGet(u: UserState, channel: int, level: UserLevel, store: ChannelStore)
    requires SetChannelLevel(u, channel, level, store).0
    ensures GetLevelIn(u, W.Some(channel), SetChannelLevel(u, channel, level, store).1) == Max(u.minLevel, level)
  {
  }

  /** Setting a level in one channel leaves the user's level in every other channel as it was. */
  lemma SetChannelOthersUnchanged(u: UserState, channel: int, other: int, level: UserLevel, store: ChannelStore)
    requires other != channel
    ensures GetLevelIn(u, W.Some(other), SetChannelLevel(u, channel, level, store).1) == GetLevelIn(u, W.Some(other), store)
  {
    var r := SetChannelLevel(u, channel, level, store);
    if r.0 {
      assert (other, u.id) != (channel, u.id);
      assert ((other, u.id) in r.1.rows) == ((other, u.id) in store.rows);
    }
  }

  /** After removing a channel level the user is back at the global level there. */
  lemma RemoveChannelThenGet(u: UserState, channel: int, store: ChannelStore)
    requires RemoveChannelLevel(u, channel, store).0
    ensures GetLevelIn(u, W.Some(channel), RemoveChannelLevel(u, channel, store).1) == u.minLevel
  {
  }

  /** `unidentify`: not identified, no username, id 0, level NONE. */
  function Unidentify(u: UserState): (r: UserState)
    ensures !r.identified && r.username.None? && r.id == 0 && r.minLevel == None
    ensures r.uniqueId == u.uniqueId
  {
    u.(identified := false, username := W.None, id := 0, minLevel := None)
  }

  /** An unidentified user is at level NONE everywhere, below IDENTIFIED. */
  lemma UnidentifiedEverywhereNone(u: UserState, channel: W.Option<int>, store: ChannelStore)
    ensures GetLevelIn(Unidentify(u), channel, store) == None
    ensures !HasLevelIn(Unidentify(u), Identified, channel, store)
  {
  }
}

=== FILE: wrappers.dfy ===
/** Failure-compatible option type used wherever the source returns null. */
module Wrappers {

  /** `None` stands for a Java `null`; `Some(v)` for a present value. */
  datatype Option<+T> = None | Some(value: T) {

    predicate IsFailure() {
      None?
    }

    function PropagateFailure<U>(): Option<U>
      requires None?
    {
      None
    }

    function Extract(): T
      requires Some?
    {
      value
    }

    function GetOr(default: T): T {
      match this
      case Some(v) => v
      case None => default
    }
  }
}
